=== FILE: README.md ===
# Lucis, modelled in Dafny

Lucis is a path tracer written in Rust. A scene is a list of elements: each
element is a sphere with a material. The renderer shoots `samples` rays
through every pixel. Each ray bounces off the nearest element until it
misses or reaches the maximum bounce depth. It gathers the emitted light
times the attenuation of every material on its path. The per-pixel average
goes into an RGB image.

The repository holds the live engine (`ray_tracer/src/`) and two older
snapshots of the same design (`src/` and `OG/src/`). The older snapshots
have their own vector type, hit records, axis-aligned bounding boxes, a
bounding-volume hierarchy, and a multi-threaded tile renderer. This project
models the core of all three, one Dafny module per source concern:

- `Vectors`, `Rays`, `Shapes`, `Collisions`: the live engine's vector
  algebra (with the in-place `+=`, `*=`, `/=` on a `VecCell` class), rays,
  spheres, and collision faces and normals.
- `Utils`, `Perlin`, `Textures`, `Materials`: the random helpers, the Perlin
  permutation tables (the in-place shuffle keeps the `array`), the textures,
  and the four materials.
- `Images`, `Scenes`, `Renderer`: the image buffer (a class over a
  sequence), the scene's element list (a class whose `remove` and
  `get_element_mut` change it in place), and the renderer (the nearest-hit
  scan and the pixel loop as methods with loop invariants, the bounce
  recursion as a function).
- `Numeric`: the integer widths and Rust's saturating float-to-integer casts
  and truncating remainder.
- `LegacyMath`, `CoreRays`, `LegacyHits`, `LegacyBoxes`, `LegacyLists`,
  `LegacySpheres`, `LegacyCommon`, `LegacyTextures`, `LegacyMaterials`,
  `LegacyTracer`, `LegacyBvh`: the older snapshots. `LegacySlabExamples`
  holds the ray that exposes a defect of their slab test.

How the source is turned into Dafny:

- `f64` and `f32` values are reals.
- Integer widths (`u8`, `u32`, `usize`, `i32`) are explicit. A debug-build
  overflow panic, such as the `u32` product `width * height` of
  `render_scene`, is a `Panic` outcome.
- An `f64` division by zero gives an infinity or NaN, which reals cannot
  hold. Where the source can reach one, the model either stops with the
  `DividedByZero` case of `FloatOutcome` or excludes the case by a
  precondition named under "Left out".
- A Rust `panic!`, `unwrap` of `None` or failed `assert!` is the `Panic`
  case of `Outcome`. Rust's `Option` is `Option`.
- Every random draw (`random::<f64>()`, `rand::random_range`) is a parameter
  standing for a number in [0, 1).
- Code the model does not see through is a function parameter: `sqrt`,
  `sin`, the camera's `create_ray`, the shape's `collide`, per-object `hit`
  and `bounding_box`. Where a property needs something of such a function
  (a square root that squares back), the lemma requires it.

## Model

| member | source | states |
|---|---|---|
| Vectors.Index | ray_tracer/src/vec3.rs:82-93 | `v[i]` succeeds exactly for indices 0, 1 and 2, giving x, y and z respectively, and any other index panics with the message `Invalid vec3 index (i)` |
| Vectors.Decimal | ray_tracer/src/vec3.rs:90 | the index in the panic message is written as decimal digits, at least one and without a leading zero |
| Vectors.DecimalRoundTrip | ray_tracer/src/vec3.rs:90 | reading the digits of the panic message back gives the index itself |
| Vectors.WithComponent | ray_tracer/src/vec3.rs:95-104 | writing through `index_mut` sets the selected component and leaves every other index reading as before |
| Vectors.IndexAfterWrite | ray_tracer/src/vec3.rs:82-104 | after `v[i] = value`, reading index i gives value and every other index gives the old component |
| Vectors.ScaleLeft | ray_tracer/src/vec3.rs:142-148 | `t * v` multiplies every component by t |
| Vectors.ScaleCommutes | ray_tracer/src/vec3.rs:142-148 | `t * v == v * t` |
| Vectors.Neg | ray_tracer/src/vec3.rs:74-80 | `-v` is the additive inverse: `v + (-v)` is the zero vector |
| Vectors.NegInvolutive | ray_tracer/src/vec3.rs:74-80 | `-(-v) == v` |
| Vectors.Div | ray_tracer/src/vec3.rs:114-124 | `v / t` panics with "Division by zero" exactly when t is 0; otherwise the quotient times t is v |
| Vectors.NearZero | ray_tracer/src/vec3.rs:67-71 | near zero iff every component lies strictly within 1e-8 of 0 |
| Vectors.DotSymmetric | ray_tracer/src/vec3.rs:55-57 | the dot product is symmetric |
| Vectors.CrossProperties | ray_tracer/src/vec3.rs:59-65 | the cross product is orthogonal to both factors and `cross(a, b) == -cross(b, a)` |
| Vectors.NormalizedPanics | ray_tracer/src/vec3.rs:41-46 | normalising panics exactly when the squared length is 0, in particular for the zero vector |
| Vectors.Normalized | ray_tracer/src/vec3.rs:41-43 | `normalized(v)` panics exactly when the length is 0, and otherwise its result scaled by the length is v |
| Vectors.VecCell.constructor | ray_tracer/src/vec3.rs:15-17 | the new vector holds the given components |
| Vectors.VecCell.SetIndex | ray_tracer/src/vec3.rs:95-104 | `index_mut` writes only the selected component, and an index past 2 panics with `Invalid vec3 index (i)`, without writing |
| Vectors.VecCell.AddAssign | ray_tracer/src/vec3.rs:182-188 | `+=` leaves the componentwise sum |
| Vectors.VecCell.SubAssign | ray_tracer/src/vec3.rs:166-172 | `-=` leaves the componentwise difference |
| Vectors.VecCell.MulAssign | ray_tracer/src/vec3.rs:126-132 | `*=` by a vector leaves the componentwise product |
| Vectors.VecCell.ScaleAssign | ray_tracer/src/vec3.rs:134-140 | `*=` by a scalar scales every component |
| Vectors.VecCell.DivAssign | ray_tracer/src/vec3.rs:106-112 | `/=` divides componentwise: the new value times rhs, componentwise, is the old value |
| Rays.PositionAt | ray_tracer/src/ray.rs:20-22 | the position at t lies t directions away from the origin |
| Rays.PositionAtZero | ray_tracer/src/ray.rs:20-22 | the position at 0 is the origin; a ray of src/ray/ray.rs:11-25 is likewise at its origin at time 0 |
| Rays.PositionAtAffine | ray_tracer/src/ray.rs:20-22 | the position at s + t is the position at s moved t directions further; `at` of src/ray/ray.rs:23-25 is the same formula |
| Shapes.Bound | ray_tracer/src/shape.rs:41-46 | the box is centred on the sphere's centre and its sides are twice the radius long |
| Shapes.BoundHoldsCenter | ray_tracer/src/shape.rs:41-46 | for a radius ≥ 0 the minimum corner is at or below the maximum and the centre lies inside the box |
| Shapes.SurfaceNormal | ray_tracer/src/shape.rs:35-37 | the normal, scaled back by the distance to the centre, is the offset from the centre |
| Shapes.SurfaceNormalAtCenter | ray_tracer/src/shape.rs:35-37 | the normal at the centre itself panics |
| Collisions.Normal | ray_tracer/src/collisions.rs:19-24 | the normal is the surface normal on the outer face and its negation on the inner face |
| Collisions.CollisionFace | ray_tracer/src/collisions.rs:31-34 | the face is Outer exactly when the incident direction meets the normal at a negative dot product; a tangent ray is Inner |
| Collisions.NormalOpposesRay | ray_tracer/src/collisions.rs:18-24 | with the face computed from the ray, the normal never points along the ray (dot product ≤ 0) |
| Collisions.NormalKeepsLength | ray_tracer/src/collisions.rs:19-24 | flipping the normal keeps its length |
| Utils.RandomRange | ray_tracer/src/utils.rs:9-11 | for a draw in [0, 1) and min < max the value lies in [min, max) |
| Utils.U32RandomRange | ray_tracer/src/utils.rs:13-15 | the u32 subtraction `max - min` panics exactly when min > max |
| Utils.U32RandomRangeBound | ray_tracer/src/utils.rs:13-15 | for a draw in [0, 1) the value is below max when max ≥ 1, and 0 when max is 0 |
| Utils.U32RandomRangeIgnoresMin | ray_tracer/src/utils.rs:13-15 | `min` is added straight back, so any two admissible lower bounds give the same value |
| Utils.FirstInside | ray_tracer/src/utils.rs:17-30 | names the first candidate strictly inside the unit sphere; every earlier candidate lies outside |
| Utils.FirstInsideIsFirst | ray_tracer/src/utils.rs:17-30 | an accepted candidate with only rejected ones before it is the one the rejection loop returns |
| Utils.SampleUnitSphere | ray_tracer/src/utils.rs:17-30 | the loop returns the first candidate whose squared length is below 1, so every sample lies strictly inside the unit sphere |
| Utils.ReflectFlipsNormalComponent | ray_tracer/src/utils.rs:36-46 | for a unit normal, `dot(reflect(v, n), n) == -dot(v, n)` |
| Utils.Lerp | ray_tracer/src/utils.rs:57-59 | `lerp(a, b, 0) == a`, `lerp(a, b, 1) == b`, and for a weight in [0, 1] the value lies between a and b |
| Utils.TLerp | ray_tracer/src/utils.rs:62-77 | trilinear interpolation gives corner `c[0][0][0]` at (0, 0, 0) and `c[1][1][1]` at (1, 1, 1) |
| Utils.Hermite | ray_tracer/src/utils.rs:83-85 | the smoothing weight is 0 at 0 and 1 at 1 |
| Utils.PerlinTLerp | ray_tracer/src/utils.rs:79-101 | the three nested loops add the eight corner contributions in the order i, j, k |
| Utils.PerlinSumStep | ray_tracer/src/utils.rs:87-98 | each step of the nested loops adds the contribution of corner (i, j, k) |
| Utils.PerlinTermAtCorner | ray_tracer/src/utils.rs:90-95 | at u = v = w = 0 every corner contributes 0 |
| Utils.PerlinAtCorner | ray_tracer/src/utils.rs:79-101 | at u = v = w = 0 the interpolated noise is 0 |
| Images.FromVec3 | ray_tracer/src/image.rs:86-90 | the colour's red, green and blue are v[0], v[1] and v[2] |
| Images.MulColorUnits | ray_tracer/src/image.rs:92-101 | the channelwise product has white as its unit and black as its zero, on either side |
| Images.ToU8 | ray_tracer/src/image.rs:63-65 | `(c · 255) as u8` saturates: 0 for c ≤ 0, 255 for c ≥ 1, and the floor of c · 255 in between |
| Images.DisplayAsU8 | ray_tracer/src/image.rs:67-74 | the three printed numbers are `to_u8` of red, green and blue, in that order, each in [0, 255] |
| Images.FlattenRowMajor | ray_tracer/src/image.rs:45 | in a rectangular buffer, row y, column x is entry y · width + x of the flattened cells |
| Images.FlattenLength | ray_tracer/src/image.rs:45 | a buffer of h rows of w cells flattens to h · w cells |
| Images.PixelLines | ray_tracer/src/image.rs:45-47 | one pixel line per cell, in the cells' order |
| Images.PixelLineAt | ray_tracer/src/image.rs:45-47 | the k-th pixel line is the line of the k-th cell |
| Images.Image.GetColor | ray_tracer/src/image.rs:24-26 | `get_color(x, y)` reads `buffer[y][x]` and panics exactly when y or x is out of range; the frame's `get_color` in src/ray_tracer/frame.rs:23-25 behaves the same way |
| Images.Image.constructor | ray_tracer/src/image.rs:12-18 | `new(w, h)` keeps w and h and has h rows of w default cells; the frame's `new` in src/ray_tracer/frame.rs:11-17 builds the same shape with zero colours |
| Images.Image.SetColor | ray_tracer/src/image.rs:20-22 | `set_color(x, y, c)` makes `get_color(x, y)` return c, leaves every other cell, width and height unchanged, and panics without writing outside the buffer; the frame's `set_color` in src/ray_tracer/frame.rs:19-21 behaves the same way |
| Images.Image.Clear | ray_tracer/src/image.rs:31-35 | `clear` sets every cell to the default colour and keeps the buffer's shape, width and height; the frame's `clear` in src/ray_tracer/frame.rs:35-41 is the same operation |
| Images.PixelLinesAppend | ray_tracer/src/image.rs:45-47 | one more cell adds its pixel line at the end |
| Images.FlattenAppend | ray_tracer/src/image.rs:45 | one more row adds its cells at the end of the flattened buffer |
| Images.WriteAsPpm | ray_tracer/src/image.rs:43-48 | the output is the header with width and height, then one pixel line per cell in row-major buffer order |
| Images.PpmPixelPosition | ray_tracer/src/image.rs:43-48 | in a valid image, the pixel at row y, column x is line 1 + y · width + x of the output, and there are 1 + width · height lines |
| Images.PpmLinePosition | ray_tracer/src/image.rs:43-47 | after the one-line header, cell k of the written cells is line k + 1 |
| Images.PpmCellPosition | ray_tracer/src/image.rs:43-47 | for a rectangular buffer written row by row after the header, the cell at row y, column x is line 1 + y · width + x |
| Perlin.Identity | ray_tracer/src/perlin.rs:60-65 | the starting table has 256 entries and entry i holds i |
| Perlin.PermutationEntries | ray_tracer/src/perlin.rs:31-33 | every entry of a permutation table of 0..255 is itself a valid index below 256 |
| Perlin.SwapTarget | ray_tracer/src/perlin.rs:91-92 | the partner `u32_random_range(0, i)` never panics and is at most i, strictly below i once i ≥ 1 |
| Perlin.Swap | ray_tracer/src/perlin.rs:93-95 | the exchange puts p[j] at i and p[i] at j and leaves every other entry |
| Perlin.SwapPreservesMultiset | ray_tracer/src/perlin.rs:93-95 | an exchange keeps the multiset of entries |
| Perlin.PermuteFrom | ray_tracer/src/perlin.rs:90-97 | the whole shuffle keeps the length and the multiset of entries |
| Perlin.ShuffledIdentityIsPermutation | ray_tracer/src/perlin.rs:60-70 | the shuffled identity holds each of 0..255 exactly once |
| Perlin.Permute | ray_tracer/src/perlin.rs:90-97 | `permute` swaps in place from position n − 1 down to 0 and leaves the same multiset of entries |
| Perlin.GeneratePerm | ray_tracer/src/perlin.rs:60-70 | `generate_perm` fills the identity and shuffles it; the result is a permutation of 0..255 |
| Perlin.NewNoise | ray_tracer/src/perlin.rs:13-29 | `Perlin::new` keeps the 256 gradients and builds three permutation tables, each from its own draws |
| Perlin.LowByte | ray_tracer/src/perlin.rs:32 | `i & 255` lies in [0, 255] and differs from i by a multiple of 256, negative i included |
| Perlin.XorHash | ray_tracer/src/perlin.rs:31-33 | the hash is always a valid index into the 256 gradient vectors |
| Perlin.Pow2 | ray_tracer/src/perlin.rs:32 | powers of two are at least 1 (the bound the XOR argument uses) |
| Perlin.XorBelow | ray_tracer/src/perlin.rs:32 | the XOR of two numbers below 2^k is below 2^k, so the XOR of table entries stays below 256 |
| Perlin.NoiseCube | ray_tracer/src/perlin.rs:46-54 | the eight corner lookups form a 2 × 2 × 2 cube, every lookup in bounds |
| Perlin.SmoothNoise | ray_tracer/src/perlin.rs:35-58 | `smooth_noise` interpolates the eight corner gradients found through `xor_hash` |
| Perlin.SamplerAt | ray_tracer/src/perlin.rs:35-58 | the sampler of a noise field gives `smooth_noise` at every point |
| Perlin.TurbulenceRound | ray_tracer/src/perlin.rs:78-82 | one round adds the next layer, halves the weight and doubles the probe |
| Perlin.ScaleTwice | ray_tracer/src/perlin.rs:81 | doubling a probe already scaled by 2^n scales it by 2^(n+1) |
| Perlin.Turbulence | ray_tracer/src/perlin.rs:73-85 | after n rounds the weight is 0.5^n and the probe p · 2^n; the result is the absolute value of the layered sum, never negative, and 0 for depth 0 |
| Textures.CheckeredValue | ray_tracer/src/texture.rs:43-53 | the checkerboard gives `odd` exactly where sin(10x) · sin(10y) · sin(10z) is negative and `even` elsewhere |
| Textures.CheckeredIgnoresUV | ray_tracer/src/texture.rs:44 | the checkerboard ignores the texture coordinate |
| Textures.SolidConstant | ray_tracer/src/texture.rs:66-70 | a solid texture gives its colour at every coordinate and point |
| Textures.SolidValue | ray_tracer/src/texture.rs:66-70 | the stored colour, whatever the coordinate and point (its properties are stated by Textures.SolidConstant) |
| Textures.Remap | ray_tracer/src/texture.rs:125 | each Perlin channel `0.5 · (1 + sin(..))` lies in [0, 1] for a sine bounded by 1 |
| Textures.PerlinValue | ray_tracer/src/texture.rs:121-132 | the three channels are equal and, for a sine bounded by 1, lie in [0, 1] |
| Textures.Value | ray_tracer/src/texture.rs:21-29 | `TextureType::value` is the wrapped texture's value |
| Textures.FromColor | ray_tracer/src/texture.rs:72-76 | the texture made from a colour gives that colour everywhere |
| Textures.NewScaled | ray_tracer/src/texture.rs:102-107 | `new_scaled` keeps the scale and the fresh generator |
| Textures.NewPerlin | ray_tracer/src/texture.rs:98-100 | `new()` has scale 1 |
| Textures.FromDeserialized | ray_tracer/src/texture.rs:91-95 | deserialisation rebuilds the texture through `new_scaled` with the stored scale |
| Materials.LambertianResolve | ray_tracer/src/material.rs:57-71 | the bounced ray starts at the hit point along normal + unit vector, or along the normal when that sum is near zero; the colour is the texture's value at the hit; nothing is emitted |
| Materials.LambertianDirectionNotNearZero | ray_tracer/src/material.rs:59-63 | unless the surface normal itself is near zero, the bounce direction is never near zero |
| Materials.RefRatio | ray_tracer/src/material.rs:94-97 | the ratio is 1 / index on the outer face and the index itself on the inner face |
| Materials.ReflectanceEnds | ray_tracer/src/material.rs:85-89 | `reflectance(1, r)` is x² with x = (1 − r) / (1 + r), and `reflectance(0, r)` is 1; the older dielectric's Schlick approximation in src/ray_tracer/dielectric.rs:14-19 has the same two ends |
| Materials.Reflectance | ray_tracer/src/material.rs:85-89 | Schlick's approximation x² + (1 − x²)(1 − cos)^5 with x = (1 − ratio)/(1 + ratio); Materials.ReflectanceEnds states its values at cos 1 and 0 |
| Materials.IncidenceCos | ray_tracer/src/material.rs:99 | the cosine is the minimum of `dot(-direction, normal)` and 1: at most both, and equal to one of them |
| Materials.DielectricResolve | ray_tracer/src/material.rs:92-116 | reflect when `ratio · sin > 1` or when the reflectance beats the draw, refract otherwise; attenuation white, no emission |
| Materials.MustReflectIgnoresDraw | ray_tracer/src/material.rs:102-105 | under total internal reflection the random draw does not change the result |
| Materials.MetalResolve | ray_tracer/src/material.rs:134-161 | the bounced ray starts at the hit point along the mirror direction plus fuzz times the sphere sample; the texture colour on the outer face, black on the inner face; nothing emitted |
| Materials.MetalWithoutFuzzMirrors | ray_tracer/src/material.rs:136-145 | with fuzz 0 the bounce is the exact mirror direction |
| Materials.DiffuseLightResolve | ray_tracer/src/material.rs:175-191 | the ray passes unchanged, the attenuation is black and the emission is `hue * brightness` |
| Materials.Resolve | ray_tracer/src/material.rs:30-41 | `MaterialType::resolve` is the wrapped material's `resolve` |
| Materials.OnlyLightsEmit | ray_tracer/src/material.rs:68-157 | every material but the diffuse light emits black |
| Scenes.SetMaterial | ray_tracer/src/scene.rs:20-24 | `set_material` replaces the material and keeps the id and the shape |
| Scenes.CollideIsShapeCollide | ray_tracer/src/scene.rs:26-30 | an element collides exactly as its shape does, whatever its material |
| Scenes.Collide | ray_tracer/src/scene.rs:26-30 | an element collides through its shape (stated by Scenes.CollideIsShapeCollide) |
| Scenes.Retain | ray_tracer/src/scene.rs:58-60 | removal never lengthens the list |
| Scenes.RetainSubset | ray_tracer/src/scene.rs:58-60 | the retained elements all come from the list and none has the removed id |
| Scenes.RetainAppend | ray_tracer/src/scene.rs:59 | retaining distributes over concatenation, so kept elements keep their relative order |
| Scenes.RetainKeepsOthers | ray_tracer/src/scene.rs:59 | every element with a different id survives |
| Scenes.RetainAbsent | ray_tracer/src/scene.rs:58-60 | removing an id no element has changes nothing |
| Scenes.RetainIdempotent | ray_tracer/src/scene.rs:58-60 | removing twice is removing once |
| Scenes.FindFirst | ray_tracer/src/scene.rs:64-66 | finds the first position holding the id, or none exactly when no element has it |
| Scenes.Scene.constructor | ray_tracer/src/scene.rs:46-50 | the scene holds the given elements |
| Scenes.Scene.Remove | ray_tracer/src/scene.rs:57-60 | `remove(id)` leaves the list retained by id, in which no element has that id |
| Scenes.Scene.GetElement | ray_tracer/src/scene.rs:70-75 | `get_element(id)` returns the first element with that id and panics with "ElementId not found" exactly when there is none |
| Scenes.Scene.UpdateElement | ray_tracer/src/scene.rs:62-68 | an update through `get_element_mut(id)` changes only the first element with that id; without one it panics and nothing changes |
| Scenes.Scene.SetMaterialOf | ray_tracer/src/scene.rs:21-68 | `get_element_mut(id).set_material(m)` replaces the material of the first element with that id only, or panics and changes nothing |
| Renderer.DefaultConfig | ray_tracer/src/renderer.rs:32-40 | the default configuration is 3 bounces, 5 samples and a white background |
| Renderer.NewRayTracer | ray_tracer/src/renderer.rs:49-55 | `RayTracer::new` copies the bounce depth, the sample count and the background colour from the configuration |
| Renderer.ScanNearest | ray_tracer/src/renderer.rs:213-227 | after n elements the scan holds nothing exactly when no element's hit lies strictly between 0.001 and f64::MAX; otherwise it holds an element among the first n whose t is at most every qualifying t, and strictly less than those of earlier elements (ties go to the first) |
| Renderer.NearestHit | ray_tracer/src/renderer.rs:212-234 | the chosen element is one of the scene's elements, and its material is valid when all are |
| Renderer.NearestIgnoresCloseHits | ray_tracer/src/renderer.rs:221 | when every hit lies at or before t = 0.001, nothing is chosen |
| Renderer.ComputeCollision | ray_tracer/src/renderer.rs:212-234 | the loop returns the nearest qualifying element and record, as specified by the scan |
| Renderer.ComputeCollisionElement | ray_tracer/src/renderer.rs:236-241 | returns the element of `compute_collision`, and none exactly when that returns none |
| Renderer.SameBudgetSameColor | ray_tracer/src/renderer.rs:57-72 | a ray's colour depends only on the bounces left and on their draws, not on the absolute depth |
| Renderer.ComputeRayColor | ray_tracer/src/renderer.rs:57-72 | black once the bounce budget is spent, the background on a miss, else emitted + attenuation × the bounced colour; stated by Renderer.ColorAfterHit, NoBudgetIsBlack, OneBounceSeesEmission and SameBudgetSameColor |
| Renderer.ColorAfterHit | ray_tracer/src/renderer.rs:57-72 | below the bounce limit, when the nearest hit is found the colour is the emitted light plus the material colour times the colour of the reflected ray one bounce deeper |
| Renderer.RemainingBudget | ray_tracer/src/renderer.rs:57-72 | tracing from depth d with budget m equals tracing from depth 0 with budget m − d and the draws shifted by d |
| Renderer.NoBudgetIsBlack | ray_tracer/src/renderer.rs:58-60 | with a bounce budget of 0 every ray is black |
| Renderer.OneBounceSeesEmission | ray_tracer/src/renderer.rs:62-71 | with a budget of 1 a ray shows the background on a miss and the emitted light of the nearest element on a hit |
| Renderer.DarkSceneIsBlack | ray_tracer/src/renderer.rs:57-72 | with no light source and a black background every ray is black at any depth |
| Renderer.PixelOfIndex | ray_tracer/src/renderer.rs:88-89 | pixel index i maps to row i / width and column i % width inside the grid, and the two give i back |
| Renderer.IndexOfPixel | ray_tracer/src/renderer.rs:119-123 | the index map is one-to-one and onto the grid: row r, column c is index r · width + c, and that index maps back to (r, c) |
| Renderer.PixelSamples | ray_tracer/src/renderer.rs:93-106 | sample s of a pixel is the traced colour of the camera ray through the jittered pixel mapped to [0, 1] world coordinates |
| Renderer.RepeatAverage | ray_tracer/src/renderer.rs:108-112 | adding a value to itself n times and dividing by n gives the value back |
| Renderer.RepeatIsProduct | ray_tracer/src/renderer.rs:105 | adding x to itself n times is n · x |
| Renderer.SumColorsUniform | ray_tracer/src/renderer.rs:91-106 | the accumulated colour of n equal samples is the sample added n times in every channel |
| Renderer.AverageOfUniformSamples | ray_tracer/src/renderer.rs:91-113 | when every sample of a pixel has colour c, the pixel is c, gamma corrected: the averaging is exact |
| Renderer.ShadePixel | ray_tracer/src/renderer.rs:87-116 | the per-pixel closure returns the gamma-corrected average of the pixel's samples; it divides by zero exactly when the width or height is 1 (world coordinates over `width - 1`, `height - 1`) or there are no samples (the average) |
| Renderer.SampleRayFrom | ray_tracer/src/renderer.rs:94-101 | each sample's ray is the camera ray through (column + jitter) / (width − 1), (row + jitter) / (height − 1) |
| Renderer.WritePixels | ray_tracer/src/renderer.rs:119-124 | every pixel i is written to `buffer[i % width][i / width]`, no write overwrites another, and the image stays well formed |
| Renderer.ShadeAll | ray_tracer/src/renderer.rs:85-117 | entry i of the collected vector is the colour of pixel i, for every index below width · height; it divides by zero exactly when there is a pixel and the per-pixel closure divides by zero |
| Renderer.TraceSample | ray_tracer/src/renderer.rs:93-104 | one turn of the sample loop computes exactly the colour of that sample of the pixel |
| Renderer.RenderScene | ray_tracer/src/renderer.rs:76-127 | panics exactly when `width * height` overflows `u32`; otherwise divides by zero exactly when ShadeAll does, and else returns a fresh `Image::new(height, width)` in which pixel (row, col) holds the 8-bit form of its colour at `buffer[col][row]`: every write is in bounds, and the picture is stored transposed |
| Numeric.Trunc | src/core/texture/checkered_texture.rs:26-27 | the integer part an `as` cast keeps: rounding toward zero, within 1 of the value on the side of zero |
| Numeric.SaturateU8 | ray_tracer/src/image.rs:64 | `x as u8` lies in [0, 255], is 0 at or below 0, 255 at or above 255, and truncates in between |
| Numeric.SaturateU32 | src/common.rs:28 | `x as u32` lies in [0, 2^32) and truncates inside the range |
| Numeric.SaturateI32 | src/core/texture/checkered_texture.rs:26-27 | `x as i32` lies in the i32 range and truncates toward zero inside it |
| Numeric.RustRem | src/core/texture/checkered_texture.rs:33 | Rust's `%` takes the sign of the dividend: it agrees with the Euclidean remainder for a non-negative dividend, and for a negative one it is `-(|a| mod b)`, at most 0, below the divisor in magnitude, with `a` equal to the truncated quotient times `b` plus the remainder |
| Numeric.GridIndexBound | ray_tracer/src/renderer.rs:79-81 | a row-major position (row, col) of the grid lies below width · height |
| Numeric.DivModUnique | ray_tracer/src/renderer.rs:88-89 | `i / width` and `i % width` recover the row and column that built i |
| CoreRays.NewInstant | src/core/ray.rs:18-24 | keeps the origin and time and stores a direction that, scaled by the original length, is the original direction, and has unit length for an exact square root; panics with "Division by zero" exactly for the zero direction |
| CoreRays.NewInstantNormalizes | src/core/ray.rs:21 | the stored direction is `Vec3::normalized(direction)`, and construction panics exactly when that call does |
| CoreRays.New | src/core/ray.rs:14-16 | `Ray::new` is `new_instant` at time 0, with the same panic and a unit direction for an exact square root |
| CoreRays.PositionAt | src/core/ray.rs:42-44 | the position at t lies t directions from the origin |
| CoreRays.PositionAtAffine | src/core/ray.rs:42-44 | position 0 is the origin, travelling s then t is travelling s + t, and the ray's time plays no part |
| CoreRays.CoreRay.constructor | src/core/ray.rs:4-11 | the ray holds the given origin, direction and time |
| CoreRays.CoreRay.SetTime | src/core/ray.rs:26-28 | `set_time` changes the time and nothing else |
| LegacyMath.NegAsWrittenIsNotNegation | src/math/vec3.rs:99-105 | the snapshot's `-v` equals the negation only for the zero vector; `-(1, 1, 1)` is (1, 1, 1) |
| LegacyMath.NegAsWritten | src/math/vec3.rs:99-105 | the snapshot's `-v`, a copy of v; LegacyMath.NegAsWrittenIsNotNegation states that it negates only the zero vector |
| LegacyMath.NormalizedKeepsDirection | src/math/vec3.rs:80-82 | `normalized(v)` of a non-zero vector succeeds, and scaled back by the length it gives v |
| LegacyMath.NormalizeStepsNotUnit | src/math/vec3.rs:84-90 | the in-place `normalize` of (1, 1, 0) has squared length 7/6 and is no multiple of (1, 1, 0) |
| LegacyMath.NormalizeSteps | src/math/vec3.rs:84-90 | x divided by the length of v, then y by the length of the updated vector, then z by the length of that; LegacyMath.NormalizeStepsNotUnit states that this is not a unit vector |
| LegacyMath.UnequalNotParallel | src/math/vec3.rs:84-90 | a vector whose first two components differ is not a multiple of (1, 1, 0) |
| LegacyMath.Clamp | src/math/mod.rs:5-7 | the result never exceeds max, is at least min when min ≤ max, is the value inside the range, and the nearer end outside it |
| LegacyMath.ClampIdempotent | src/math/mod.rs:5-7 | clamping a clamped value changes nothing |
| LegacyMath.Vec3Cell.constructor | src/math/vec3.rs:44-46 | the vector holds the given components |
| LegacyMath.Vec3Cell.MulAssign | src/math/vec3.rs:149-155 | `*=` by a vector multiplies componentwise |
| LegacyMath.Vec3Cell.DivAssignAsWritten | src/math/vec3.rs:131-135 | `/=` by a vector, as written, stores the componentwise product |
| LegacyMath.Vec3Cell.Normalize | src/math/vec3.rs:84-90 | `normalize` divides x by the length, then y by the new length, then z by the newest, in place, and returns the vector; it divides by zero exactly for the zero vector |
| LegacyMath.NormalizedIsUnit | src/math/vec3.rs:80-82 | `normalized` of any non-zero vector succeeds and, for an exact square root, has unit length |
| LegacyMath.DivAssignAsWrittenMultiplies | src/math/vec3.rs:131-135 | the product `/=` stores equals the quotient exactly when every component of the left side is 0 or the matching divisor is 1 or -1; `(2, 2, 2) /= (2, 2, 2)` gives (4, 4, 4), not (1, 1, 1) |
| LegacyHits.NewRecordAsWritten | src/hittable.rs:20-41 | the record as built: front-facing iff the direction meets the outward normal at a negative dot product, the point is `position_at(t)`, t, material and coordinate are stored, and the normal is always the outward one |
| LegacyHits.NewRecordAsWrittenFollowsRay | src/hittable.rs:7-38 | on a back face the normal as built points along the ray, against the field's promise; for instance (1, 0, 0) leaving through (1, 0, 0) |
| LegacyHits.NewRecord | src/hittable.rs:20-41 | the record with a true negation: the same point, t, material, coordinate and face flag, the outward normal on the front face and its negation on the back, never pointing along the ray and of the same length |
| LegacyHits.NewRecordAgreement | src/hittable.rs:34-38 | the corrected and as-written records agree exactly on front faces and on a zero normal |
| LegacyHits.NewCoreRecord | src/core/hittable.rs:20-41 | the src/core record with the back-face normal truly negated: the point is the timed ray's position at t, the face flag and fields are stored as given, the normal is the outward normal on the front face and its negation on the back face, and it opposes the ray |
| LegacyHits.NewCoreRecordAsWritten | src/core/hittable.rs:20-41 | the src/core record as written: point, face flag and fields as given, and the normal is the outward normal on both faces, since src/core's `-` is the identity |
| LegacyHits.NewCoreRecordAsWrittenFollowsRay | src/core/hittable.rs:34-38 | as written, on the back face the stored normal meets the ray at a positive dot product; a ray along (1, 0, 0) against outward normal (1, 0, 0) keeps normal (1, 0, 0) |
| LegacyHits.Uv | src/core/hittable.rs:63-65 | `uv()` returns the recorded coordinate and panics exactly when none was recorded |
| LegacyBoxes.Axis | src/ray_tracer/aabb.rs:26 | `v[i]` for an index in range is the component `Index` returns without a panic |
| LegacyBoxes.EnclosesTransitive | src/ray_tracer/aabb.rs:55-56 | a box inside a box inside a third is inside the third |
| LegacyBoxes.DegenerateUnion | src/ray_tracer/aabb.rs:56-66 | the box `bound_aabbs` returns as written has equal corners, each at or below both minimum corners |
| LegacyBoxes.BoundAabbsAsWritten | src/core/shape/aabb.rs:18-28 | the loop over the three axes returns exactly that degenerate box |
| LegacyBoxes.DegenerateUnionLosesBoxes | src/ray_tracer/aabb.rs:61-62 | the box as written encloses an argument only when that argument is flat; it misses the unit cube united with itself |
| LegacyBoxes.Union | src/ray_tracer/aabb.rs:55-66 | the intended union encloses both boxes |
| LegacyBoxes.UnionIsLeast | src/ray_tracer/aabb.rs:55-66 | the intended union lies inside every box enclosing both, and a box united with itself is itself |
| LegacyBoxes.Compare | src/core/shape/aabb.rs:30-33 | `compare` is true iff box0's minimum is strictly less than box1's on the axis, and panics exactly for an axis above 2 |
| LegacyBoxes.CompareIsStrictOrder | src/core/shape/aabb.rs:30-33 | on each valid axis `compare` is irreflexive, asymmetric and transitive |
| LegacyBoxes.BoundingBox | src/core/shape/aabb.rs:36-40 | a box's bounding box is some box equal to itself in extent |
| LegacyBoxes.AxisInterval | src/ray_tracer/aabb.rs:26-43 | a moving axis gives an ordered interval; a still axis gives the ray's time twice, or ends the test only when the box is inverted on that axis |
| LegacyBoxes.SlabHit | src/ray_tracer/aabb.rs:24-53 | the loop returns the slab test of the three axes, and a hit leaves a non-empty interval; SlabFindsInsideOnMovingRays proves that test finds every ray moving along all axes that is inside the box within the interval |
| LegacyBoxes.CoreHit | src/core/shape/aabb.rs:42-75 | the src/core slab test returns a default record exactly when the same slab test passes, so SlabFindsInsideOnMovingRays applies to it as well |
| LegacyBoxes.SlabZeroDirectionMisses | src/ray_tracer/aabb.rs:33-37 | a ray that does not move along some axis never hits any box, because the interval collapses to the ray's time and then to nothing |
| LegacyBoxes.AxisStep | src/ray_tracer/aabb.rs:26-46 | the corrected step only narrows the interval, and on a still axis keeps it exactly when the origin lies within the slab |
| LegacyBoxes.PositionAxis | src/core/ray.rs:42-44 | coordinate i of the position at t is origin[i] + direction[i] · t |
| LegacyBoxes.CrossingTimes | src/ray_tracer/aabb.rs:39-42 | a time at which a moving coordinate is strictly inside the slab lies strictly between the two crossing times |
| LegacyBoxes.SlabFixedFindsInside | src/ray_tracer/aabb.rs:23-53 | the corrected slab test accepts every ray that is strictly inside the box at some time strictly inside the interval |
| LegacyBoxes.SlabAgreesOnMovingRays | src/ray_tracer/aabb.rs:24-53 | on a ray that moves along every axis, the slab test as written and the corrected one give the same answer |
| LegacyBoxes.SlabFindsInsideOnMovingRays | src/ray_tracer/aabb.rs:24-53 | the slab test as written accepts every ray that moves along every axis and is strictly inside the box at some time strictly inside the interval |
| LegacySlabExamples.CentreRayPosition | src/core/ray.rs:42-44 | the ray from (0.5, 0.5, 0.5) along z is at (0.5, 0.5, 0.75) at t = 0.25 |
| LegacySlabExamples.CentreRayInside | src/ray_tracer/aabb.rs:23-53 | that ray is strictly inside the unit cube at t = 0.25 |
| LegacySlabExamples.SlabZeroDirectionCounterexample | src/ray_tracer/aabb.rs:33-37 | the slab test as written rejects that ray over [0, 10] |
| LegacyLists.ScanPrefix | src/core/hittable_list.rs:36-55 | after n children `closest_hit` is the t of the hit kept so far, or the upper bound when none is kept |
| LegacyLists.Restrict | src/core/hittable_list.rs:47 | a hit is kept under a new upper bound exactly when its t lies at or before that bound, and is then unchanged |
| LegacyLists.ScanMissesIffAllMiss | src/hittable_list.rs:32-50 | the list reports no hit exactly when no child is hit over the whole interval |
| LegacyLists.ScanNarrows | src/core/hittable_list.rs:38-51 | when each child reports its nearest hit, `closest_hit` only decreases from the upper bound as the scan goes on |
| LegacyLists.ScanFindsNearest | src/core/hittable_list.rs:36-55 | when each child reports its nearest hit, the list finds a hit exactly when some child is hit, and its t is no greater than any child's |
| LegacyLists.EnclosingPrefix | src/core/hittable_list.rs:76-94 | the enclosing box is absent exactly when no child has a box |
| LegacyLists.EnclosingIsLeast | src/hittable_list.rs:52-68 | the enclosing box encloses every child's box and lies inside every box that does |
| LegacyLists.HittableList.constructor | src/core/hittable_list.rs:11-20 | `new(objects)` holds exactly those children (and `default` none) |
| LegacyLists.HittableList.Clear | src/core/hittable_list.rs:22-24 | `clear` empties the list |
| LegacyLists.HittableList.Add | src/core/hittable_list.rs:26-28 | `add` appends the child at the end and keeps the others in order |
| LegacyLists.HittableList.Objects | src/core/hittable_list.rs:30-32 | `objects()` returns the children in insertion order |
| LegacyLists.HittableList.Hit | src/core/hittable_list.rs:36-55 | the loop returns the hit the scan specifies, and none for an empty list |
| LegacyLists.HittableList.BoundingBox | src/core/hittable_list.rs:77-93 | the loop returns the enclosing box the fold specifies |
| LegacySpheres.RootsOrdered | src/sphere.rs:37-40 | for a moving ray and a non-negative square root, the root tried first is the smaller |
| LegacySpheres.RootOnSphere | src/sphere.rs:21-37 | a root built from a square root of the discriminant puts the ray on the sphere |
| LegacySpheres.RootsOnSphere | src/sphere.rs:37-40 | with a square root that squares back, both roots put the ray at distance radius from the centre |
| LegacySpheres.SelectRoot | src/sphere.rs:37-44 | the choice is the first root when it lies in [t_min, t_max], else the second when that does, else none exactly when neither does |
| LegacySpheres.SelectRootIsNearest | src/sphere.rs:37-44 | with ordered roots the choice is the nearest root in the interval |
| LegacySpheres.SelectRootRestricts | src/sphere.rs:39-43 | with ordered roots, lowering the upper bound keeps the chosen root while it stays within and loses it otherwise |
| LegacySpheres.SphereRoot | src/sphere.rs:21-44 | panics with "Error: division by zero" exactly for a still ray, finds nothing for a negative discriminant, and a found root lies in [t_min, t_max] |
| LegacySpheres.SphereHit | src/sphere.rs:19-60 | panics exactly when the root does or the radius of a hit sphere is 0; a hit lies at the chosen root in the interval, at the ray's position, with the sphere's material, a normal along (point − centre) / radius on the front face, and never pointing along the ray |
| LegacySpheres.CenterEnds | src/ray_tracer/moving_sphere.rs:33-38 | the centre is `center0` at `time0` and `center1` at `time1` |
| LegacySpheres.Center | src/ray_tracer/moving_sphere.rs:34-38 | the linear interpolation of the centres at a time; LegacySpheres.CenterEnds and CenterShift state its ends and its constant speed |
| LegacySpheres.CenterShift | src/ray_tracer/moving_sphere.rs:33-38 | the centre moves by the same vector over any span of the same length |
| LegacySpheres.MovingSphereHit | src/ray_tracer/moving_sphere.rs:33-75 | the sphere hit against the centre at the ray's time: the same panics, a hit exactly when the shared root selection (smaller root if in the interval, else the larger) finds one, at that root and at the ray's position there, and an outward normal along (point − centre) / radius; with `time1 == time0` it still panics for a ray that does not move and otherwise divides by zero |
| LegacySpheres.Intersection | src/core/refactor.rs:78-100 | panics exactly for a still ray, is none exactly for a negative discriminant, and otherwise returns both roots, smaller first |
| LegacySpheres.RSphereHit | src/core/refactor.rs:14-39 | panics with `intersection`'s message when it panics; with no roots there is no hit; with roots there is a hit exactly when `SelectRoot` chooses one, at that root, which is the nearest root in the interval, and a panic exactly when `surface_normal` panics at the chosen point; a hit lies at the ray's position, with the sphere's material, a texture coordinate and, through the corrected record, a normal opposing the ray |
| LegacySpheres.RSphereHitRestricts | src/core/refactor.rs:17-24 | lowering the upper bound keeps the sphere's hit while it stays within and loses it otherwise, which is what a list's scan asks of its children |
| LegacySpheres.SphereBoundingBox | src/core/shape/sphere.rs:21-30 | the box is always present, centred on the sphere's centre, and contains the centre for a non-negative radius |
| LegacyCommon.RandomFloatInRange | src/common.rs:23-25 | for a draw in [0, 1) and min < max the number lies in [min, max) |
| LegacyCommon.RandomFloatInRangeAgrees | OG/src/utils/other.rs:14-16 | the older helper draws the same number as the live engine's `random_range` |
| LegacyCommon.RandomNatural | src/common.rs:27-29 | panics exactly when min > max (the u32 subtraction underflows); otherwise a draw in [0, 1) gives a number below max, or 0 when max is 0 |
| LegacyCommon.RandomNaturalIgnoresMin | OG/src/utils/other.rs:18-20 | the lower bound has no effect: `random_natural(min, max)` is `random_natural(0, max)` |
| LegacyCommon.NewInterval | src/common.rs:38-42 | `Interval::new` stores start and end, and panics exactly when start > end |
| LegacyCommon.NewIntervalV3 | src/common.rs:53-57 | the vector interval stores both corners, and panics exactly when some component of start exceeds end's |
| LegacyCommon.IntervalCell.constructor | OG/src/utils/other.rs:22-25 | the interval holds the given bounds |
| LegacyCommon.IntervalCell.Ceil | OG/src/utils/other.rs:32-34 | `ceil(x)` changes only max, never raises it, keeps it at or above min, and keeps exactly the times at or below max(min, x) |
| LegacyCommon.IntervalCell.Floor | OG/src/utils/other.rs:36-38 | `floor(x)` changes only min, never lowers it, keeps it at or below max, and keeps exactly the times at or above min(max, x) |
| LegacyCommon.MapNormalizedComponent | src/utils/color.rs:12-14 | the result is an i32; for c in [0, 1] it lies in [0, 255] and is the floor of 255·c |
| LegacyCommon.MapNormalizedComponentShape | src/utils/color.rs:12-14 | 0 maps to 0, 1 to 255, and the map never decreases |
| LegacyCommon.WriteColor | src/utils/color.rs:3-10 | the line holds three numbers: channels 0, 1 and 2 in that order, each mapped to [0, 255] |
| LegacyTextures.DefaultCoord | src/core/texture/texture.rs:13-17 | the default texture coordinate is (0, 0) |
| LegacyTextures.Tile | src/core/texture/checkered_texture.rs:26-30 | the tile is row · 10 + col in i32, and panics exactly when the multiplication or the addition overflows |
| LegacyTextures.TextureValue | src/core/texture/checkered_texture.rs:25-38 | a solid texture gives its colour; the sine checkerboard delegates by the sign of sin(10u)·sin(10v); any colour returned is one of the texture's solid leaves |
| LegacyTextures.SolidConstant | src/core/texture/texture.rs:27-37 | a solid texture gives the same colour at every coordinate |
| LegacyTextures.SineCheckerAxisIsEven | src/ray_tracer/texture/checkered_texture.rs:25-33 | on either axis the sine checkerboard gives the `even` texture |
| LegacyTextures.SineFromColors | src/ray_tracer/texture/checkered_texture.rs:16-21 | the sine checkerboard of two colours gives one of them everywhere |
| LegacyTextures.TileFromColors | src/core/texture/checkered_texture.rs:16-21 | the tile checkerboard of two colours gives one of them, and panics exactly when the tile arithmetic overflows |
| LegacyTextures.UnitCell | src/core/texture/checkered_texture.rs:26-27 | a coordinate in [0, 1] gives a row or column in [0, 10] |
| LegacyTextures.TileInUnitSquare | src/core/texture/checkered_texture.rs:26-30 | on the unit square the tile never overflows and lies in [0, 110] |
| LegacyTextures.TileParityFollowsColumn | src/core/texture/checkered_texture.rs:30-37 | for u, v ≥ 0 the tile's parity is the column's, so the pattern depends on v only |
| LegacyTextures.NegativeTileIsEven | src/core/texture/checkered_texture.rs:33-37 | a negative tile has Rust remainder 0 or −1, so every negative tile gives the `even` texture |
| LegacyTextures.NegativeOddTileExample | src/core/texture/checkered_texture.rs:26-37 | at (0, −0.1) the tile is −1, odd, yet the `even` texture is used |
| LegacyMaterials.FromTextureNeverReturns | src/ray_tracer/lambertian.rs:16-18 | `from_texture` as written calls itself with the same texture and returns no Lambertian however deep the calls go |
| LegacyMaterials.FromTextureAsWritten | src/ray_tracer/lambertian.rs:16-18 | `from_texture` as written, followed to a given call depth: it has returned nothing yet (stated by LegacyMaterials.FromTextureNeverReturns) |
| LegacyMaterials.FromColorAsWritten | src/ray_tracer/lambertian.rs:8-14 | `new` and `from_color` as written go through `from_texture` and so never return |
| LegacyMaterials.FromTexture | src/core/material/lambertian.rs:16-20 | `from_texture` stores the given texture as the albedo |
| LegacyMaterials.FromColor | src/core/material/lambertian.rs:8-14 | a Lambertian made from a colour has an albedo that gives that colour everywhere |
| LegacyMaterials.ScatterDirection | src/core/material/lambertian.rs:26-31 | the bounce direction is normal + the unit vector, replaced by the normal when that sum is near zero; so it is the normal or not near zero |
| LegacyMaterials.TracerLambertianScatter | src/ray_tracer/lambertian.rs:23-38 | the src/ray_tracer Lambertian always scatters, with its texture, from the hit point at the ray's time along the normalised bounce direction; it panics exactly when that direction is zero, which needs a zero normal |
| LegacyMaterials.CoreLambertianScatter | src/core/material/lambertian.rs:24-40 | the src/core Lambertian scatters with its albedo's value at the hit's texture coordinate from the hit point at the ray's time, along the normal plus the random unit vector (normalized by the ray); it panics exactly when that direction is zero or no coordinate was recorded |
| LegacyMaterials.CoreLambertianFromColor | src/core/material/lambertian.rs:12-38 | a Lambertian made from a colour scatters with that colour wherever a coordinate was recorded |
| LegacyMaterials.TracerRatio | src/ray_tracer/dielectric.rs:29-33 | the ratio is 1/index on the front face and the index on the back face |
| LegacyMaterials.IncidenceCos | src/ray_tracer/dielectric.rs:37 | the cosine is the minimum of the reversed direction's dot product with the normal and 1: at most both, and equal to one of them |
| LegacyMaterials.DielectricDirection | src/ray_tracer/dielectric.rs:38-48 | the dielectric reflects when ratio · sin θ > 1 or the reflectance exceeds the draw, and refracts otherwise |
| LegacyMaterials.DielectricTotalReflectionIgnoresDraw | src/ray_tracer/dielectric.rs:40-45 | when refraction is impossible every draw gives the reflection |
| LegacyMaterials.DielectricScatter | src/ray_tracer/dielectric.rs:26-53 | always scatters with white attenuation from the hit point along the dielectric direction of the normalised incoming direction, and panics exactly for a zero incoming direction |
| LegacyMaterials.MetalDirection | src/ray_tracer/metal.rs:25-34 | the bounce direction is the reflection moved by fuzz times the sample, and is exactly the reflection when fuzz is 0 |
| LegacyMaterials.MetalSlots.constructor | src/ray_tracer/metal.rs:22-23 | the two out-slots hold the given attenuation and ray |
| LegacyMaterials.MetalSlots.Scatter | src/ray_tracer/metal.rs:18-38 | both slots are overwritten with the albedo and the ray from the hit point along the fuzzed reflection, and the answer is whether that ray leaves on the normal's side |
| LegacyMaterials.DotScaled | src/ray_tracer/metal.rs:37 | scaling a vector scales its dot product with any other |
| LegacyMaterials.PositiveFactorKeepsSign | OG/src/core/material/metal.rs:30 | a positive factor keeps the sign, so normalising the bounced ray does not change which side it leaves on |
| LegacyMaterials.OgMetalScatter | OG/src/core/material/metal.rs:15-39 | the OG metal scatters with its albedo from the hit point at the ray's time, along the fuzzed reflection (the plain reflection with no fuzz), exactly when that reflection meets the normal at a positive dot product, absorbs otherwise, and panics exactly for a zero direction |
| LegacyTracer.DefaultConfig | src/ray_tracer/ray_tracer.rs:22-30 | the default configuration is 8 samples per pixel, 50 bounces and one thread |
| LegacyTracer.Gradient | src/ray_tracer/ray_tracer.rs:148-153 | the sky is white looking straight down, (0.5, 0.7, 1) straight up, and a blend of the two in between |
| LegacyTracer.RayColor | src/ray_tracer/ray_tracer.rs:124-156 | black at the maximum depth; a hit without a material panics; an absorbed ray is black; a miss is the sky along the normalised direction and panics exactly for a zero direction |
| LegacyTracer.RayColorStopsAtMaximum | src/ray_tracer/ray_tracer.rs:125-143 | started at or below the maximum depth, the recursion stops there and never reaches the overflowing u32 increment |
| LegacyTracer.FrameToWorld | src/ray_tracer/ray_tracer.rs:68-73 | panics exactly for a zero width or height (the u32 subtraction underflows); otherwise maps 0 to 0 and the last pixel to 1 on each axis |
| LegacyTracer.Renderable | src/ray_tracer/ray_tracer.rs:68-73 | the frames whose world mapping does not divide by zero (width and height other than 1) with a `u32` bounce depth |
| LegacyTracer.QuotientByPositive | src/ray_tracer/ray_tracer.rs:70-71 | dividing by a positive number gives 0 exactly for 0, and 1 for the divisor itself |
| LegacyTracer.PixelSum | src/ray_tracer/ray_tracer.rs:76-83 | the fold of no samples is the zero colour, and the fold panics exactly when some sample panics |
| LegacyTracer.RootOfUnitRange | src/ray_tracer/ray_tracer.rs:105-109 | the square root of a number in [0, 1] lies in [0, 1] |
| LegacyTracer.NormalizeColor | src/ray_tracer/ray_tracer.rs:100-121 | every channel is a whole i32; with no samples a positive channel sum saturates the cast to `i32::MAX` and any other is NaN and casts to 0, so an empty sum gives black; for a mean colour in [0, 1] each channel lies in [0, 255] |
| LegacyTracer.TileIdAsWrittenStarvesThread | src/ray_tracer/ray_tracer.rs:59-60 | the tile id as written does not depend on the column; on a 2 × 2 frame with two threads every pixel goes to thread 0 and thread 1 colours nothing |
| LegacyTracer.TileIdAsWritten | src/ray_tracer/ray_tracer.rs:59 | `j * image_height + image_width`, the same for a whole row; LegacyTracer.TileIdAsWrittenStarvesThread states its effect |
| LegacyTracer.TileIdU32 | src/ray_tracer/ray_tracer.rs:59 | the tile id in `u32` panics exactly when `j * image_height + image_width` reaches 2^32, and otherwise is that id |
| LegacyTracer.Owner | src/ray_tracer/ray_tracer.rs:60 | the thread owning pixel (x, y) is the as-written tile id modulo the thread count, below the thread count |
| LegacyTracer.TileIdIsPixelIndex | src/ray_tracer/ray_tracer.rs:57-63 | the intended tile id is the row-major pixel index: below width · height, one-to-one, and it would give thread k % threads pixel k |
| LegacyTracer.ConsoleLinesLength | src/ray_tracer/frame.rs:43-53 | for rows of one width w the dump prints w lines per row |
| LegacyTracer.ConsoleLinesOrder | src/ray_tracer/frame.rs:45-51 | line m · w + i of the dump is cell i of the m-th row from the top: rows are printed bottom-up, cells left to right |
| LegacyTracer.WriteToConsole | src/ray_tracer/frame.rs:43-53 | the header holds width and height, and the loop prints exactly the lines the dump specifies |
| LegacyTracer.RayTracer.constructor | src/ray_tracer/ray_tracer.rs:33-39 | the tracer holds the given configuration, camera and frame |
| LegacyTracer.RayTracer.SetCamera | src/ray_tracer/ray_tracer.rs:41-43 | `set_camera` replaces the camera only |
| LegacyTracer.RayTracer.SetFrame | src/ray_tracer/ray_tracer.rs:45-47 | `set_frame` replaces the frame only |
| LegacyTracer.RayTracer.SetConfig | src/ray_tracer/ray_tracer.rs:49-51 | `set_config` replaces the configuration only |
| LegacyTracer.RayTracer.ColorPixel | src/ray_tracer/ray_tracer.rs:75-87 | writes the normalised fold of the pixel's samples to cell (x, y) and nowhere else; a panicking sample panics before anything is written |
| LegacyTracer.RayTracer.TileRender | src/ray_tracer/ray_tracer.rs:53-66 | panics without writing when the `u32` tile id of the first row visited overflows; otherwise colours exactly the pixels whose as-written tile id gives this thread, rows from the bottom up, and leaves the others as they were; any other panic comes from a pixel it owns whose samples panic |
| LegacyTracer.RayTracer.TileRenderRow | src/ray_tracer/ray_tracer.rs:58-64 | in a non-empty row whose `u32` tile id overflows, panics without writing; otherwise one pass over row j colours exactly the row's pixels whose as-written tile id gives this thread, leaves every other pixel as it was, and panics only at an owned pixel of the row whose samples panic |
| LegacyTracer.RayTracer.Render | src/ray_tracer/ray_tracer.rs:89-99 | clears the frame; with at least one thread panics when the `u32` tile id overflows, otherwise colours every pixel once or passes on a panicking pixel's message; with no thread leaves it black; returns a fresh copy of the frame |
| LegacyBvh.SplitAxis | src/ray_tracer/bvh.rs:20 | the split axis `random_natural(0, 2)` is 0 or 1 for a draw in [0, 1), never z |
| LegacyBvh.ObjectCompare | src/ray_tracer/bvh.rs:102-115 | panics with the no-boxes message when both objects lack a box, and exactly when either lacks one or the axis is above 2; otherwise true iff object0's minimum is strictly less on the axis |
| LegacyBvh.CompareIrreflexive | src/ray_tracer/bvh.rs:102-115 | an object with a box never compares less than itself |
| LegacyBvh.Side | src/ray_tracer/bvh.rs:77-83 | every object on one side compares to the pivot with that side's answer |
| LegacyBvh.PartitionIsSides | src/ray_tracer/bvh.rs:63-86 | the partition panics exactly when some comparison panics, and otherwise is the pair of sides |
| LegacyBvh.SidesSplitObjects | src/ray_tracer/bvh.rs:77-83 | the two sides together hold exactly the input objects, counted with multiplicity |
| LegacyBvh.PartitionPanicPersists | src/ray_tracer/bvh.rs:77-83 | once a comparison panics, the rest of the loop does not change the outcome |
| LegacyBvh.PartitionOnAxis | src/ray_tracer/bvh.rs:63-86 | panics with an index error for a pivot out of range; otherwise the loop returns the partition around `objects[pivot]` |
| LegacyBvh.PartitionAroundPivot | src/ray_tracer/bvh.rs:63-86 | the left side holds the objects that start strictly after the pivot on the axis, the right side those that do not, including the pivot itself, and the two hold the input as a multiset |
| LegacyBvh.BoundingBox | src/ray_tracer/bvh.rs:150-152 | a node's bounding box is always present and equal in extent to its stored box |
| LegacyBvh.FromSingle | src/ray_tracer/bvh.rs:21-27 | a one-object node has the object on both sides and its box; it panics (`unwrap`) exactly when the object has no box |
| LegacyBvh.JoinAsWritten | src/ray_tracer/bvh.rs:33-46 | the join as written never panics, holds both sub-nodes, and its box is a single point |
| LegacyBvh.Join | src/ray_tracer/bvh.rs:33-46 | the corrected join holds both sub-nodes in a box enclosing both of their boxes |
| LegacyBvh.JoinWellBounded | src/ray_tracer/bvh.rs:33-46 | joining two well-bounded hierarchies gives a well-bounded hierarchy |
| LegacyBvh.Closer | src/ray_tracer/bvh.rs:128-147 | returns one of the two hits: the one with the smaller t, the right one on ties, a missing hit counting as t = f64::MAX |
| LegacyBvh.Hit | src/ray_tracer/bvh.rs:120-148 | a ray that fails the node's slab test hits nothing, and any hit reported is one of a child's |
| LegacyBvh.HitFindsChildHits | src/ray_tracer/bvh.rs:120-148 | in a well-bounded hierarchy whose objects hit inside their boxes, a node reports a hit whenever a child does, within the interval and inside the node's box |
| LegacyBvh.ChildHitInside | src/ray_tracer/bvh.rs:125-126 | a child's hit lies within the interval and inside the box enclosing the child |
| LegacyBvh.PointBoxMissed | src/ray_tracer/bvh.rs:121-123 | a ray that moves along x never passes the slab test of a single-point box |
| LegacyBvh.JoinAsWrittenHidesChildren | src/ray_tracer/bvh.rs:33-40 | no ray moving along x hits a node joined as written, whatever its children would hit |
| LegacyBvh.JoinKeepsChildHits | src/ray_tracer/bvh.rs:33-148 | a node joined correctly reports a hit whenever either sub-hierarchy does |
| LegacyMath.LengthSquaredSign | src/math/vec3.rs:64-66 | length_squared is never negative and is zero only for the zero vector |


## Left out

- `render_scene_wasm` (ray_tracer/src/renderer.rs:130-208): the rayon thread pool, the oneshot channel and the JavaScript promise are concurrency and foreign glue. Only the per-pixel work it shares with `render_scene` is modelled.
- The thread split of `LegacyTracer.Render` is modelled as a partition of pixels among thread ids, not as running threads.
- The web UI, the wasm bindings, the servers and the command-line entry points are not modelled.
- The scene presets (ray_tracer/src/scene.rs:78-193, src/scenes.rs, src/worlds.rs) are data, not logic, and are not modelled.
- Logging is output only and is not modelled: `eprintln!("Render complete!")` (src/ray_tracer/ray_tracer.rs:96) and `log::info!` in the checkered texture (src/core/texture/checkered_texture.rs:29).
- The cameras are not part of this model. `create_ray` is a parameter of the renderer.
- Floating-point rounding, NaN and infinities are not modelled, because reals stand for `f64` and `f32`. The divisions by zero that would produce them are listed below.
- In the model a hit time above `f64::MAX` is possible. `Closer` and the BVH `Hit` compare reals.
- `sqrt`, `sin`, `acos` and `atan2` are parameters. So the sphere's UV map is the `mapUv` parameter, and `refract` is a parameter of the dielectric.
- The Perlin `smooth_noise` interpolation values and the random gradient vectors are parameters. The `i32` overflow of `i + 1` in `smooth_noise` is not modelled.
- Utils.SampleUnitSphere: the rejection loop draws from a finite supply of draws, not an endless random stream. When the supply runs out the model reports that no point was found.
- `quick_select` and `halve_on_axis` of src/ray_tracer/bvh.rs are not modelled: they draw random pivots and need not terminate. `from_list` is modelled for a single object and for the join of two built nodes, not for the recursive split.
- Stubs and declarations without logic are not modelled:
  - src/cuboid.rs;
  - the `todo!()` UV map of ray_tracer/src/shape.rs;
  - the accessors of src/ray_tracer/aabb.rs that only return fields;
  - the material files that only declare a trait.
- The src/ray_tracer snapshot calls `ColorU8`, `gamma_corrected`, `ray.reflect` and `ray.refract`, which it does not define. Its calls to these are parameters.
- Vectors.VecCell.DivAssign requires nonzero divisor components. The source has no such check for `f64`, where dividing by zero gives an infinity, which reals cannot hold.
- Materials.DielectricResolve requires a refraction index other than 0 and −1: with them `1/ref_index` or the Schlick ratio divides by zero, which gives an infinity in `f64`.
- LegacyMaterials.DielectricScatter makes the same exclusion, for the same reason.
- Materials.Valid excludes the refraction indices 0 and −1, for the same reason.
- Materials.Reflectance requires a ratio other than −1, because `(1 − r)/(1 + r)` divides by zero there.
- LegacyTracer.FrameToWorld requires a width and a height other than 1: with 1 the source divides by zero (`width − 1`), which gives an infinity or NaN in `f64`.
- LegacyTracer.Renderable makes the same exclusion, for the same reason.
- LegacyHits.NewRecord negates the normal truly. The snapshot's own negation is the identity (see Findings).
- LegacyMaterials.IncidenceCos uses the true negation, for the same reason.
- LegacySpheres.SphereHit builds its record with the corrected `NewRecord`.
- LegacyHits.NewCoreRecord negates the normal truly. src/core re-exports src/math (src/core/mod.rs:30), whose negation is the identity (see Findings).
- LegacySpheres.RSphereHit builds its record with the corrected `NewCoreRecord`.
- LegacyMaterials.TracerLambertianScatter builds its scattered ray with `CoreRays.NewInstant`, because the src/ray_tracer snapshot's ray type is not defined there.
- LegacyBvh.Join uses the corrected box union and both children's boxes (see Findings).
- LegacyBvh.Hit uses the corrected slab test.
- LegacyLists.HittableList.BoundingBox folds with the corrected `Union`.
- Renderer.RenderScene: with a width or height of 1, or no samples, the model stops with `DividedByZero`. It does not say which infinite or NaN colours the source goes on to write.
- Renderer.ShadeAll stops the same way.
- Renderer.ShadePixel stops the same way.
- LegacySpheres.MovingSphereHit: with `time1 == time0` and a ray that moves, the model stops with `DividedByZero`. It does not say which hit, if any, the source reports for the infinite or NaN centre.
- LegacySpheres.Center requires `time1 != time0`. With equal times the source's centre is infinite or NaN, and `MovingSphereHit` handles that case itself.
- LegacySpheres.CenterCoordinates, LegacySpheres.CenterEnds and LegacySpheres.CenterShift make the same exclusion.
- LegacyMath.Vec3Cell.Normalize: for the zero vector the model stops with `DividedByZero` and says nothing of the NaN components the source stores.
- LegacySpheres.MovingSphereHit returns a `SurfaceHit` (time, point and outward normal), not the snapshot's record type.
- LegacySpheres.RSphereHit reads the interval's `contains` as including both ends, as `Interval::contains` of OG/src/utils/other.rs does.

## Findings

| source | as written | input that shows it | evidently intended | confidence | as-written member | corrected member |
|---|---|---|---|---|---|---|
| src/math/vec3.rs:99-105 | `Neg` builds a copy of the vector with the same components | -(1, 1, 1) gives (1, 1, 1) | each component negated | not executed | LegacyMath.NegAsWrittenIsNotNegation | Vectors.NegInvolutive |
| src/math/vec3.rs:131-135 | `/=` multiplies componentwise; `DivAssignAsWrittenMultiplies` shows the product equals the quotient only where each component is 0 or its divisor is 1 or −1 | (2, 2, 2) /= (2, 2, 2) leaves (4, 4, 4) | componentwise division, giving (1, 1, 1) | not executed | LegacyMath.Vec3Cell.DivAssignAsWritten | Vectors.VecCell.DivAssign |
| src/math/vec3.rs:84-90 | in-place `normalize` divides x, then y, then z, each by the length of the partly updated vector | (1, 1, 0) ends with squared length 7/6 | every component divided by the original length, giving a unit vector | not executed | LegacyMath.NormalizeStepsNotUnit | LegacyMath.NormalizedIsUnit |
| src/hittable.rs:30-40 | the back-face normal is `-outward`, and this snapshot's `-` is the identity, so the normal points along the ray | direction (1, 0, 0) with outward normal (1, 0, 0) gives a normal with dot product 1 | a normal that always opposes the ray | not executed | LegacyHits.NewRecordAsWrittenFollowsRay | LegacyHits.NewRecord |
| src/core/hittable.rs:34-38 | the back-face normal is `-outward_normal`, and src/core's `-` is the src/math identity (src/core/mod.rs:30), so the normal points along the ray | a timed ray along (1, 0, 0) with outward normal (1, 0, 0) gives a normal with dot product 1 | a normal that always opposes the ray | not executed | LegacyHits.NewCoreRecordAsWrittenFollowsRay | LegacyHits.NewCoreRecord |
| src/ray_tracer/aabb.rs:55-66 | `bound_aabbs` sets both corners to the minimum of the minimum corners | the unit cube with itself gives the single point (0, 0, 0) | the smallest box enclosing both boxes | not executed | LegacyBoxes.DegenerateUnionLosesBoxes | LegacyBoxes.UnionIsLeast |
| src/ray_tracer/aabb.rs:30-37 | for a zero direction component the slab test rejects only when the origin is at or above the maximum and below the minimum, then uses the interval (time, time) | origin (0.5, 0.5, 0.5), direction (0, 0, 1), unit cube, t in [0, 10]: rejected, though inside at t = 0.25 | a parallel ray is kept when its origin lies inside the slab | not executed | LegacySlabExamples.SlabZeroDirectionCounterexample | LegacyBoxes.SlabFixedFindsInside |
| src/ray_tracer/ray_tracer.rs:59 | `tile_id = j * image_height + image_width`, the same for a whole row | a 2 × 2 frame with 2 threads: every tile id is even, so thread 1 colours nothing | the pixel's row-major index `j * image_width + i` | not executed | LegacyTracer.TileIdAsWrittenStarvesThread | LegacyTracer.TileIdIsPixelIndex |
| src/ray_tracer/bvh.rs:33-40 | `right_box` is taken from `left_node`, and the union is the degenerate `bound_aabbs` | any ray that moves along x misses the joined node, whatever its children hold | the union of both children's boxes | not executed | LegacyBvh.JoinAsWrittenHidesChildren | LegacyBvh.JoinKeepsChildHits |
| src/ray_tracer/lambertian.rs:16-18 | `from_texture` calls itself with the same argument | any texture: the call never returns | store the texture as the albedo, as src/core/material/lambertian.rs does | not executed | LegacyMaterials.FromTextureNeverReturns | LegacyMaterials.FromTexture |

=== FILE: collisions.dfy ===
/** Collision records and face orientation (ray_tracer/src/collisions.rs). */
module Collisions {
  import opened Vectors
  import opened Shapes

  /** Which side of the surface the ray arrives from. */
  datatype Face = Outer | Inner

  datatype CollisionRecord = CollisionRecord(point: Vec3, sNormal: Vec3, t: real, uv: UV, face: Face)

  /** The normal facing the incoming ray: the surface normal on the outer
    * face, its negation on the inner face. */
  function Normal(rec: CollisionRecord): (n: Vec3)
    ensures rec.face == Outer ==> n == rec.sNormal
    ensures rec.face == Inner ==> Add(n, rec.sNormal) == Zeros()
  {
    match rec.face
    case Outer => rec.sNormal
    case Inner => Neg(rec.sNormal)
  }

  /** A ray meeting the surface against its normal hits the outer face; a
    * tangent ray (dot product 0) counts as inner. */
  function CollisionFace(incident: Vec3, normal: Vec3): (f: Face)
    ensures f == Outer <==> Dot(incident, normal) < 0.0
  {
    if Dot(incident, normal) < 0.0 then Outer else Inner
  }

  /** With the face computed from the ray direction, the normal opposes
    * the ray. */
  lemma NormalOpposesRay(incident: Vec3, rec: CollisionRecord)
    requires rec.face == CollisionFace(incident, rec.sNormal)
    ensures Dot(incident, Normal(rec)) <= 0.0
  {
    if rec.face == Inner {
      assert Dot(incident, Neg(rec.sNormal)) == -Dot(incident, rec.sNormal);
    }
  }

  /** Flipping the normal does not change its length. */
  lemma NormalKeepsLength(rec: CollisionRecord)
    ensures LengthSquared(Normal(rec)) == LengthSquared(rec.sNormal)
  {
  }
}

=== FILE: core_ray.dfy ===
/** The ray of the `src/core` snapshot (src/core/ray.rs): an origin, a
  * direction that construction normalises, and the instant at which the ray
  * exists. Positions along it are those of the live engine's ray. */
module CoreRays {
  import opened Wrappers
  import opened Numeric
  import opened Vectors
  import opened LegacyMath
  import Rays

  datatype TimedRay = TimedRay(origin: Vec3, direction: Vec3, time: real)

  /** `Ray::new_instant`: the direction is `Vec3::normalized(direction)`,
    * which panics with "Division by zero" for the zero vector; otherwise it
    * is the given direction scaled by the reciprocal of its length, a
    * vector of unit length. */
  function NewInstant(origin: Vec3, direction: Vec3, time: real, sqrt: real -> real): (r: Outcome<TimedRay>)
    requires IsSqrt(sqrt)
    ensures r.Panic? <==> direction == Zeros()
    ensures r.Panic? ==> r.message == "Division by zero"
    ensures r.Ok? ==> r.value.origin == origin && r.value.time == time
    ensures r.Ok? ==> Scale(r.value.direction, Length(direction, sqrt)) == direction
    ensures r.Ok? && SquaresBack(sqrt) ==> LengthSquared(r.value.direction) == 1.0
  {
    if direction == Zeros() then
      Panic("Division by zero")
    else
      NormalizedKeepsDirection(direction, sqrt);
      NormalizedIsUnit(direction, sqrt);
      var unit := Normalized(direction, sqrt).value;
      Ok(TimedRay(origin, unit, time))
  }

  /** The stored direction is exactly `Vec3::normalized(direction)`, and
    * construction panics exactly when that call does. */
  lemma NewInstantNormalizes(origin: Vec3, direction: Vec3, time: real, sqrt: real -> real)
    requires IsSqrt(sqrt)
    ensures NewInstant(origin, direction, time, sqrt).Panic? <==> Normalized(direction, sqrt).Panic?
    ensures NewInstant(origin, direction, time, sqrt).Ok?
            ==> NewInstant(origin, direction, time, sqrt).value.direction == Normalized(direction, sqrt).value
  {
    var r := NewInstant(origin, direction, time, sqrt);
    if direction == Zeros() {
      NormalizedPanics(direction, sqrt);
      assert r.Panic?;
      assert Normalized(direction, sqrt).Panic?;
    } else {
      NormalizedKeepsDirection(direction, sqrt);
      assert r.Ok?;
      assert Normalized(direction, sqrt).Ok?;
    }
  }

  /** `Ray::new`: `new_instant` at time 0. */
  function New(origin: Vec3, direction: Vec3, sqrt: real -> real): (r: Outcome<TimedRay>)
    requires IsSqrt(sqrt)
    ensures r.Panic? <==> direction == Zeros()
    ensures r.Ok? ==> r.value.origin == origin && r.value.time == 0.0
    ensures r.Ok? ==> Scale(r.value.direction, Length(direction, sqrt)) == direction
    ensures r.Ok? && SquaresBack(sqrt) ==> LengthSquared(r.value.direction) == 1.0
  {
    NewInstant(origin, direction, 0.0, sqrt)
  }

  /** The origin and direction as a ray of the live engine. */
  function Spatial(r: TimedRay): Rays.Ray
  {
    Rays.Ray(r.origin, r.direction)
  }

  /** `position_at(t)` = origin + direction * t. */
  function PositionAt(r: TimedRay, t: real): (p: Vec3)
    ensures Sub(p, r.origin) == Scale(r.direction, t)
  {
    Rays.PositionAt(Spatial(r), t)
  }

  /** The position at 0 is the origin, and travelling s then t is travelling
    * s + t; the time at which the ray exists plays no part. */
  lemma PositionAtAffine(r: TimedRay, s: real, t: real)
    ensures PositionAt(r, 0.0) == r.origin
    ensures PositionAt(r, s + t) == Add(PositionAt(r, s), Scale(r.direction, t))
    ensures PositionAt(r.(time := s), t) == PositionAt(r, t)
  {
    Rays.PositionAtZero(Spatial(r));
    Rays.PositionAtAffine(Spatial(r), s, t);
  }

  /** A `let mut` ray of this snapshot, the receiver of `set_time`. */
  class CoreRay {
    var origin: Vec3
    var direction: Vec3
    var time: real

    function Value(): TimedRay
      reads this
    {
      TimedRay(origin, direction, time)
    }

    constructor (r: TimedRay)
      ensures Value() == r
    {
      origin, direction, time := r.origin, r.direction, r.time;
    }

    /** `set_time`: only the time changes. */
    method SetTime(time: real)
      modifies this
      ensures Value() == old(Value()).(time := time)
      ensures origin == old(origin) && direction == old(direction)
    {
      this.time := time;
    }
  }
}

=== FILE: image.dfy ===
/** The live engine's image buffer and colour (ray_tracer/src/image.rs).
  *
  * `Image` keeps its pixels as rows of cells, `buffer[y][x]`, and is updated
  * in place. The class is generic in the pixel type because the renderer
  * fills an image of 8-bit colours, a type this module does not define; the
  * value used for fresh and cleared cells is passed in (`Color::default()`
  * for an image of `Color`). */
module Images {
  import opened Wrappers
  import opened Numeric
  import opened Vectors

  datatype Color = Color(red: real, green: real, blue: real)

  /** `Color::default()` and `Color::black()`. */
  function Black(): Color { Color(0.0, 0.0, 0.0) }

  function White(): Color { Color(1.0, 1.0, 1.0) }

  /** `Color::from(v)`: channels v[0], v[1], v[2]. */
  function FromVec3(v: Vec3): (c: Color)
    ensures Index(v, 0) == Ok(c.red) && Index(v, 1) == Ok(c.green) && Index(v, 2) == Ok(c.blue)
  {
    Color(Index(v, 0).value, Index(v, 1).value, Index(v, 2).value)
  }

  /** `Color * Color`: channel by channel. */
  function MulColor(a: Color, b: Color): Color
  {
    Color(a.red * b.red, a.green * b.green, a.blue * b.blue)
  }

  /** White is the unit of the product and black absorbs it. */
  lemma MulColorUnits(c: Color)
    ensures MulColor(c, White()) == c && MulColor(White(), c) == c
    ensures MulColor(c, Black()) == Black() && MulColor(Black(), c) == Black()
  {
  }

  /** `Color::to_u8(channel)` = `(channel * 255) as u8`. */
  function ToU8(channel: real): (b: int)
    ensures 0 <= b <= 255
    ensures channel <= 0.0 ==> b == 0
    ensures channel >= 1.0 ==> b == 255
    ensures 0.0 <= channel < 1.0 ==> b as real <= channel * 255.0 < b as real + 1.0
  {
    SaturateU8(channel * 255.0)
  }

  /** The three numbers `display_as_u8` prints on one line. */
  datatype Rgb = Rgb(r: int, g: int, b: int)

  /** One line group of the PPM text: the header (`P3`, `<w> <h>`, `255`)
    * or one pixel. */
  datatype PpmLine = Header(width: nat, height: nat) | Pixel(rgb: Rgb)

  function DisplayAsU8(c: Color): (p: Rgb)
    ensures 0 <= p.r <= 255 && 0 <= p.g <= 255 && 0 <= p.b <= 255
    ensures p == Rgb(ToU8(c.red), ToU8(c.green), ToU8(c.blue))
  {
    Rgb(ToU8(c.red), ToU8(c.green), ToU8(c.blue))
  }

  /** The cells of a buffer in row-major order (`buffer.iter().flatten()`). */
  function Flatten<P>(rows: seq<seq<P>>): seq<P>
  {
    if |rows| == 0 then [] else Flatten(rows[..|rows| - 1]) + rows[|rows| - 1]
  }

  /** In a rectangular buffer, row y, column x is entry y * width + x of the
    * flattened sequence. */
  lemma {:induction false} FlattenRowMajor<P>(rows: seq<seq<P>>, width: nat, y: nat, x: nat)
    requires forall r :: 0 <= r < |rows| ==> |rows[r]| == width
    requires y < |rows| && x < width
    ensures RowMajor(y, x, width) < |Flatten(rows)| && Flatten(rows)[RowMajor(y, x, width)] == rows[y][x]
  {
    GridIndexBound(y, x, width, |rows|);
    var last := |rows| - 1;
    var prefix := rows[..last];
    FlattenLength(rows, width);
    FlattenLength(prefix, width);
    assert Flatten(rows) == Flatten(prefix) + rows[last];
    if y < last {
      FlattenRowMajor(prefix, width, y, x);
      MulGap(y, last, width);
      assert prefix[y] == rows[y];
    }
  }

  lemma {:induction false} FlattenLength<P>(rows: seq<seq<P>>, width: nat)
    requires forall r :: 0 <= r < |rows| ==> |rows[r]| == width
    ensures |Flatten(rows)| == |rows| * width
  {
    if |rows| > 0 {
      FlattenLength(rows[..|rows| - 1], width);
    }
  }

  /** The pixel lines of `write_as_ppm` for a buffer. */
  function PixelLines(cells: seq<Color>): (lines: seq<PpmLine>)
    ensures |lines| == |cells|
  {
    if |cells| == 0 then [] else PixelLines(cells[..|cells| - 1]) + [Pixel(DisplayAsU8(cells[|cells| - 1]))]
  }

  /** Line k is the pixel line of cell k: one line per cell, in order. */
  lemma {:induction false} PixelLineAt(cells: seq<Color>, k: nat)
    requires k < |cells|
    ensures PixelLines(cells)[k] == Pixel(DisplayAsU8(cells[k]))
  {
    var last := |cells| - 1;
    if k < last {
      PixelLineAt(cells[..last], k);
    }
  }

  class Image<P> {
    var width: nat
    var height: nat
    /** buffer[y][x] is row y, column x; buffer[0][0] is the top left. */
    var buffer: seq<seq<P>>

    /** The buffer has `height` rows of `width` cells. */
    predicate Valid()
      reads this
    {
      |buffer| == height && forall y :: 0 <= y < |buffer| ==> |buffer[y]| == width
    }

    /** `get_color(x, y)` = `buffer[y][x]`, panicking outside the buffer. */
    function GetColor(x: nat, y: nat): (r: Outcome<P>)
      reads this
      ensures r.Ok? <==> y < |buffer| && x < |buffer[y]|
      ensures r.Ok? ==> r.value == buffer[y][x]
    {
      if y < |buffer| && x < |buffer[y]| then Ok(buffer[y][x]) else Panic("index out of bounds")
    }

    /** `Image::new(frame_width, frame_height)`: frame_height rows of
      * frame_width blank cells. */
    constructor (frameWidth: nat, frameHeight: nat, blank: P)
      ensures width == frameWidth && height == frameHeight
      ensures buffer == seq(frameHeight, _ => seq(frameWidth, _ => blank))
      ensures Valid()
    {
      width := frameWidth;
      height := frameHeight;
      buffer := seq(frameHeight, _ => seq(frameWidth, _ => blank));
    }

    /** `set_color(x, y, color)`: writes `buffer[y][x]`; outside the buffer it
      * panics and nothing is written. */
    method SetColor(x: nat, y: nat, color: P) returns (r: Outcome<()>)
      modifies this
      ensures r.Ok? <==> old(GetColor(x, y)).Ok?
      ensures r.Ok? ==> buffer == old(buffer)[y := old(buffer)[y][x := color]]
      ensures r.Panic? ==> buffer == old(buffer)
      ensures width == old(width) && height == old(height)
      ensures old(Valid()) ==> Valid()
      ensures r.Ok? ==> GetColor(x, y) == Ok(color)
      ensures forall i: nat, j: nat :: (i, j) != (x, y) ==> GetColor(i, j) == old(GetColor(i, j))
    {
      if y < |buffer| && x < |buffer[y]| {
        buffer := buffer[y := buffer[y][x := color]];
        r := Ok(());
      } else {
        r := Panic("index out of bounds");
      }
    }

    /** `clear`: every cell becomes the blank value; the shape, `width` and
      * `height` stay as they were. */
    method Clear(blank: P)
      modifies this
      ensures width == old(width) && height == old(height)
      ensures |buffer| == |old(buffer)|
      ensures forall y :: 0 <= y < |buffer| ==> buffer[y] == seq(|old(buffer)[y]|, _ => blank)
      ensures old(Valid()) ==> Valid()
    {
      var y := 0;
      while y < |buffer|
        invariant 0 <= y <= |buffer| == |old(buffer)|
        invariant width == old(width) && height == old(height)
        invariant forall k :: 0 <= k < y ==> buffer[k] == seq(|old(buffer)[k]|, _ => blank)
        invariant forall k :: y <= k < |buffer| ==> buffer[k] == old(buffer)[k]
      {
        var row := buffer[y];
        var x := 0;
        while x < |row|
          invariant 0 <= x <= |row| == |old(buffer)[y]|
          invariant forall k :: 0 <= k < x ==> row[k] == blank
        {
          row := row[x := blank];
          x := x + 1;
        }
        buffer := buffer[y := row];
        y := y + 1;
      }
    }
  }

  lemma PixelLinesAppend(cells: seq<Color>, c: Color)
    ensures PixelLines(cells + [c]) == PixelLines(cells) + [Pixel(DisplayAsU8(c))]
  {
    assert (cells + [c])[..|cells|] == cells;
  }

  /** Appending one pixel line extends the text by the next cell. */
  lemma WriteOneMore(out: seq<PpmLine>, header: PpmLine, cells: seq<Color>, c: Color)
    requires out == [header] + PixelLines(cells)
    ensures out + [Pixel(DisplayAsU8(c))] == [header] + PixelLines(cells + [c])
  {
    PixelLinesAppend(cells, c);
  }

  /** One more cell of a row extends the written prefix by that cell. */
  lemma PrefixOneMore<P>(done: seq<P>, row: seq<P>, x: nat)
    requires x < |row|
    ensures done + row[..x + 1] == (done + row[..x]) + [row[x]]
  {
    assert row[..x + 1] == row[..x] + [row[x]];
  }

  lemma FlattenAppend<P>(rows: seq<seq<P>>, y: nat)
    requires y < |rows|
    ensures Flatten(rows[..y + 1]) == Flatten(rows[..y]) + rows[y]
  {
    assert rows[..y + 1][..y] == rows[..y];
  }

  /** `write_as_ppm`: the header with width and height, then one pixel line
    * per cell in row-major buffer order. */
  method WriteAsPpm(image: Image<Color>) returns (out: seq<PpmLine>)
    ensures out == [Header(image.width, image.height)] + PixelLines(Flatten(image.buffer))
  {
    out := [Header(image.width, image.height)];
    ghost var written: seq<Color> := [];
    var y := 0;
    while y < |image.buffer|
      invariant 0 <= y <= |image.buffer|
      invariant written == Flatten(image.buffer[..y])
      invariant out == [Header(image.width, image.height)] + PixelLines(written)
    {
      var row := image.buffer[y];
      var x := 0;
      while x < |row|
        invariant 0 <= x <= |row|
        invariant written == Flatten(image.buffer[..y]) + row[..x]
        invariant out == [Header(image.width, image.height)] + PixelLines(written)
      {
        WriteOneMore(out, Header(image.width, image.height), written, row[x]);
        PrefixOneMore(Flatten(image.buffer[..y]), row, x);
        written := written + [row[x]];
        out := out + [Pixel(DisplayAsU8(row[x]))];
        x := x + 1;
      }
      assert row[..x] == row;
      FlattenAppend(image.buffer, y);
      y := y + 1;
    }
    assert image.buffer[..y] == image.buffer;
  }

  /** Cell k of a sequence is line k + 1 of the text that follows a
    * one-line header. */
  lemma PpmLinePosition(cells: seq<Color>, head: PpmLine, out: seq<PpmLine>, k: nat)
    requires out == [head] + PixelLines(cells)
    requires k < |cells|
    ensures |out| == 1 + |cells|
    ensures 1 + k < |out| && out[1 + k] == Pixel(DisplayAsU8(cells[k]))
  {
    PixelLineAt(cells, k);
    assert out[1 + k] == PixelLines(cells)[k];
  }

  /** The cell at row y, column x of a rectangular buffer is line
    * 1 + y * width + x of the text that follows a one-line header. */
  lemma PpmCellPosition(rows: seq<seq<Color>>, width: nat, head: PpmLine, out: seq<PpmLine>, x: nat, y: nat)
    requires forall r :: 0 <= r < |rows| ==> |rows[r]| == width
    requires out == [head] + PixelLines(Flatten(rows))
    requires x < width && y < |rows|
    ensures 1 + RowMajor(y, x, width) < |out| && out[1 + RowMajor(y, x, width)] == Pixel(DisplayAsU8(rows[y][x]))
  {
    var cells := Flatten(rows);
    var k := RowMajor(y, x, width);
    FlattenRowMajor(rows, width, y, x);
    PpmLinePosition(cells, head, out, k);
  }

  /** In a valid image the pixel at row y, column x is line 1 + y * width + x
    * of the PPM text. */
  lemma PpmPixelPosition(image: Image<Color>, out: seq<PpmLine>, x: nat, y: nat)
    requires image.Valid()
    requires out == [Header(image.width, image.height)] + PixelLines(Flatten(image.buffer))
    requires x < image.width && y < image.height
    ensures |out| == 1 + image.height * image.width
    ensures 1 + RowMajor(y, x, image.width) < |out| && out[1 + RowMajor(y, x, image.width)] == Pixel(DisplayAsU8(image.buffer[y][x]))
  {
    PpmCellPosition(image.buffer, image.width, Header(image.width, image.height), out, x, y);
    FlattenLength(image.buffer, image.width);
  }
}

=== FILE: legacy_boxes.dfy ===
/** Axis-aligned bounding boxes of the `src/` snapshots
  * (src/ray_tracer/aabb.rs and src/core/shape/aabb.rs, which share the slab
  * test and `bound_aabbs`; the second adds `compare` and `bounding_box`).
  *
  * Both slab tests read `ray.time()`, so they run on the timed ray of the
  * `src/core` snapshot. Two defects of the source are modelled as written
  * and beside a corrected version:
  *   - `bound_aabbs` computes the maximum corner from the two minimums;
  *   - an axis on which the ray does not move yields the interval
  *     (time, time), which always empties the running interval, so such a
  *     ray never hits. */
module LegacyBoxes {
  import opened Wrappers
  import opened Numeric
  import opened Vectors
  import opened Shapes
  import CoreRays
  import LegacyHits

  /** `v[i]` for an index known to be in range. */
  function Axis(v: Vec3, i: nat): (r: real)
    requires i < 3
    ensures Index(v, i) == Ok(r)
  {
    if i == 0 then v.x else if i == 1 then v.y else v.z
  }

  /** Componentwise minimum and maximum of two corners. */
  function MinCorner(a: Vec3, b: Vec3): Vec3
  {
    Vec3(Min(a.x, b.x), Min(a.y, b.y), Min(a.z, b.z))
  }

  function MaxCorner(a: Vec3, b: Vec3): Vec3
  {
    Vec3(Max(a.x, b.x), Max(a.y, b.y), Max(a.z, b.z))
  }

  /** `outer` contains `inner`. */
  predicate Encloses(outer: Aabb, inner: Aabb)
  {
    LessEq(outer.minimum, inner.minimum) && LessEq(inner.maximum, outer.maximum)
  }

  lemma EnclosesTransitive(a: Aabb, b: Aabb, c: Aabb)
    requires Encloses(a, b) && Encloses(b, c)
    ensures Encloses(a, c)
  {
  }

  /** What `bound_aabbs` returns as written: both corners are the
    * componentwise minimum of the two minimum corners. */
  function DegenerateUnion(box0: Aabb, box1: Aabb): (r: Aabb)
    ensures r.minimum == r.maximum
    ensures LessEq(r.minimum, box0.minimum) && LessEq(r.minimum, box1.minimum)
  {
    var corner := MinCorner(box0.minimum, box1.minimum);
    Aabb(corner, corner)
  }

  /** `AABB::bound_aabbs` as written: the loop over the three axes writes
    * `min[i]` and `max[i]` with the same expression. */
  method BoundAabbsAsWritten(box0: Aabb, box1: Aabb) returns (r: Aabb)
    ensures r == DegenerateUnion(box0, box1)
  {
    var min := Zeros();
    var max := Zeros();
    for i := 0 to 3
      invariant forall j :: 0 <= j < i ==> Axis(min, j) == Min(Axis(box0.minimum, j), Axis(box1.minimum, j))
      invariant forall j :: 0 <= j < i ==> Axis(max, j) == Min(Axis(box0.minimum, j), Axis(box1.minimum, j))
    {
      min := WithComponent(min, i, Min(Axis(box0.minimum, i), Axis(box1.minimum, i)));
      max := WithComponent(max, i, Min(Axis(box0.minimum, i), Axis(box1.minimum, i)));
    }
    assert Axis(min, 0) == min.x && Axis(min, 1) == min.y && Axis(min, 2) == min.z;
    assert Axis(max, 0) == max.x && Axis(max, 1) == max.y && Axis(max, 2) == max.z;
    r := Aabb(min, max);
  }

  /** The box as written encloses an argument box only when that box has
    * no extent (its maximum corner is not above its minimum corner): the
    * unit cube combined with itself gives the single point (0, 0, 0). */
  lemma DegenerateUnionLosesBoxes(box0: Aabb, box1: Aabb)
    ensures Encloses(DegenerateUnion(box0, box1), box0) ==> LessEq(box0.maximum, box0.minimum)
    ensures !Encloses(DegenerateUnion(Aabb(Zeros(), Ones()), Aabb(Zeros(), Ones())), Aabb(Zeros(), Ones()))
  {
    var cube := Aabb(Zeros(), Ones());
    assert DegenerateUnion(cube, cube).maximum == Zeros();
  }

  /** The box `bound_aabbs` is meant to build: the componentwise minimum of
    * the minimum corners and maximum of the maximum corners. */
  function Union(box0: Aabb, box1: Aabb): (r: Aabb)
    ensures Encloses(r, box0) && Encloses(r, box1)
  {
    Aabb(MinCorner(box0.minimum, box1.minimum), MaxCorner(box0.maximum, box1.maximum))
  }

  /** The union is the smallest box enclosing both, and a box united with
    * itself is itself. */
  lemma UnionIsLeast(box0: Aabb, box1: Aabb, c: Aabb)
    ensures Encloses(c, box0) && Encloses(c, box1) ==> Encloses(c, Union(box0, box1))
    ensures Union(box0, box0) == box0
  {
  }

  /** `AABB::compare`: strictly less on the minimum corner along `axis`;
    * an axis beyond 2 panics in `Vec3` indexing. */
  function Compare(box0: Aabb, box1: Aabb, axis: nat): (r: Outcome<bool>)
    ensures r.Panic? <==> axis > 2
    ensures r.Ok? ==> (r.value <==> Axis(box0.minimum, axis) < Axis(box1.minimum, axis))
  {
    match Index(box0.minimum, axis)
    case Panic(m) => Panic(m)
    case Ok(a) => Ok(a < Index(box1.minimum, axis).value)
  }

  /** `compare` is a strict order on each axis: irreflexive, asymmetric and
    * transitive. */
  lemma CompareIsStrictOrder(box0: Aabb, box1: Aabb, box2: Aabb, axis: nat)
    requires axis < 3
    ensures !Compare(box0, box0, axis).value
    ensures Compare(box0, box1, axis).value ==> !Compare(box1, box0, axis).value
    ensures Compare(box0, box1, axis).value && Compare(box1, box2, axis).value ==> Compare(box0, box2, axis).value
  {
  }

  /** `Shape::bounding_box` of a box: the box itself. */
  function BoundingBox(b: Aabb): (r: Option<Aabb>)
    ensures r.Some? && Encloses(r.value, b) && Encloses(b, r.value)
  {
    Some(b)
  }

  /** The interval of times during which the ray is inside the slab of axis
    * `i`, as the source computes it; `None` is the early `return` for a ray
    * that does not move along the axis. */
  function AxisInterval(b: Aabb, ray: CoreRays.TimedRay, i: nat): (r: Option<(real, real)>)
    requires i < 3
    ensures r.None? ==> Axis(ray.direction, i) == 0.0 && Axis(b.maximum, i) < Axis(b.minimum, i)
    ensures Axis(ray.direction, i) == 0.0 && r.Some? ==> r.value == (ray.time, ray.time)
    ensures Axis(ray.direction, i) != 0.0 ==> r.Some? && r.value.0 <= r.value.1
  {
    var d := Axis(ray.direction, i);
    var o := Axis(ray.origin, i);
    if d == 0.0 then
      if o >= Axis(b.maximum, i) && o < Axis(b.minimum, i) then None else Some((ray.time, ray.time))
    else
      var t0 := (Axis(b.minimum, i) - o) / d;
      var t1 := (Axis(b.maximum, i) - o) / d;
      Some((Min(t0, t1), Max(t0, t1)))
  }

  /** The slab test from axis `i` on, with running interval (lo, hi). */
  function SlabFrom(b: Aabb, ray: CoreRays.TimedRay, i: nat, lo: real, hi: real): bool
    requires i <= 3
    decreases 3 - i
  {
    if i == 3 then true
    else match AxisInterval(b, ray, i)
      case None => false
      case Some((t0, t1)) =>
        var lo' := Max(lo, t0);
        var hi' := Min(hi, t1);
        if lo' >= hi' then false else SlabFrom(b, ray, i + 1, lo', hi')
  }

  /** The slab `hit` of src/ray_tracer/aabb.rs: the interval only narrows
    * (t_min never decreases, t_max never increases); the test fails as soon
    * as it is empty and succeeds only with a non-empty interval. */
  method SlabHit(b: Aabb, ray: CoreRays.TimedRay, tMin: real, tMax: real) returns (hit: bool)
    ensures hit == SlabFrom(b, ray, 0, tMin, tMax)
    ensures hit ==> tMin < tMax
  {
    var lo, hi := tMin, tMax;
    for i := 0 to 3
      invariant SlabFrom(b, ray, i, lo, hi) == SlabFrom(b, ray, 0, tMin, tMax)
      invariant tMin <= lo && hi <= tMax
      invariant i > 0 ==> lo < hi
    {
      var axis := AxisInterval(b, ray, i);
      if axis.None? {
        return false;
      }
      lo, hi := Max(lo, axis.value.0), Min(hi, axis.value.1);
      if lo >= hi {
        return false;
      }
    }
    return true;
  }

  /** The record the `src/core` slab `hit` returns on success. */
  function DefaultRecord<M>(): LegacyHits.HitRecord<M>
  {
    LegacyHits.HitRecord(Zeros(), Zeros(), 0.0, None, false, None)
  }

  /** The `Hittable::hit` of src/core/shape/aabb.rs: the same slab test over
    * the interval (min, max), answering with a default record. */
  method CoreHit<M>(b: Aabb, ray: CoreRays.TimedRay, min: real, max: real) returns (r: Option<LegacyHits.HitRecord<M>>)
    ensures r.Some? <==> SlabFrom(b, ray, 0, min, max)
    ensures r.Some? ==> r.value == DefaultRecord()
  {
    var hit := SlabHit(b, ray, min, max);
    r := if hit then Some(DefaultRecord()) else None;
  }

  /** A ray that does not move along some axis never hits any box. */
  lemma {:induction false} SlabZeroDirectionMisses(b: Aabb, ray: CoreRays.TimedRay, axis: nat, i: nat, lo: real, hi: real)
    requires i <= axis < 3 && Axis(ray.direction, axis) == 0.0
    ensures !SlabFrom(b, ray, i, lo, hi)
    decreases axis - i
  {
    match AxisInterval(b, ray, i)
    case None =>
    case Some((t0, t1)) =>
      if i < axis && Max(lo, t0) < Min(hi, t1) {
        SlabZeroDirectionMisses(b, ray, axis, i + 1, Max(lo, t0), Min(hi, t1));
      }
  }

  /** Strictly inside the box. */
  predicate Inside(p: Vec3, b: Aabb)
  {
    && b.minimum.x < p.x < b.maximum.x
    && b.minimum.y < p.y < b.maximum.y
    && b.minimum.z < p.z < b.maximum.z
  }

  /** The evidently intended step for one axis: a ray that does not move
    * along the axis keeps the running interval when its origin lies within
    * the slab and misses otherwise; a moving ray narrows as before. */
  function AxisStep(b: Aabb, ray: CoreRays.TimedRay, i: nat, lo: real, hi: real): (r: Option<(real, real)>)
    requires i < 3
    ensures r.Some? ==> lo <= r.value.0 && r.value.1 <= hi
    ensures Axis(ray.direction, i) == 0.0 ==>
              (r.Some? <==> Axis(b.minimum, i) <= Axis(ray.origin, i) <= Axis(b.maximum, i))
              && (r.Some? ==> r.value == (lo, hi))
  {
    var d := Axis(ray.direction, i);
    var o := Axis(ray.origin, i);
    if d == 0.0 then
      if o < Axis(b.minimum, i) || o > Axis(b.maximum, i) then None else Some((lo, hi))
    else
      var t0 := (Axis(b.minimum, i) - o) / d;
      var t1 := (Axis(b.maximum, i) - o) / d;
      Some((Max(lo, Min(t0, t1)), Min(hi, Max(t0, t1))))
  }

  /** The corrected slab test from axis `i` on. */
  function SlabFixedFrom(b: Aabb, ray: CoreRays.TimedRay, i: nat, lo: real, hi: real): bool
    requires i <= 3
    decreases 3 - i
  {
    if i == 3 then true
    else match AxisStep(b, ray, i, lo, hi)
      case None => false
      case Some((lo', hi')) => if lo' >= hi' then false else SlabFixedFrom(b, ray, i + 1, lo', hi')
  }

  lemma QuotientBelow(a: real, d: real, t: real)
    requires d > 0.0 && a < t * d
    ensures a / d < t
  {
  }

  lemma QuotientAbove(a: real, d: real, t: real)
    requires d > 0.0 && t * d < a
    ensures t < a / d
  {
  }

  lemma QuotientBelowNegative(a: real, d: real, t: real)
    requires d < 0.0 && a < t * d
    ensures t < a / d
  {
  }

  lemma QuotientAboveNegative(a: real, d: real, t: real)
    requires d < 0.0 && t * d < a
    ensures a / d < t
  {
  }

  /** A time at which the moving coordinate is strictly inside the slab
    * lies strictly between the two slab crossing times. */
  lemma CrossingTimes(mn: real, mx: real, o: real, d: real, t: real)
    requires d != 0.0 && mn < o + d * t < mx
    ensures Min((mn - o) / d, (mx - o) / d) < t < Max((mn - o) / d, (mx - o) / d)
  {
    var a0 := mn - o;
    var a1 := mx - o;
    assert a0 < t * d < a1;
    if d > 0.0 {
      QuotientBelow(a0, d, t);
      QuotientAbove(a1, d, t);
    } else {
      QuotientBelowNegative(a0, d, t);
      QuotientAboveNegative(a1, d, t);
    }
  }

  /** Coordinate `i` of the ray's position at t. */
  lemma PositionAxis(ray: CoreRays.TimedRay, t: real, i: nat)
    requires i < 3
    ensures Axis(CoreRays.PositionAt(ray, t), i) == Axis(ray.origin, i) + Axis(ray.direction, i) * t
  {
    var p := CoreRays.PositionAt(ray, t);
    assert Sub(p, ray.origin) == Scale(ray.direction, t);
  }

  /** The corrected test finds every ray that is strictly inside the box at
    * some time strictly within the running interval. */
  lemma {:induction false} SlabFixedFindsInside(b: Aabb, ray: CoreRays.TimedRay, i: nat, lo: real, hi: real, t: real)
    requires i <= 3 && lo < t < hi
    requires Inside(CoreRays.PositionAt(ray, t), b)
    ensures SlabFixedFrom(b, ray, i, lo, hi)
    decreases 3 - i
  {
    if i < 3 {
      AxisStepKeepsInside(b, ray, i, lo, hi, t);
      var step := AxisStep(b, ray, i, lo, hi);
      SlabFixedFindsInside(b, ray, i + 1, step.value.0, step.value.1, t);
    }
  }

  /** One axis of the corrected test keeps a time at which the ray is
    * strictly inside the box within the narrowed interval. */
  lemma AxisStepKeepsInside(b: Aabb, ray: CoreRays.TimedRay, i: nat, lo: real, hi: real, t: real)
    requires i < 3 && lo < t < hi
    requires Inside(CoreRays.PositionAt(ray, t), b)
    ensures AxisStep(b, ray, i, lo, hi).Some?
    ensures AxisStep(b, ray, i, lo, hi).value.0 < t < AxisStep(b, ray, i, lo, hi).value.1
  {
    var p := CoreRays.PositionAt(ray, t);
    PositionAxis(ray, t, i);
    assert Axis(b.minimum, i) < Axis(p, i) < Axis(b.maximum, i);
    var d := Axis(ray.direction, i);
    if d != 0.0 {
      CrossingTimes(Axis(b.minimum, i), Axis(b.maximum, i), Axis(ray.origin, i), d, t);
    }
  }

  /** On a ray that moves along every axis the as-written test and the
    * corrected one take the same steps, so they agree. */
  lemma {:induction false} SlabAgreesOnMovingRays(b: Aabb, ray: CoreRays.TimedRay, i: nat, lo: real, hi: real)
    requires i <= 3
    requires forall k :: 0 <= k < 3 ==> Axis(ray.direction, k) != 0.0
    ensures SlabFrom(b, ray, i, lo, hi) == SlabFixedFrom(b, ray, i, lo, hi)
    decreases 3 - i
  {
    if i < 3 {
      var d := Axis(ray.direction, i);
      var o := Axis(ray.origin, i);
      var t0 := (Axis(b.minimum, i) - o) / d;
      var t1 := (Axis(b.maximum, i) - o) / d;
      assert AxisInterval(b, ray, i) == Some((Min(t0, t1), Max(t0, t1)));
      assert AxisStep(b, ray, i, lo, hi) == Some((Max(lo, Min(t0, t1)), Min(hi, Max(t0, t1))));
      SlabAgreesOnMovingRays(b, ray, i + 1, Max(lo, Min(t0, t1)), Min(hi, Max(t0, t1)));
    }
  }

  /** The as-written slab test finds every ray that moves along every axis
    * and is strictly inside the box at some time strictly within (lo, hi). */
  lemma SlabFindsInsideOnMovingRays(b: Aabb, ray: CoreRays.TimedRay, lo: real, hi: real, t: real)
    requires forall k :: 0 <= k < 3 ==> Axis(ray.direction, k) != 0.0
    requires lo < t < hi && Inside(CoreRays.PositionAt(ray, t), b)
    ensures SlabFrom(b, ray, 0, lo, hi)
  {
    SlabAgreesOnMovingRays(b, ray, 0, lo, hi);
    SlabFixedFindsInside(b, ray, 0, lo, hi, t);
  }
}

=== FILE: legacy_bvh.dfy ===
/** The bounding volume hierarchy of src/ray_tracer/bvh.rs.
  *
  * The scene objects are shared handles of an unknown kind; what the
  * hierarchy asks of them is supplied as function parameters:
  * `boxOf(o, t0, t1)` stands for `o.bounding_box(t0, t1)` and
  * `objHit(o, ray, tMin, tMax)` for `o.hit(ray, tMin, tMax)`. A child of a
  * node is either such an object or another node.
  *
  * One defect is modelled as written and beside a corrected version: when
  * `from_list` joins two sub-hierarchies it reads both boxes from the left
  * one. The box test of a node is the corrected slab test of
  * LegacyBoxes. */
module LegacyBvh {
  import opened Wrappers
  import opened Numeric
  import opened Vectors
  import opened Shapes
  import CoreRays
  import LegacyHits
  import LegacyBoxes
  import LegacyCommon

  const NO_BOXES_TO_COMPARE := "Error: (compare) Cannot compare objects without bounding boxes."
  const NO_BOXES_TO_CONSTRUCT := "Error: no bounding boxes to construct BVH"
  const UNWRAP_NONE := "called `Option::unwrap()` on a `None` value"
  const INDEX_OUT_OF_BOUNDS := "index out of bounds"

  datatype Child<H> = Object(item: H) | Inner(node: BvhNode<H>)

  datatype BvhNode<H> = BvhNode(left: Child<H>, right: Child<H>, bbox: Aabb)

  /** The split axis `random_natural(0, 2)` for the draw r: with r in
    * [0, 1) it is 0 or 1, so the z axis is never chosen. */
  function SplitAxis(r: real): (axis: Outcome<nat>)
    ensures 0.0 <= r < 1.0 ==> axis.Ok? && axis.value < 2
  {
    LegacyCommon.RandomNatural(0, 2, r)
  }

  /** `compare(o0, o1, axis)`: both boxes are taken at time 0. It panics
    * with its own message when neither object has a box, with the
    * `unwrap` message when only one lacks a box, and through
    * `AABB::compare` when the axis is not 0, 1 or 2; otherwise it answers
    * whether o0's box starts strictly before o1's on the axis. */
  function ObjectCompare<H>(o0: H, o1: H, axis: nat, boxOf: (H, real, real) -> Option<Aabb>): (r: Outcome<bool>)
    ensures boxOf(o0, 0.0, 0.0).None? && boxOf(o1, 0.0, 0.0).None? ==> r == Panic(NO_BOXES_TO_COMPARE)
    ensures r.Panic? <==> boxOf(o0, 0.0, 0.0).None? || boxOf(o1, 0.0, 0.0).None? || axis > 2
    ensures r.Ok? ==>
              (r.value <==> LegacyBoxes.Axis(boxOf(o0, 0.0, 0.0).value.minimum, axis)
                            < LegacyBoxes.Axis(boxOf(o1, 0.0, 0.0).value.minimum, axis))
  {
    var box0 := boxOf(o0, 0.0, 0.0);
    var box1 := boxOf(o1, 0.0, 0.0);
    if box0.None? && box1.None? then Panic(NO_BOXES_TO_COMPARE)
    else if box0.None? || box1.None? then Panic(UNWRAP_NONE)
    else LegacyBoxes.Compare(box0.value, box1.value, axis)
  }

  /** Comparing an object with a box to itself says false on a valid axis:
    * the comparison is strict. */
  lemma CompareIrreflexive<H>(o: H, axis: nat, boxOf: (H, real, real) -> Option<Aabb>)
    requires boxOf(o, 0.0, 0.0).Some? && axis < 3
    ensures ObjectCompare(o, o, axis, boxOf) == Ok(false)
  {
  }

  /** What the partition loop computes over `objects`, visiting them in
    * order: the objects `compare(pivot, o)` answers true for are pushed on
    * the left, the others on the right, and the first panicking comparison
    * ends it. */
  function Partition<H>(objects: seq<H>, pivot: H, axis: nat, boxOf: (H, real, real) -> Option<Aabb>): Outcome<(seq<H>, seq<H>)>
    decreases |objects|
  {
    if objects == [] then Ok(([], []))
    else
      var n := |objects| - 1;
      match Partition(objects[..n], pivot, axis, boxOf)
      case Panic(m) => Panic(m)
      case Ok(sides) =>
        match ObjectCompare(pivot, objects[n], axis, boxOf)
        case Panic(m) => Panic(m)
        case Ok(goesLeft) =>
          if goesLeft then Ok((sides.0 + [objects[n]], sides.1)) else Ok((sides.0, sides.1 + [objects[n]]))
  }

  /** The objects of `objects`, in order, whose comparison with the pivot
    * answers `side`. */
  function Side<H>(objects: seq<H>, pivot: H, axis: nat, boxOf: (H, real, real) -> Option<Aabb>, side: bool): (s: seq<H>)
    ensures |s| <= |objects|
    ensures forall k :: 0 <= k < |s| ==> ObjectCompare(pivot, s[k], axis, boxOf) == Ok(side)
    decreases |objects|
  {
    if objects == [] then []
    else
      var n := |objects| - 1;
      var rest := Side(objects[..n], pivot, axis, boxOf, side);
      if ObjectCompare(pivot, objects[n], axis, boxOf) == Ok(side) then rest + [objects[n]] else rest
  }

  /** The partition panics exactly when comparing the pivot with some
    * object panics; otherwise its two sides are the order-preserving
    * selections of the objects that compare true and false. */
  lemma {:induction false} PartitionIsSides<H>(objects: seq<H>, pivot: H, axis: nat, boxOf: (H, real, real) -> Option<Aabb>)
    ensures Partition(objects, pivot, axis, boxOf).Panic?
            <==> exists k :: 0 <= k < |objects| && ObjectCompare(pivot, objects[k], axis, boxOf).Panic?
    ensures Partition(objects, pivot, axis, boxOf).Ok? ==>
              Partition(objects, pivot, axis, boxOf).value
              == (Side(objects, pivot, axis, boxOf, true), Side(objects, pivot, axis, boxOf, false))
    decreases |objects|
  {
    if objects != [] {
      var n := |objects| - 1;
      PartitionIsSides(objects[..n], pivot, axis, boxOf);
      if Partition(objects[..n], pivot, axis, boxOf).Panic? {
        var k :| 0 <= k < n && ObjectCompare(pivot, objects[..n][k], axis, boxOf).Panic?;
        assert objects[..n][k] == objects[k];
      } else {
        forall k | 0 <= k < n
          ensures ObjectCompare(pivot, objects[k], axis, boxOf).Ok?
        {
          assert objects[..n][k] == objects[k];
        }
      }
    }
  }

  /** Without a panic, every object lands on exactly one side: the two
    * sides together have the objects' length and hold the same objects. */
  lemma {:induction false} SidesSplitObjects<H>(objects: seq<H>, pivot: H, axis: nat, boxOf: (H, real, real) -> Option<Aabb>)
    requires forall k :: 0 <= k < |objects| ==> ObjectCompare(pivot, objects[k], axis, boxOf).Ok?
    ensures |Side(objects, pivot, axis, boxOf, true)| + |Side(objects, pivot, axis, boxOf, false)| == |objects|
    ensures multiset(Side(objects, pivot, axis, boxOf, true)) + multiset(Side(objects, pivot, axis, boxOf, false))
            == multiset(objects)
    decreases |objects|
  {
    if objects != [] {
      var n := |objects| - 1;
      forall k | 0 <= k < n
        ensures ObjectCompare(pivot, objects[..n][k], axis, boxOf).Ok?
      {
        assert objects[..n][k] == objects[k];
      }
      SidesSplitObjects(objects[..n], pivot, axis, boxOf);
      assert objects == objects[..n] + [objects[n]];
    }
  }

  /** A panic in a prefix is the panic of the whole partition. */
  lemma {:induction false} PartitionPanicPersists<H>(objects: seq<H>, i: nat, pivot: H, axis: nat, boxOf: (H, real, real) -> Option<Aabb>)
    requires i <= |objects|
    requires Partition(objects[..i], pivot, axis, boxOf).Panic?
    ensures Partition(objects, pivot, axis, boxOf) == Partition(objects[..i], pivot, axis, boxOf)
    decreases |objects| - i
  {
    if i < |objects| {
      assert objects[..i + 1][..i] == objects[..i];
      PartitionPanicPersists(objects, i + 1, pivot, axis, boxOf);
    } else {
      assert objects[..i] == objects;
    }
  }

  /** `partition_on_axis(axis, objects, pivot)`: `objects[pivot]` panics
    * when the index is out of range; then one pass over the objects pushes
    * each on the left or on the right. */
  method PartitionOnAxis<H>(axis: nat, objects: seq<H>, pivot: nat, boxOf: (H, real, real) -> Option<Aabb>)
    returns (r: Outcome<(seq<H>, seq<H>)>)
    ensures pivot >= |objects| ==> r == Panic(INDEX_OUT_OF_BOUNDS)
    ensures pivot < |objects| ==> r == Partition(objects, objects[pivot], axis, boxOf)
  {
    if pivot >= |objects| {
      return Panic(INDEX_OUT_OF_BOUNDS);
    }
    var pivotObj := objects[pivot];
    var left, right := [], [];
    var i := 0;
    while i < |objects|
      invariant 0 <= i <= |objects|
      invariant Partition(objects[..i], pivotObj, axis, boxOf) == Ok((left, right))
    {
      assert objects[..i + 1][..i] == objects[..i];
      var goesLeft := ObjectCompare(pivotObj, objects[i], axis, boxOf);
      if goesLeft.Panic? {
        PartitionPanicPersists(objects, i + 1, pivotObj, axis, boxOf);
        return Panic(goesLeft.message);
      }
      if goesLeft.value {
        left := left + [objects[i]];
      } else {
        right := right + [objects[i]];
      }
      i := i + 1;
    }
    assert objects[..i] == objects;
    r := Ok((left, right));
  }

  /** Around a pivot taken from the objects: every object on the left
    * starts strictly after the pivot on the axis, every object on the right
    * does not, the pivot itself is on the right, and nothing is lost. */
  lemma PartitionAroundPivot<H>(objects: seq<H>, p: nat, axis: nat, boxOf: (H, real, real) -> Option<Aabb>)
    requires p < |objects|
    requires Partition(objects, objects[p], axis, boxOf).Ok?
    ensures axis < 3 && boxOf(objects[p], 0.0, 0.0).Some?
    ensures forall o :: o in Partition(objects, objects[p], axis, boxOf).value.0 ==>
              boxOf(o, 0.0, 0.0).Some?
              && LegacyBoxes.Axis(boxOf(objects[p], 0.0, 0.0).value.minimum, axis)
                 < LegacyBoxes.Axis(boxOf(o, 0.0, 0.0).value.minimum, axis)
    ensures forall o :: o in Partition(objects, objects[p], axis, boxOf).value.1 ==>
              boxOf(o, 0.0, 0.0).Some?
              && LegacyBoxes.Axis(boxOf(o, 0.0, 0.0).value.minimum, axis)
                 <= LegacyBoxes.Axis(boxOf(objects[p], 0.0, 0.0).value.minimum, axis)
    ensures objects[p] in Partition(objects, objects[p], axis, boxOf).value.1
    ensures multiset(Partition(objects, objects[p], axis, boxOf).value.0)
            + multiset(Partition(objects, objects[p], axis, boxOf).value.1) == multiset(objects)
  {
    var pivot := objects[p];
    PartitionIsSides(objects, pivot, axis, boxOf);
    SidesSplitObjects(objects, pivot, axis, boxOf);
    assert ObjectCompare(pivot, objects[p], axis, boxOf).Ok?;
    var left := Side(objects, pivot, axis, boxOf, true);
    var right := Side(objects, pivot, axis, boxOf, false);
    forall o | o in left
      ensures ObjectCompare(pivot, o, axis, boxOf) == Ok(true)
    {
      var k :| 0 <= k < |left| && left[k] == o;
    }
    forall o | o in right
      ensures ObjectCompare(pivot, o, axis, boxOf) == Ok(false)
    {
      var k :| 0 <= k < |right| && right[k] == o;
    }
    CompareIrreflexive(pivot, axis, boxOf);
    assert pivot in multiset(objects);
    assert pivot !in left;
  }

  /** The box of a child: a node's own box, an object's box over the times. */
  function ChildBox<H>(c: Child<H>, time0: real, time1: real, boxOf: (H, real, real) -> Option<Aabb>): Option<Aabb>
  {
    match c
    case Object(o) => boxOf(o, time0, time1)
    case Inner(n) => Some(n.bbox)
  }

  /** Every box of the hierarchy encloses the boxes of its children, and
    * every object in it has a box. */
  ghost predicate WellBounded<H>(node: BvhNode<H>, time0: real, time1: real, boxOf: (H, real, real) -> Option<Aabb>)
    decreases node
  {
    && ChildWellBounded(node.left, node.bbox, time0, time1, boxOf)
    && ChildWellBounded(node.right, node.bbox, time0, time1, boxOf)
  }

  ghost predicate ChildWellBounded<H>(c: Child<H>, outer: Aabb, time0: real, time1: real, boxOf: (H, real, real) -> Option<Aabb>)
    decreases c
  {
    && ChildBox(c, time0, time1, boxOf).Some?
    && LegacyBoxes.Encloses(outer, ChildBox(c, time0, time1, boxOf).value)
    && (c.Inner? ==> WellBounded(c.node, time0, time1, boxOf))
  }

  /** `bounding_box` of a node: always its box, whatever the times. */
  function BoundingBox<H>(node: BvhNode<H>, time0: real, time1: real): (r: Option<Aabb>)
    ensures r.Some? && LegacyBoxes.Encloses(r.value, node.bbox) && LegacyBoxes.Encloses(node.bbox, r.value)
  {
    Some(node.bbox)
  }

  /** `from_list` on a single object: a leaf whose two children are that
    * object and whose box is the object's, unwrapped. The leaf is well
    * bounded. */
  function FromSingle<H>(item: H, time0: real, time1: real, boxOf: (H, real, real) -> Option<Aabb>): (r: Outcome<BvhNode<H>>)
    ensures r.Panic? <==> boxOf(item, time0, time1).None?
    ensures r.Ok? ==> r.value.left == r.value.right == Object(item) && WellBounded(r.value, time0, time1, boxOf)
  {
    match boxOf(item, time0, time1)
    case None => Panic(UNWRAP_NONE)
    case Some(b) =>
      assert LegacyBoxes.Encloses(b, b);
      Ok(BvhNode(Object(item), Object(item), b))
  }

  /** The join step of `from_list` as written: both boxes are read from the
    * left node, so the panic for missing boxes cannot fire (a node always
    * has a box) and the joined box is `bound_aabbs` of the left box with
    * itself, a single point. */
  function JoinAsWritten<H>(leftNode: BvhNode<H>, rightNode: BvhNode<H>, time0: real, time1: real): (r: Outcome<BvhNode<H>>)
    ensures r.Ok?
    ensures r.value.left == Inner(leftNode) && r.value.right == Inner(rightNode)
    ensures r.value.bbox.minimum == r.value.bbox.maximum
  {
    var leftBox := BoundingBox(leftNode, time0, time1);
    var rightBox := BoundingBox(leftNode, time0, time1);
    if leftBox.None? && rightBox.None? then Panic(NO_BOXES_TO_CONSTRUCT)
    else Ok(BvhNode(Inner(leftNode), Inner(rightNode), LegacyBoxes.DegenerateUnion(leftBox.value, rightBox.value)))
  }

  /** The join step as evidently intended: the box bounds both children's
    * boxes, and the join of well-bounded nodes is well bounded. */
  function Join<H>(leftNode: BvhNode<H>, rightNode: BvhNode<H>, time0: real, time1: real): (r: Outcome<BvhNode<H>>)
    ensures r.Ok?
    ensures r.value.left == Inner(leftNode) && r.value.right == Inner(rightNode)
    ensures LegacyBoxes.Encloses(r.value.bbox, leftNode.bbox) && LegacyBoxes.Encloses(r.value.bbox, rightNode.bbox)
  {
    var leftBox := BoundingBox(leftNode, time0, time1);
    var rightBox := BoundingBox(rightNode, time0, time1);
    if leftBox.None? && rightBox.None? then Panic(NO_BOXES_TO_CONSTRUCT)
    else if leftBox.None? || rightBox.None? then Panic(UNWRAP_NONE)
    else Ok(BvhNode(Inner(leftNode), Inner(rightNode), LegacyBoxes.Union(leftBox.value, rightBox.value)))
  }

  lemma JoinWellBounded<H>(leftNode: BvhNode<H>, rightNode: BvhNode<H>, time0: real, time1: real, boxOf: (H, real, real) -> Option<Aabb>)
    requires WellBounded(leftNode, time0, time1, boxOf) && WellBounded(rightNode, time0, time1, boxOf)
    ensures WellBounded(Join(leftNode, rightNode, time0, time1).value, time0, time1, boxOf)
  {
  }

  /** The nearer of the two children's hits: the left one only when its
    * time is strictly smaller, a missing hit counting as time `f64::MAX`. */
  function Closer<M>(lh: Option<LegacyHits.HitRecord<M>>, rh: Option<LegacyHits.HitRecord<M>>): (r: Option<LegacyHits.HitRecord<M>>)
    ensures r == lh || r == rh
    ensures lh.None? ==> (r == rh <==> rh.None? || rh.value.t <= F64_MAX)
    ensures lh.Some? && rh.Some? ==>
              r.Some? && r.value.t <= lh.value.t && r.value.t <= rh.value.t
              && (lh.value.t == rh.value.t ==> r == rh)
    ensures lh.Some? && rh.None? ==> (r.Some? <==> lh.value.t < F64_MAX)
  {
    if lh.None? && rh.None? then None
    else
      var leftTime := if lh.Some? then lh.value.t else F64_MAX;
      var rightTime := if rh.Some? then rh.value.t else F64_MAX;
      if leftTime < rightTime then lh else rh
  }

  /** `hit` of a node: no hit when the ray misses the node's box; otherwise
    * the nearer of the children's hits. */
  function Hit<H, M>(node: BvhNode<H>, ray: CoreRays.TimedRay, tMin: real, tMax: real,
                     objHit: (H, CoreRays.TimedRay, real, real) -> Option<LegacyHits.HitRecord<M>>): (r: Option<LegacyHits.HitRecord<M>>)
    ensures !LegacyBoxes.SlabFixedFrom(node.bbox, ray, 0, tMin, tMax) ==> r.None?
    ensures r.Some? ==> r == ChildHit(node.left, ray, tMin, tMax, objHit) || r == ChildHit(node.right, ray, tMin, tMax, objHit)
    decreases node, 1
  {
    if !LegacyBoxes.SlabFixedFrom(node.bbox, ray, 0, tMin, tMax) then None
    else Closer(ChildHit(node.left, ray, tMin, tMax, objHit), ChildHit(node.right, ray, tMin, tMax, objHit))
  }

  /** The hit of one child: an object's own `hit`, or a node's. */
  function ChildHit<H, M>(c: Child<H>, ray: CoreRays.TimedRay, tMin: real, tMax: real,
                          objHit: (H, CoreRays.TimedRay, real, real) -> Option<LegacyHits.HitRecord<M>>): Option<LegacyHits.HitRecord<M>>
    decreases c, 0
  {
    match c
    case Object(o) => objHit(o, ray, tMin, tMax)
    case Inner(n) => Hit(n, ray, tMin, tMax, objHit)
  }

  /** What the objects' `hit` promises: a hit lies strictly within the
    * interval, at a point strictly inside the object's box. */
  ghost predicate HitsInsideBoxes<H(!new), M>(objHit: (H, CoreRays.TimedRay, real, real) -> Option<LegacyHits.HitRecord<M>>,
                                       boxOf: (H, real, real) -> Option<Aabb>, time0: real, time1: real)
  {
    forall o, ray, tMin, tMax {:trigger objHit(o, ray, tMin, tMax)} ::
      objHit(o, ray, tMin, tMax).Some? ==>
        && tMin < objHit(o, ray, tMin, tMax).value.t < tMax
        && boxOf(o, time0, time1).Some?
        && LegacyBoxes.Inside(CoreRays.PositionAt(ray, objHit(o, ray, tMin, tMax).value.t), boxOf(o, time0, time1).value)
  }

  lemma InsideEnclosed(p: Vec3, outer: Aabb, inner: Aabb)
    requires LegacyBoxes.Encloses(outer, inner) && LegacyBoxes.Inside(p, inner)
    ensures LegacyBoxes.Inside(p, outer)
  {
  }

  /** Culling by boxes loses no hit: in a well-bounded hierarchy whose
    * objects hit inside their boxes, a node reports a hit whenever one of
    * its children does (for t_max at most `f64::MAX`), and what it reports
    * lies inside its box. */
  lemma {:induction false} HitFindsChildHits<H(!new), M>(node: BvhNode<H>, ray: CoreRays.TimedRay, tMin: real, tMax: real,
                                                  objHit: (H, CoreRays.TimedRay, real, real) -> Option<LegacyHits.HitRecord<M>>,
                                                  boxOf: (H, real, real) -> Option<Aabb>, time0: real, time1: real)
    requires tMax <= F64_MAX
    requires WellBounded(node, time0, time1, boxOf) && HitsInsideBoxes(objHit, boxOf, time0, time1)
    ensures ChildHit(node.left, ray, tMin, tMax, objHit).Some? || ChildHit(node.right, ray, tMin, tMax, objHit).Some?
            ==> Hit(node, ray, tMin, tMax, objHit).Some?
    ensures Hit(node, ray, tMin, tMax, objHit).Some? ==>
              && tMin < Hit(node, ray, tMin, tMax, objHit).value.t < tMax
              && LegacyBoxes.Inside(CoreRays.PositionAt(ray, Hit(node, ray, tMin, tMax, objHit).value.t), node.bbox)
    decreases node
  {
    ChildHitInside(node.left, node.bbox, ray, tMin, tMax, objHit, boxOf, time0, time1);
    ChildHitInside(node.right, node.bbox, ray, tMin, tMax, objHit, boxOf, time0, time1);
    var lh := ChildHit(node.left, ray, tMin, tMax, objHit);
    var rh := ChildHit(node.right, ray, tMin, tMax, objHit);
    if lh.Some? {
      LegacyBoxes.SlabFixedFindsInside(node.bbox, ray, 0, tMin, tMax, lh.value.t);
    } else if rh.Some? {
      LegacyBoxes.SlabFixedFindsInside(node.bbox, ray, 0, tMin, tMax, rh.value.t);
    }
  }

  /** A child's hit lies within the interval and inside the box enclosing
    * the child. */
  lemma {:induction false} ChildHitInside<H(!new), M>(c: Child<H>, outer: Aabb, ray: CoreRays.TimedRay, tMin: real, tMax: real,
                                               objHit: (H, CoreRays.TimedRay, real, real) -> Option<LegacyHits.HitRecord<M>>,
                                               boxOf: (H, real, real) -> Option<Aabb>, time0: real, time1: real)
    requires tMax <= F64_MAX
    requires ChildWellBounded(c, outer, time0, time1, boxOf) && HitsInsideBoxes(objHit, boxOf, time0, time1)
    ensures ChildHit(c, ray, tMin, tMax, objHit).Some? ==>
              && tMin < ChildHit(c, ray, tMin, tMax, objHit).value.t < tMax
              && LegacyBoxes.Inside(CoreRays.PositionAt(ray, ChildHit(c, ray, tMin, tMax, objHit).value.t), outer)
    decreases c
  {
    var h := ChildHit(c, ray, tMin, tMax, objHit);
    if h.Some? {
      var p := CoreRays.PositionAt(ray, h.value.t);
      match c
      case Object(o) =>
        InsideEnclosed(p, outer, boxOf(o, time0, time1).value);
      case Inner(n) =>
        HitFindsChildHits(n, ray, tMin, tMax, objHit, boxOf, time0, time1);
        InsideEnclosed(p, outer, n.bbox);
    }
  }

  /** A ray that moves along x never passes the corrected slab test of a
    * box that is a single point: its x interval is empty. */
  lemma PointBoxMissed(b: Aabb, ray: CoreRays.TimedRay, tMin: real, tMax: real)
    requires b.minimum == b.maximum && ray.direction.x != 0.0
    ensures !LegacyBoxes.SlabFixedFrom(b, ray, 0, tMin, tMax)
  {
    var step := LegacyBoxes.AxisStep(b, ray, 0, tMin, tMax);
    assert LegacyBoxes.Axis(b.minimum, 0) == LegacyBoxes.Axis(b.maximum, 0);
    assert step.Some? && step.value.0 >= step.value.1;
  }

  /** The as-written join loses the joined hierarchy: no ray that moves
    * along x hits it, whatever its children would hit. */
  lemma JoinAsWrittenHidesChildren<H, M>(leftNode: BvhNode<H>, rightNode: BvhNode<H>, time0: real, time1: real,
                                         ray: CoreRays.TimedRay, tMin: real, tMax: real,
                                         objHit: (H, CoreRays.TimedRay, real, real) -> Option<LegacyHits.HitRecord<M>>)
    requires ray.direction.x != 0.0
    ensures Hit(JoinAsWritten(leftNode, rightNode, time0, time1).value, ray, tMin, tMax, objHit).None?
  {
    PointBoxMissed(JoinAsWritten(leftNode, rightNode, time0, time1).value.bbox, ray, tMin, tMax);
  }

  /** The corrected join reports a hit whenever either sub-hierarchy does. */
  lemma JoinKeepsChildHits<H(!new), M>(leftNode: BvhNode<H>, rightNode: BvhNode<H>, time0: real, time1: real,
                                 ray: CoreRays.TimedRay, tMin: real, tMax: real,
                                 objHit: (H, CoreRays.TimedRay, real, real) -> Option<LegacyHits.HitRecord<M>>,
                                 boxOf: (H, real, real) -> Option<Aabb>)
    requires tMax <= F64_MAX
    requires WellBounded(leftNode, time0, time1, boxOf) && WellBounded(rightNode, time0, time1, boxOf)
    requires HitsInsideBoxes(objHit, boxOf, time0, time1)
    ensures Hit(leftNode, ray, tMin, tMax, objHit).Some? || Hit(rightNode, ray, tMin, tMax, objHit).Some?
            ==> Hit(Join(leftNode, rightNode, time0, time1).value, ray, tMin, tMax, objHit).Some?
  {
    JoinWellBounded(leftNode, rightNode, time0, time1, boxOf);
    HitFindsChildHits(Join(leftNode, rightNode, time0, time1).value, ray, tMin, tMax, objHit, boxOf, time0, time1);
  }
}

=== FILE: legacy_common.dfy ===
/** Shared helpers of the older snapshots: the random helpers and the
  * asserting intervals of src/common.rs, the interval and random helpers of
  * OG/src/utils/other.rs, and the colour output of src/utils/color.rs.
  * Every random draw is a parameter `r` standing for one `random_float()`,
  * a number in [0, 1). */
module LegacyCommon {
  import opened Wrappers
  import opened Numeric
  import opened Vectors
  import Utils

  /** `random_float_in_range(min, max)` for the draw r (src/common.rs and
    * OG/src/utils/other.rs): min + (max − min)·r, within [min, max). */
  function RandomFloatInRange(min: real, max: real, r: real): (x: real)
    ensures 0.0 <= r < 1.0 && min < max ==> min <= x < max
  {
    var width := max - min;
    if 0.0 <= r < 1.0 && 0.0 < width then
      Utils.RangeBound(r, width);
      assert width * r == r * width;
      min + width * r
    else
      min + width * r
  }

  /** It draws the same number as the live engine's `random_range`. */
  lemma RandomFloatInRangeAgrees(min: real, max: real, r: real)
    ensures RandomFloatInRange(min, max, r) == Utils.RandomRange(min, max, r)
  {
  }

  /** `random_natural(min, max)` for the draw r (src/common.rs and
    * OG/src/utils/other.rs): the expression of the live
    * `u32_random_range`, `((min + (max − min)) as f64 · r) as u32`, so the
    * u32 subtraction panics when min > max and otherwise min cancels. */
  function RandomNatural(min: nat, max: nat, r: real): (x: Outcome<nat>)
    requires min < U32_LIMIT && max < U32_LIMIT
    ensures x.Panic? <==> max < min
    ensures x.Ok? && 0.0 <= r < 1.0 && 1 <= max ==> x.value < max
    ensures x.Ok? && 0.0 <= r < 1.0 && max == 0 ==> x.value == 0
  {
    if min <= max && 0.0 <= r < 1.0 then
      Utils.U32RandomRangeBound(min, max, r);
      Utils.U32RandomRange(min, max, r)
    else
      Utils.U32RandomRange(min, max, r)
  }

  /** The lower bound has no effect on `random_natural`. */
  lemma RandomNaturalIgnoresMin(min: nat, max: nat, r: real)
    requires min <= max < U32_LIMIT
    ensures RandomNatural(min, max, r) == RandomNatural(0, max, r)
  {
    Utils.U32RandomRangeIgnoresMin(min, 0, max, r);
  }

  /** The interval of src/common.rs. */
  datatype Interval = Interval(t0: real, t1: real)

  /** `Interval::new`: asserts start <= end. */
  function NewInterval(start: real, end: real): (r: Outcome<Interval>)
    ensures r.Panic? <==> start > end
    ensures r.Ok? ==> r.value.t0 == start && r.value.t1 == end && r.value.t0 <= r.value.t1
  {
    if start <= end then Ok(Interval(start, end)) else Panic("assertion failed: start <= end")
  }

  /** The vector interval of src/common.rs. */
  datatype IntervalV3 = IntervalV3(t0: Vec3, t1: Vec3)

  /** `IntervalV3::IntervalV3`: asserts start <= end on every component. */
  function NewIntervalV3(start: Vec3, end: Vec3): (r: Outcome<IntervalV3>)
    ensures r.Panic? <==> !(start.x <= end.x && start.y <= end.y && start.z <= end.z)
    ensures r.Ok? ==> r.value.t0 == start && r.value.t1 == end
  {
    if start.x <= end.x && start.y <= end.y && start.z <= end.z then Ok(IntervalV3(start, end))
    else Panic("assertion failed: start[0] <= end[0] && start[1] <= end[1] && start[2] <= end[2]")
  }

  /** The interval of OG/src/utils/other.rs, whose bounds `ceil` and
    * `floor` tighten in place. */
  class IntervalCell {
    var min: real
    var max: real

    constructor (min: real, max: real)
      ensures this.min == min && this.max == max
    {
      this.min := min;
      this.max := max;
    }

    /** `contains`: both ends included. */
    predicate Contains(time: real)
      reads this
    {
      min <= time <= max
    }

    /** `ceil(x)`: max becomes min(max, max(min, x)). Only max changes, it
      * never grows, it stays at or above min, and the interval keeps exactly
      * the times it held that do not exceed max(min, x). */
    method Ceil(x: real)
      modifies this
      ensures min == old(min)
      ensures max == Min(old(max), Max(old(min), x))
      ensures max <= old(max)
      ensures old(min) <= old(max) ==> min <= max
      ensures forall t :: Contains(t) <==> old(Contains(t)) && t <= Max(old(min), x)
    {
      max := Min(max, Max(min, x));
    }

    /** `floor(x)`: min becomes max(min, min(max, x)). Only min changes, it
      * never shrinks, it stays at or below max, and the interval keeps
      * exactly the times it held that are not below min(max, x). */
    method Floor(x: real)
      modifies this
      ensures max == old(max)
      ensures min == Max(old(min), Min(old(max), x))
      ensures min >= old(min)
      ensures old(min) <= old(max) ==> min <= max
      ensures forall t :: Contains(t) <==> old(Contains(t)) && t >= Min(old(max), x)
    {
      min := Max(min, Min(max, x));
    }
  }

  /** `map_normalized_component(c)` = `(c · 255).floor() as i32`. */
  function MapNormalizedComponent(c: real): (n: int)
    ensures I32_MIN <= n <= I32_MAX
    ensures 0.0 <= c <= 1.0 ==> 0 <= n <= 255
    ensures 0.0 <= c <= 1.0 ==> n as real <= c * 255.0 < n as real + 1.0
  {
    SaturateI32((c * 255.0).Floor as real)
  }

  /** 0 maps to 0, 1 to 255, and the map never decreases. */
  lemma MapNormalizedComponentShape(c1: real, c2: real)
    ensures MapNormalizedComponent(0.0) == 0 && MapNormalizedComponent(1.0) == 255
    ensures c1 <= c2 ==> MapNormalizedComponent(c1) <= MapNormalizedComponent(c2)
  {
    if c1 <= c2 {
      FloorMonotone(c1 * 255.0, c2 * 255.0);
    }
  }

  lemma FloorMonotone(a: real, b: real)
    requires a <= b
    ensures a.Floor <= b.Floor
  {
  }

  /** `write_color`: the three numbers of the line, channel 0, then 1, then
    * 2 (x, y, z of the colour vector). */
  function WriteColor(c: Vec3): (line: seq<int>)
    ensures |line| == 3
    ensures forall i :: 0 <= i < 3 ==> Index(c, i).Ok? && line[i] == MapNormalizedComponent(Index(c, i).value)
  {
    [MapNormalizedComponent(c.x), MapNormalizedComponent(c.y), MapNormalizedComponent(c.z)]
  }
}

=== FILE: legacy_hits.dfy ===
/** Hit records of the `src/` snapshots (src/hittable.rs and
  * src/core/hittable.rs, which differ only in the ray type and in `uv`).
  *
  * Both build the stored normal with the unary minus of src/math/vec3.rs,
  * which returns its operand unchanged, so the record's normal is always
  * the outward normal and does not oppose a ray leaving the surface,
  * although the field's documentation promises it does.
  * `NewRecordAsWritten` and `NewCoreRecordAsWritten` are the records as
  * built; `NewRecord` and `NewCoreRecord` use a true negation and are the
  * ones the other modules build. */
module LegacyHits {
  import opened Wrappers
  import opened Vectors
  import opened Shapes
  import opened LegacyMath
  import Rays
  import CoreRays

  /** The material is generic: the material objects are shared handles
    * whose behaviour is supplied where a record is used. */
  datatype HitRecord<M> = HitRecord(
    point: Vec3,
    normal: Vec3,
    t: real,
    material: Option<M>,
    hitFrontFace: bool,
    tCoord: Option<UV>)

  /** `HitRecord::new` as written: front-facing iff the direction meets the
    * outward normal at a negative dot product; the point is
    * `ray.position_at(t)`; the "flipped" normal is the identity's result. */
  function NewRecordAsWritten<M>(ray: Rays.Ray, outward: Vec3, t: real, material: Option<M>, tCoord: Option<UV>): (h: HitRecord<M>)
    ensures h.hitFrontFace <==> Dot(ray.direction, outward) < 0.0
    ensures h.point == Rays.PositionAt(ray, t)
    ensures h.t == t && h.material == material && h.tCoord == tCoord
    ensures h.normal == outward
  {
    var front := Dot(ray.direction, outward) < 0.0;
    HitRecord(Rays.PositionAt(ray, t), if front then outward else NegAsWritten(outward), t, material, front, tCoord)
  }

  /** As written, a ray leaving through the surface gets a normal that
    * points along it: the documented "always opposes" fails for every such
    * ray, for instance direction (1, 0, 0) against outward normal (1, 0, 0). */
  lemma NewRecordAsWrittenFollowsRay<M>(ray: Rays.Ray, outward: Vec3, t: real, material: Option<M>, tCoord: Option<UV>)
    requires Dot(ray.direction, outward) > 0.0
    ensures Dot(ray.direction, NewRecordAsWritten(ray, outward, t, material, tCoord).normal) > 0.0
    ensures Dot(Vec3(1.0, 0.0, 0.0), NewRecordAsWritten(Rays.Ray(Zeros(), Vec3(1.0, 0.0, 0.0)), Vec3(1.0, 0.0, 0.0), t, material, tCoord).normal) == 1.0
  {
  }

  /** `HitRecord::new` with the normal negated on the back face. */
  function NewRecord<M>(ray: Rays.Ray, outward: Vec3, t: real, material: Option<M>, tCoord: Option<UV>): (h: HitRecord<M>)
    ensures h.hitFrontFace <==> Dot(ray.direction, outward) < 0.0
    ensures h.point == Rays.PositionAt(ray, t)
    ensures h.t == t && h.material == material && h.tCoord == tCoord
    ensures h.hitFrontFace ==> h.normal == outward
    ensures !h.hitFrontFace ==> Add(h.normal, outward) == Zeros()
    ensures Dot(ray.direction, h.normal) <= 0.0
    ensures LengthSquared(h.normal) == LengthSquared(outward)
  {
    var front := Dot(ray.direction, outward) < 0.0;
    assert Dot(ray.direction, Neg(outward)) == -Dot(ray.direction, outward);
    HitRecord(Rays.PositionAt(ray, t), if front then outward else Neg(outward), t, material, front, tCoord)
  }

  /** The two constructions agree exactly on front-facing hits, and on a
    * back face only when the outward normal is zero. */
  lemma NewRecordAgreement<M>(ray: Rays.Ray, outward: Vec3, t: real, material: Option<M>, tCoord: Option<UV>)
    ensures NewRecord(ray, outward, t, material, tCoord) == NewRecordAsWritten(ray, outward, t, material, tCoord)
            <==> Dot(ray.direction, outward) < 0.0 || outward == Zeros()
  {
    NegAsWrittenIsNotNegation(outward);
  }

  /** `HitRecord::new` of src/core/hittable.rs as written. src/core brings
    * the vector type of src/math into scope (src/core/mod.rs:30), so its
    * `-` is the same identity and the record's normal is always the outward
    * normal. */
  function NewCoreRecordAsWritten<M>(ray: CoreRays.TimedRay, outward: Vec3, t: real, material: Option<M>, tCoord: Option<UV>): (h: HitRecord<M>)
    ensures h.point == CoreRays.PositionAt(ray, t)
    ensures h.hitFrontFace <==> Dot(ray.direction, outward) < 0.0
    ensures h.t == t && h.material == material && h.tCoord == tCoord
    ensures h.normal == outward
  {
    NewRecordAsWritten(CoreRays.Spatial(ray), outward, t, material, tCoord)
  }

  /** As written, the src/core record of a ray leaving through the surface
    * has a normal pointing along the ray. For instance a unit sphere at the
    * origin hit from inside by the ray from the origin along (1, 0, 0) is
    * hit at t = 1 with outward normal (1, 0, 0), and the stored normal is
    * (1, 0, 0), at dot product 1 with the direction. */
  lemma NewCoreRecordAsWrittenFollowsRay<M>(ray: CoreRays.TimedRay, outward: Vec3, t: real, material: Option<M>, tCoord: Option<UV>)
    requires Dot(ray.direction, outward) > 0.0
    ensures !NewCoreRecordAsWritten(ray, outward, t, material, tCoord).hitFrontFace
    ensures Dot(ray.direction, NewCoreRecordAsWritten(ray, outward, t, material, tCoord).normal) > 0.0
    ensures var x := Vec3(1.0, 0.0, 0.0);
            Dot(x, NewCoreRecordAsWritten(CoreRays.TimedRay(Zeros(), x, 0.0), x, 1.0, material, tCoord).normal) == 1.0
  {
  }

  /** `HitRecord::new` of src/core/hittable.rs with the normal negated on
    * the back face, on the timed ray of that snapshot: its point is the
    * timed ray's position at t. */
  function NewCoreRecord<M>(ray: CoreRays.TimedRay, outward: Vec3, t: real, material: Option<M>, tCoord: Option<UV>): (h: HitRecord<M>)
    ensures h.point == CoreRays.PositionAt(ray, t)
    ensures h.hitFrontFace <==> Dot(ray.direction, outward) < 0.0
    ensures h.t == t && h.material == material && h.tCoord == tCoord
    ensures h.hitFrontFace ==> h.normal == outward
    ensures !h.hitFrontFace ==> Add(h.normal, outward) == Zeros()
    ensures Dot(ray.direction, h.normal) <= 0.0
  {
    NewRecord(CoreRays.Spatial(ray), outward, t, material, tCoord)
  }

  /** `uv()` of src/core/hittable.rs: `t_coord.unwrap()`, which panics when
    * no texture coordinate was recorded. */
  function Uv<M>(h: HitRecord<M>): (r: Outcome<UV>)
    ensures r.Panic? <==> h.tCoord.None?
    ensures r.Ok? ==> r.value == h.tCoord.value
  {
    match h.tCoord
    case None => Panic("called `Option::unwrap()` on a `None` value")
    case Some(uv) => Ok(uv)
  }
}

=== FILE: legacy_lists.dfy ===
/** The hittable lists of the `src/` snapshots (src/hittable_list.rs and
  * src/core/hittable_list.rs). The two differ only in how the interval is
  * passed to the children (two bounds or an `Interval`) and in the name of
  * the bounding-box method, so one class models both.
  *
  * The children are shared trait objects whose code is elsewhere: the list
  * is generic in the child type `H`, and each child's `hit` and
  * `bounding_box` are function parameters. The fold of boxes uses the
  * corrected union of LegacyBoxes (see LegacyBoxes.DegenerateUnion for the
  * union as written). */
module LegacyLists {
  import opened Wrappers
  import opened Shapes
  import opened LegacyHits
  import opened LegacyBoxes

  /** What the scan of `hit` carries: the hit kept so far (`maybe_hit`) and
    * the upper bound passed to the next child (`closest_hit`). */
  datatype Scan<M> = Scan(found: Option<HitRecord<M>>, closest: real)

  /** The state of `hit` after the first n children. */
  function ScanPrefix<H, M>(objects: seq<H>, n: nat, tMin: real, tMax: real,
                            hit: (H, real, real) -> Option<HitRecord<M>>): (s: Scan<M>)
    requires n <= |objects|
    ensures s.found.Some? ==> s.closest == s.found.value.t
    ensures s.found.None? ==> s.closest == tMax
  {
    if n == 0 then Scan(None, tMax)
    else
      var s := ScanPrefix(objects, n - 1, tMin, tMax, hit);
      match hit(objects[n - 1], tMin, s.closest)
      case None => s
      case Some(h) => Scan(Some(h), h.t)
  }

  /** A hit record kept only when it lies at or before `bound`. */
  function Restrict<M>(r: Option<HitRecord<M>>, bound: real): (q: Option<HitRecord<M>>)
    ensures q.Some? <==> r.Some? && r.value.t <= bound
    ensures q.Some? ==> q == r
  {
    if r.Some? && r.value.t <= bound then r else None
  }

  /** The contract a child's `hit` keeps for a fixed lower bound: it reports
    * its nearest hit within the interval, so lowering the upper bound keeps
    * that hit while it still lies within and loses it otherwise. A sphere
    * keeps it (LegacySpheres.RSphereHitRestricts). */
  ghost predicate NearestLike<H(!new), M>(hit: (H, real, real) -> Option<HitRecord<M>>, tMin: real)
  {
    forall o: H, a: real, b: real {:trigger hit(o, tMin, a), hit(o, tMin, b)} ::
      a <= b ==> hit(o, tMin, a) == Restrict(hit(o, tMin, b), a)
  }

  /** Without any contract on the children: the scan keeps nothing exactly
    * when no child reports a hit over the whole interval. */
  lemma {:induction false} ScanMissesIffAllMiss<H, M>(objects: seq<H>, n: nat, tMin: real, tMax: real,
                                                      hit: (H, real, real) -> Option<HitRecord<M>>)
    requires n <= |objects|
    ensures ScanPrefix(objects, n, tMin, tMax, hit).found.None?
            <==> forall k :: 0 <= k < n ==> hit(objects[k], tMin, tMax).None?
  {
    if n > 0 {
      ScanMissesIffAllMiss(objects, n - 1, tMin, tMax, hit);
    }
  }

  /** Under the children's contract, `closest_hit` starts at the upper bound
    * and never increases. */
  lemma {:induction false} ScanNarrows<H(!new), M>(objects: seq<H>, m: nat, n: nat, tMin: real, tMax: real,
                                             hit: (H, real, real) -> Option<HitRecord<M>>)
    requires m <= n <= |objects|
    requires NearestLike(hit, tMin)
    ensures ScanPrefix(objects, n, tMin, tMax, hit).closest <= ScanPrefix(objects, m, tMin, tMax, hit).closest <= tMax
    decreases n
  {
    if n > 0 {
      var s := ScanPrefix(objects, n - 1, tMin, tMax, hit);
      var c := hit(objects[n - 1], tMin, s.closest);
      assert c == Restrict(c, s.closest);
      if m < n {
        ScanNarrows(objects, m, n - 1, tMin, tMax, hit);
      } else if n > 0 {
        ScanNarrows(objects, n - 1, n - 1, tMin, tMax, hit);
      }
    }
  }

  /** Under the children's contract, the scan finds the nearest hit: it finds
    * one exactly when some child is hit within the whole interval; its t is
    * no greater than that of any child's hit; and it is the hit of a child
    * after which no child is hit at the same or a smaller t, so among equal
    * t the last child wins. */
  lemma {:induction false} ScanFindsNearest<H(!new), M>(objects: seq<H>, n: nat, tMin: real, tMax: real,
                                                  hit: (H, real, real) -> Option<HitRecord<M>>)
    requires n <= |objects|
    requires NearestLike(hit, tMin)
    ensures var s := ScanPrefix(objects, n, tMin, tMax, hit);
            && (s.found.Some? <==> exists k :: 0 <= k < n && hit(objects[k], tMin, tMax).Some?)
            && (s.found.Some? ==> forall k :: 0 <= k < n && hit(objects[k], tMin, tMax).Some?
                                     ==> s.found.value.t <= hit(objects[k], tMin, tMax).value.t)
            && (s.found.Some? ==> exists k :: 0 <= k < n && hit(objects[k], tMin, tMax) == s.found
                                    && forall j :: k < j < n ==> (hit(objects[j], tMin, tMax).None?
                                                                  || s.found.value.t < hit(objects[j], tMin, tMax).value.t))
  {
    if n > 0 {
      ScanFindsNearest(objects, n - 1, tMin, tMax, hit);
      ScanNarrows(objects, n - 1, n - 1, tMin, tMax, hit);
      var s := ScanPrefix(objects, n - 1, tMin, tMax, hit);
      var full := hit(objects[n - 1], tMin, tMax);
      var c := hit(objects[n - 1], tMin, s.closest);
      assert c == Restrict(full, s.closest);
      assert full == Restrict(full, tMax);
      var r := ScanPrefix(objects, n, tMin, tMax, hit);
      if c.Some? {
        assert r.found == full;
        assert hit(objects[n - 1], tMin, tMax) == r.found;
      } else {
        assert r == s;
        if full.Some? {
          assert s.found.Some?;
        }
        if s.found.Some? {
          var k :| 0 <= k < n - 1 && hit(objects[k], tMin, tMax) == s.found
                   && forall j :: k < j < n - 1 ==> (hit(objects[j], tMin, tMax).None?
                                                    || s.found.value.t < hit(objects[j], tMin, tMax).value.t);
          assert forall j :: k < j < n ==> (hit(objects[j], tMin, tMax).None?
                                           || r.found.value.t < hit(objects[j], tMin, tMax).value.t);
        }
      }
    }
  }

  /** The enclosing box after the first n children: a child without a box
    * is skipped, the first box is taken as it is, and each later one is
    * joined to the running box. */
  function EnclosingPrefix<H>(objects: seq<H>, n: nat, boxOf: H -> Option<Aabb>): (r: Option<Aabb>)
    requires n <= |objects|
    ensures r.None? <==> forall k :: 0 <= k < n ==> boxOf(objects[k]).None?
  {
    if n == 0 then None
    else
      var e := EnclosingPrefix(objects, n - 1, boxOf);
      match boxOf(objects[n - 1])
      case None => e
      case Some(b) => if e.None? then Some(b) else Some(Union(e.value, b))
  }

  /** The enclosing box is the least box enclosing every child's box. */
  lemma {:induction false} EnclosingIsLeast<H>(objects: seq<H>, n: nat, boxOf: H -> Option<Aabb>, c: Aabb)
    requires n <= |objects|
    ensures EnclosingPrefix(objects, n, boxOf).Some? ==>
              forall k :: 0 <= k < n && boxOf(objects[k]).Some?
                ==> Encloses(EnclosingPrefix(objects, n, boxOf).value, boxOf(objects[k]).value)
    ensures EnclosingPrefix(objects, n, boxOf).Some?
            && (forall k :: 0 <= k < n && boxOf(objects[k]).Some? ==> Encloses(c, boxOf(objects[k]).value))
            ==> Encloses(c, EnclosingPrefix(objects, n, boxOf).value)
  {
    if n > 0 {
      EnclosingIsLeast(objects, n - 1, boxOf, c);
      var e := EnclosingPrefix(objects, n - 1, boxOf);
      match boxOf(objects[n - 1])
      case None =>
      case Some(b) =>
        if e.Some? {
          var u := Union(e.value, b);
          UnionIsLeast(e.value, b, c);
          forall k | 0 <= k < n - 1 && boxOf(objects[k]).Some?
            ensures Encloses(u, boxOf(objects[k]).value)
          {
            EnclosesTransitive(u, e.value, boxOf(objects[k]).value);
          }
        }
    }
  }

  /** `HittableList`: the list of children, in insertion order. */
  class HittableList<H> {
    var objects: seq<H>

    /** `HittableList::new` (`default` is the empty list). */
    constructor (objects: seq<H>)
      ensures this.objects == objects
    {
      this.objects := objects;
    }

    /** `clear`: the list becomes empty. */
    method Clear()
      modifies this
      ensures objects == []
    {
      objects := [];
    }

    /** `add`: the new child goes at the end. */
    method Add(item: H)
      modifies this
      ensures objects == old(objects) + [item]
    {
      objects := objects + [item];
    }

    /** `objects()`: the children in insertion order. */
    function Objects(): (r: seq<H>)
      reads this
      ensures |r| == |objects| && forall k :: 0 <= k < |r| ==> r[k] == objects[k]
    {
      objects
    }

    /** `hit`: each child is asked for a hit between `tMin` and the t of the
      * hit kept so far; a hit it reports replaces the kept one. An empty
      * list finds nothing. */
    method Hit<M>(tMin: real, tMax: real, hit: (H, real, real) -> Option<HitRecord<M>>)
      returns (r: Option<HitRecord<M>>)
      ensures r == ScanPrefix(objects, |objects|, tMin, tMax, hit).found
      ensures |objects| == 0 ==> r.None?
    {
      var maybeHit: Option<HitRecord<M>> := None;
      var closestHit := tMax;
      for i := 0 to |objects|
        invariant ScanPrefix(objects, i, tMin, tMax, hit) == Scan(maybeHit, closestHit)
      {
        match hit(objects[i], tMin, closestHit)
        case None =>
        case Some(h) =>
          closestHit := h.t;
          maybeHit := Some(h);
      }
      r := maybeHit;
    }

    /** `bounding_box` (`bounding_bound` in src/hittable_list.rs): the
      * boxes of the children that have one, joined left to right. */
    method BoundingBox(boxOf: H -> Option<Aabb>) returns (r: Option<Aabb>)
      ensures r == EnclosingPrefix(objects, |objects|, boxOf)
    {
      var enclosing: Option<Aabb> := None;
      for i := 0 to |objects|
        invariant enclosing == EnclosingPrefix(objects, i, boxOf)
      {
        match boxOf(objects[i])
        case None =>
        case Some(b) =>
          enclosing := if enclosing.None? then Some(b) else Some(Union(enclosing.value, b));
      }
      r := enclosing;
    }
  }
}

=== FILE: legacy_materials.dfy ===
/** Materials of the `src/` and `OG/` snapshots: the dielectric, Lambertian
  * and out-parameter metal of src/ray_tracer, the Lambertian of
  * src/core/material/lambertian.rs and the metal of
  * OG/src/core/material/metal.rs.
  *
  * The random draws (`random_float`, `random_unit_vector`,
  * `sample_unit_sphere`) are parameters, and so are `reflect` and `refract`
  * of these snapshots, whose code is not part of this model. Colours are
  * vectors, as in these snapshots. The unary minus is the true negation
  * (see LegacyMath.NegAsWritten for the one these snapshots define). */
module LegacyMaterials {
  import opened Wrappers
  import opened Numeric
  import opened Vectors
  import opened Shapes
  import opened LegacyMath
  import opened LegacyHits
  import opened LegacyTextures
  import Rays
  import CoreRays
  import Materials

  /** The Lambertian of either snapshot: its albedo texture. */
  datatype Lambertian = Lambertian(albedo: LegacyTexture)

  /** `Lambertian::from_texture` of src/ray_tracer/lambertian.rs calls
    * itself with the same argument and nothing else, so it never returns.
    * `fuel` bounds the depth of the calls: with any bound the call has not
    * returned a material yet. */
  function FromTextureAsWritten(texture: LegacyTexture, fuel: nat): Option<Lambertian>
  {
    if fuel == 0 then None else FromTextureAsWritten(texture, fuel - 1)
  }

  /** However deep the calls may go, `from_texture` as written returns no
    * material. */
  lemma {:induction false} FromTextureNeverReturns(texture: LegacyTexture, fuel: nat)
    ensures FromTextureAsWritten(texture, fuel).None?
  {
    if fuel > 0 {
      FromTextureNeverReturns(texture, fuel - 1);
    }
  }

  /** `new` and `from_color` as written go through `from_texture` and so
    * never return either. */
  function FromColorAsWritten(color: Vec3, fuel: nat): (r: Option<Lambertian>)
    ensures r.None?
  {
    FromTextureNeverReturns(Solid(color), fuel);
    FromTextureAsWritten(Solid(color), fuel)
  }

  /** `Lambertian::from_texture` of src/core/material/lambertian.rs: the
    * given texture becomes the albedo. */
  function FromTexture(texture: LegacyTexture): (l: Lambertian)
    ensures l.albedo == texture
  {
    Lambertian(texture)
  }

  /** `from_color` (and `new`) of src/core: a solid texture of that colour,
    * whose value is the colour at every coordinate. */
  function FromColor(color: Vec3): (l: Lambertian)
    ensures forall uv: UV, sin: real -> real {:trigger TextureValue(l.albedo, uv, sin)} ::
              TextureValue(l.albedo, uv, sin) == Ok(color)
  {
    FromTexture(Solid(color))
  }

  /** The Lambertian bounce direction: normal + the random unit vector,
    * except that a sum within 1e-8 of zero falls back to the normal. */
  function ScatterDirection(normal: Vec3, unitVector: Vec3): (d: Vec3)
    ensures NearZero(Add(normal, unitVector)) ==> d == normal
    ensures !NearZero(Add(normal, unitVector)) ==> d == Add(normal, unitVector)
    ensures d == normal || !NearZero(d)
  {
    var sum := Add(normal, unitVector);
    if NearZero(sum) then normal else sum
  }

  /** What the Lambertian of src/ray_tracer hands back: its texture, to be
    * evaluated by the caller, and the bounced ray. */
  datatype TextureScatter = TextureScatter(texture: LegacyTexture, ray: CoreRays.TimedRay)

  /** What the materials of src/core and OG hand back: a colour and the
    * bounced ray. */
  datatype ColorScatter = ColorScatter(color: Vec3, ray: CoreRays.TimedRay)

  /** `Lambertian::scatter` of src/ray_tracer/lambertian.rs: the bounced
    * ray (`new_instant`, which normalises) leaves the hit point along the
    * scatter direction at the incoming ray's time, and the albedo texture
    * is handed back. It always scatters; it panics only when the direction
    * is the zero vector, which needs a zero normal. */
  function TracerLambertianScatter<M>(l: Lambertian, ray: CoreRays.TimedRay, h: HitRecord<M>,
                                      unitVector: Vec3, sqrt: real -> real): (r: Outcome<Option<TextureScatter>>)
    requires IsSqrt(sqrt)
    ensures r.Panic? <==> ScatterDirection(h.normal, unitVector) == Zeros()
    ensures r.Panic? ==> h.normal == Zeros()
    ensures r.Ok? ==> r.value.Some?
    ensures r.Ok? ==> r.value.value.texture == l.albedo
    ensures r.Ok? ==> r.value.value.ray.origin == h.point && r.value.value.ray.time == ray.time
    ensures r.Ok? ==> Scale(r.value.value.ray.direction, Length(ScatterDirection(h.normal, unitVector), sqrt))
                      == ScatterDirection(h.normal, unitVector)
  {
    var direction := ScatterDirection(h.normal, unitVector);
    match CoreRays.NewInstant(h.point, direction, ray.time, sqrt)
    case Panic(m) => Panic(m)
    case Ok(bounced) => Ok(Some(TextureScatter(l.albedo, bounced)))
  }

  /** `Lambertian::scatter` of src/core/material/lambertian.rs: the same
    * bounced ray, then the albedo's value at `hit_record.uv()`. The ray is
    * built first, so a zero direction panics before a missing texture
    * coordinate does; otherwise it always scatters, with the texture's
    * colour at the recorded coordinate. The bounced ray points along
    * `ScatterDirection`: normal + the unit vector, or the normal when that
    * sum is near zero. */
  function CoreLambertianScatter<M>(l: Lambertian, ray: CoreRays.TimedRay, h: HitRecord<M>,
                                    unitVector: Vec3, sqrt: real -> real, sin: real -> real): (r: Outcome<Option<ColorScatter>>)
    requires IsSqrt(sqrt)
    ensures ScatterDirection(h.normal, unitVector) == Zeros() ==> r == Panic("Division by zero")
    ensures r.Panic? <==> ScatterDirection(h.normal, unitVector) == Zeros() || h.tCoord.None?
                          || TextureValue(l.albedo, h.tCoord.value, sin).Panic?
    ensures r.Ok? ==> r.value.Some?
    ensures r.Ok? ==> Ok(r.value.value.color) == TextureValue(l.albedo, h.tCoord.value, sin)
    ensures r.Ok? ==> r.value.value.ray.origin == h.point && r.value.value.ray.time == ray.time
    ensures r.Ok? ==> Scale(r.value.value.ray.direction, Length(ScatterDirection(h.normal, unitVector), sqrt))
                      == ScatterDirection(h.normal, unitVector)
  {
    var direction := ScatterDirection(h.normal, unitVector);
    match CoreRays.NewInstant(h.point, direction, ray.time, sqrt)
    case Panic(m) => Panic(m)
    case Ok(bounced) =>
      match Uv(h)
      case Panic(m) => Panic(m)
      case Ok(uv) =>
        match TextureValue(l.albedo, uv, sin)
        case Panic(m) => Panic(m)
        case Ok(color) => Ok(Some(ColorScatter(color, bounced)))
  }

  /** A Lambertian built from a colour scatters with that colour wherever a
    * texture coordinate was recorded and the direction is not zero. */
  lemma CoreLambertianFromColor<M>(color: Vec3, ray: CoreRays.TimedRay, h: HitRecord<M>,
                                   unitVector: Vec3, sqrt: real -> real, sin: real -> real)
    requires IsSqrt(sqrt)
    requires h.tCoord.Some? && ScatterDirection(h.normal, unitVector) != Zeros()
    ensures CoreLambertianScatter(FromColor(color), ray, h, unitVector, sqrt, sin).Ok?
    ensures CoreLambertianScatter(FromColor(color), ray, h, unitVector, sqrt, sin).value.value.color == color
  {
    assert TextureValue(FromColor(color).albedo, h.tCoord.value, sin) == Ok(color);
  }

  /** The refraction ratio of src/ray_tracer/dielectric.rs: 1/index on the
    * front face, the index itself on the back face. */
  function TracerRatio(refIndex: real, frontFace: bool): (ratio: real)
    requires refIndex != 0.0
    ensures frontFace ==> ratio * refIndex == 1.0
    ensures !frontFace ==> ratio == refIndex
    ensures refIndex != -1.0 ==> ratio != -1.0
  {
    if frontFace then
      assert 1.0 / refIndex == -1.0 ==> refIndex == -1.0;
      1.0 / refIndex
    else refIndex
  }

  /** `cos_theta = min(dot(−unit, normal), 1)`: never above 1. */
  function IncidenceCos(unit: Vec3, normal: Vec3): (cos: real)
    ensures cos <= 1.0
    ensures cos <= Dot(Neg(unit), normal)
    ensures cos == 1.0 || cos == Dot(Neg(unit), normal)
  {
    Min(Dot(Neg(unit), normal), 1.0)
  }

  /** The dielectric cannot refract when ratio · sin θ > 1, with
    * sin θ = sqrt(1 − cos²θ). */
  predicate CannotRefract(ratio: real, cos: real, sqrt: real -> real)
  {
    ratio * sqrt(1.0 - cos * cos) > 1.0
  }

  /** The dielectric's outgoing direction for the draw `draw`: the
    * reflection when refraction is impossible, whatever the draw, and also
    * when the reflectance exceeds the draw; the refraction otherwise. */
  function DielectricDirection(ratio: real, cos: real, draw: real, unit: Vec3, normal: Vec3,
                               sqrt: real -> real, reflect: (Vec3, Vec3) -> Vec3,
                               refract: (Vec3, Vec3, real) -> Vec3): (d: Vec3)
    requires ratio != -1.0
    ensures CannotRefract(ratio, cos, sqrt) ==> d == reflect(unit, normal)
    ensures Materials.Reflectance(cos, ratio) > draw ==> d == reflect(unit, normal)
    ensures !CannotRefract(ratio, cos, sqrt) && Materials.Reflectance(cos, ratio) <= draw
            ==> d == refract(unit, normal, ratio)
  {
    if CannotRefract(ratio, cos, sqrt) || Materials.Reflectance(cos, ratio) > draw
    then reflect(unit, normal)
    else refract(unit, normal, ratio)
  }

  /** When refraction is impossible the draw plays no part. */
  lemma DielectricTotalReflectionIgnoresDraw(ratio: real, cos: real, draw1: real, draw2: real, unit: Vec3, normal: Vec3,
                                             sqrt: real -> real, reflect: (Vec3, Vec3) -> Vec3,
                                             refract: (Vec3, Vec3, real) -> Vec3)
    requires ratio != -1.0
    requires CannotRefract(ratio, cos, sqrt)
    ensures DielectricDirection(ratio, cos, draw1, unit, normal, sqrt, reflect, refract)
            == DielectricDirection(ratio, cos, draw2, unit, normal, sqrt, reflect, refract)
            == reflect(unit, normal)
  {
  }

  /** A scatter result of src/ray_tracer: the attenuation and the bounced
    * ray of src/ray/ray.rs. */
  datatype Attenuated = Attenuated(attenuation: Vec3, ray: Rays.Ray)

  /** `Dielectric::scatter` of src/ray_tracer/dielectric.rs for the draw
    * `draw`: the incoming direction is normalised (panicking when it is
    * zero); the new ray starts at the hit point along the dielectric
    * direction for the ratio of the face that was hit; the attenuation is
    * white, and a scatter is always produced. */
  function DielectricScatter<M>(refIndex: real, ray: Rays.Ray, h: HitRecord<M>, draw: real,
                                sqrt: real -> real, reflect: (Vec3, Vec3) -> Vec3,
                                refract: (Vec3, Vec3, real) -> Vec3): (r: Outcome<Option<Attenuated>>)
    requires IsSqrt(sqrt)
    requires refIndex != 0.0 && refIndex != -1.0
    ensures r.Panic? <==> ray.direction == Zeros()
    ensures r.Ok? ==> r.value.Some? && r.value.value.attenuation == Ones()
    ensures r.Ok? ==> r.value.value.ray.origin == h.point
    ensures r.Ok? ==> Normalized(ray.direction, sqrt).Ok?
                      && r.value.value.ray.direction
                         == DielectricDirection(TracerRatio(refIndex, h.hitFrontFace),
                                                IncidenceCos(Normalized(ray.direction, sqrt).value, h.normal),
                                                draw, Normalized(ray.direction, sqrt).value, h.normal,
                                                sqrt, reflect, refract)
  {
    var ratio := TracerRatio(refIndex, h.hitFrontFace);
    if ray.direction == Zeros() then
      Panic("Division by zero")
    else
      NormalizedKeepsDirection(ray.direction, sqrt);
      var unit := Normalized(ray.direction, sqrt).value;
      var out := DielectricDirection(ratio, IncidenceCos(unit, h.normal), draw, unit, h.normal, sqrt, reflect, refract);
      Ok(Some(Attenuated(Ones(), Rays.Ray(h.point, out))))
  }

  /** The metal of either snapshot. */
  datatype Metal = Metal(albedo: Vec3, fuzz: real)

  /** The direction the metal bounces along: the reflection, moved by the
    * unit-sphere sample scaled by the fuzz. */
  function MetalDirection(m: Metal, incident: Vec3, normal: Vec3, sample: Vec3,
                          reflect: (Vec3, Vec3) -> Vec3): (d: Vec3)
    ensures m.fuzz == 0.0 ==> d == reflect(incident, normal)
    ensures Sub(d, reflect(incident, normal)) == Scale(sample, m.fuzz)
  {
    Add(reflect(incident, normal), Scale(sample, m.fuzz))
  }

  /** The caller's two `&mut` slots that `Metal::scatter` of
    * src/ray_tracer/metal.rs writes. */
  class MetalSlots {
    var attenuation: Vec3
    var bouncedRay: Rays.Ray

    constructor (attenuation: Vec3, bouncedRay: Rays.Ray)
      ensures this.attenuation == attenuation && this.bouncedRay == bouncedRay
    {
      this.attenuation := attenuation;
      this.bouncedRay := bouncedRay;
    }

    /** `Metal::scatter`: both slots are overwritten on every call (the
      * ray leaves the hit point along the fuzzed reflection, unnormalised,
      * and the attenuation is the albedo), and the answer is whether the
      * new ray leaves on the normal's side. */
    method Scatter<M>(m: Metal, ray: Rays.Ray, h: HitRecord<M>, sample: Vec3,
                      reflect: (Vec3, Vec3) -> Vec3) returns (scattered: bool)
      modifies this
      ensures bouncedRay == Rays.Ray(h.point, MetalDirection(m, ray.direction, h.normal, sample, reflect))
      ensures attenuation == m.albedo
      ensures scattered <==> Dot(bouncedRay.direction, h.normal) > 0.0
      ensures m.fuzz == 0.0 ==> bouncedRay.direction == reflect(ray.direction, h.normal)
    {
      var reflected := reflect(ray.direction, h.normal);
      bouncedRay := Rays.Ray(h.point, Add(reflected, Scale(sample, m.fuzz)));
      attenuation := m.albedo;
      scattered := Dot(bouncedRay.direction, h.normal) > 0.0;
    }
  }

  /** Scaling a vector scales its dot product with any other. */
  lemma DotScaled(u: Vec3, l: real, n: Vec3)
    ensures Dot(Scale(u, l), n) == l * Dot(u, n)
  {
  }

  /** A positive factor keeps the sign. */
  lemma PositiveFactorKeepsSign(l: real, y: real)
    requires l > 0.0
    ensures l * y > 0.0 <==> y > 0.0
  {
    if y > 0.0 {
      assert l * y > 0.0;
    } else {
      assert l * y <= 0.0;
    }
  }

  /** `Metal::scatter` of OG/src/core/material/metal.rs: the ray
    * (`new_instant`, which normalises) leaves the hit point along the
    * fuzzed reflection at the incoming ray's time; the metal scatters, with
    * its albedo, exactly when that direction makes a positive dot product
    * with the normal, and absorbs the ray otherwise. It panics when the
    * direction is zero. Without fuzz the ray points along
    * `reflect(ray.direction, normal)`. */
  function OgMetalScatter<M>(m: Metal, ray: CoreRays.TimedRay, h: HitRecord<M>, sample: Vec3,
                             reflect: (Vec3, Vec3) -> Vec3, sqrt: real -> real): (r: Outcome<Option<ColorScatter>>)
    requires IsSqrt(sqrt)
    ensures r.Panic? <==> MetalDirection(m, ray.direction, h.normal, sample, reflect) == Zeros()
    ensures r.Ok? ==> (r.value.Some? <==> Dot(MetalDirection(m, ray.direction, h.normal, sample, reflect), h.normal) > 0.0)
    ensures r.Ok? && r.value.Some? ==> r.value.value.color == m.albedo
    ensures r.Ok? && r.value.Some? ==> r.value.value.ray.origin == h.point && r.value.value.ray.time == ray.time
    ensures r.Ok? && r.value.Some? ==> Scale(r.value.value.ray.direction, Length(MetalDirection(m, ray.direction, h.normal, sample, reflect), sqrt))
                                       == MetalDirection(m, ray.direction, h.normal, sample, reflect)
    ensures r.Ok? && r.value.Some? && m.fuzz == 0.0
            ==> Scale(r.value.value.ray.direction, Length(reflect(ray.direction, h.normal), sqrt)) == reflect(ray.direction, h.normal)
  {
    var direction := MetalDirection(m, ray.direction, h.normal, sample, reflect);
    match CoreRays.NewInstant(h.point, direction, ray.time, sqrt)
    case Panic(msg) => Panic(msg)
    case Ok(bounced) =>
      var l := Length(direction, sqrt);
      LengthSquaredSign(direction);
      assert l > 0.0;
      DotScaled(bounced.direction, l, h.normal);
      PositiveFactorKeepsSign(l, Dot(bounced.direction, h.normal));
      if Dot(bounced.direction, h.normal) > 0.0 then Ok(Some(ColorScatter(m.albedo, bounced))) else Ok(None)
  }
}

=== FILE: legacy_math.dfy ===
/** The vector algebra of the older `src/` snapshot (src/math/vec3.rs) and
  * its `clamp` (src/math/mod.rs).
  *
  * Most of that file computes what the live engine's vector does: the same
  * sums, products, dot and cross products, `near_zero`, indexing with the
  * same panic, `v / t` with the same "Division by zero" panic. Those are the
  * members of module Vectors. This module holds what differs: `-v` returns
  * its operand, `a /= b` multiplies, and `normalize(&mut self)` divides one
  * component at a time by the length of the partly updated vector. */
module LegacyMath {
  import opened Wrappers
  import opened Numeric
  import opened Vectors

  /** `-v` in this snapshot: a copy of the operand, not its negation. */
  function NegAsWritten(v: Vec3): Vec3
  {
    Vec3(v.x, v.y, v.z)
  }

  /** The snapshot's negation agrees with real negation only at the zero
    * vector: for every other vector it gives the wrong answer. */
  lemma NegAsWrittenIsNotNegation(v: Vec3)
    ensures NegAsWritten(v) == Neg(v) <==> v == Zeros()
    ensures NegAsWritten(Ones()) == Ones() != Neg(Ones())
  {
  }

  lemma SquarePositive(a: real)
    requires a != 0.0
    ensures a * a > 0.0
  {
    if a < 0.0 {
      assert a * a == (-a) * (-a);
    }
  }

  lemma SquareNonNegative(a: real)
    ensures a * a >= 0.0
  {
    if a != 0.0 {
      SquarePositive(a);
    }
  }

  /** `length_squared` is never negative, and it is zero only for the zero
    * vector. */
  lemma LengthSquaredSign(v: Vec3)
    ensures LengthSquared(v) >= 0.0
    ensures v != Zeros() ==> LengthSquared(v) > 0.0
  {
    SquareNonNegative(v.x);
    SquareNonNegative(v.y);
    SquareNonNegative(v.z);
    if v != Zeros() {
      SumWithPositiveSquare(v);
    }
  }

  /** Three non-negative terms, one of them positive. */
  ghost predicate SomePositive(a: real, b: real, c: real)
  {
    a >= 0.0 && b >= 0.0 && c >= 0.0 && (a > 0.0 || b > 0.0 || c > 0.0)
  }

  lemma SumOfSomePositive(a: real, b: real, c: real)
    requires SomePositive(a, b, c)
    ensures a + b + c > 0.0
  {
  }

  lemma SumWithPositiveSquare(v: Vec3)
    requires v != Zeros()
    ensures LengthSquared(v) > 0.0
  {
    assert v.x != 0.0 || v.y != 0.0 || v.z != 0.0 by {
      assert v == Vec3(v.x, v.y, v.z);
    }
    SquareNonNegative(v.x);
    SquareNonNegative(v.y);
    SquareNonNegative(v.z);
    if v.x != 0.0 {
      SquarePositive(v.x);
    } else if v.y != 0.0 {
      SquarePositive(v.y);
    } else {
      SquarePositive(v.z);
    }
    assert SomePositive(v.x * v.x, v.y * v.y, v.z * v.z);
    SumOfSomePositive(v.x * v.x, v.y * v.y, v.z * v.z);
  }

  /** With a square root that is zero only at zero, a non-zero vector has a
    * non-zero length. */
  lemma NonZeroLength(v: Vec3, sqrt: real -> real)
    requires IsSqrt(sqrt) && v != Zeros()
    ensures Length(v, sqrt) != 0.0
  {
    LengthSquaredSign(v);
  }

  lemma QuotientNonZero(a: real, b: real)
    requires a != 0.0 && b != 0.0
    ensures a / b != 0.0
  {
    assert (a / b) * b == a;
  }

  /** Dividing one component of a non-zero vector by a non-zero length
    * leaves it non-zero. */
  lemma DividedStaysNonZero(v: Vec3, w: Vec3, l: real)
    requires v != Zeros() && l != 0.0
    requires w == v.(x := v.x / l) || w == v.(y := v.y / l) || w == v.(z := v.z / l)
    ensures w != Zeros()
  {
    if v.x != 0.0 { QuotientNonZero(v.x, l); }
    if v.y != 0.0 { QuotientNonZero(v.y, l); }
    if v.z != 0.0 { QuotientNonZero(v.z, l); }
  }

  /** `normalize(&mut self)`: x is divided by the length of v, then y by the
    * length of (x', y, z), then z by the length of (x', y', z). */
  function NormalizeSteps(v: Vec3, sqrt: real -> real): Vec3
    requires IsSqrt(sqrt) && v != Zeros()
  {
    NonZeroLength(v, sqrt);
    var v1 := v.(x := v.x / Length(v, sqrt));
    DividedStaysNonZero(v, v1, Length(v, sqrt));
    NonZeroLength(v1, sqrt);
    var v2 := v1.(y := v1.y / Length(v1, sqrt));
    DividedStaysNonZero(v1, v2, Length(v1, sqrt));
    NonZeroLength(v2, sqrt);
    v2.(z := v2.z / Length(v2, sqrt))
  }

  lemma DivideBack(x: real, y: real, s: real)
    requires y != 0.0 && x * y == s
    ensures x == s / y
  {
  }

  lemma SquareOfProduct(q: real, l: real)
    ensures (q * l) * (q * l) == (q * q) * (l * l)
  {
  }

  lemma QuotientTimes(a: real, l: real)
    requires l != 0.0
    ensures (a / l) * l == a
  {
  }

  /** (a / l)^2 * l^2 = a^2. */
  lemma SquareOfQuotient(a: real, l: real)
    requires l != 0.0
    ensures (a / l) * (a / l) * (l * l) == a * a
  {
    QuotientTimes(a, l);
    SquareOfProduct(a / l, l);
  }

  /** The intended result, `v / |v|`, scaled back by the length gives v:
    * it points the way v points. */
  lemma NormalizedKeepsDirection(v: Vec3, sqrt: real -> real)
    requires IsSqrt(sqrt) && v != Zeros()
    ensures Normalized(v, sqrt).Ok?
    ensures Scale(Normalized(v, sqrt).value, Length(v, sqrt)) == v
  {
    NonZeroLength(v, sqrt);
  }

  /** The intended result, `v / |v|`, has unit length for every non-zero v
    * (given a root that squares back). */
  lemma NormalizedIsUnit(v: Vec3, sqrt: real -> real)
    requires IsSqrt(sqrt) && v != Zeros()
    ensures Normalized(v, sqrt).Ok?
    ensures SquaresBack(sqrt) ==> LengthSquared(Normalized(v, sqrt).value) == 1.0
  {
    NonZeroLength(v, sqrt);
    if SquaresBack(sqrt) {
      UnitWhenSquaresBack(v, sqrt);
    }
  }

  lemma UnitWhenSquaresBack(v: Vec3, sqrt: real -> real)
    requires IsSqrt(sqrt) && SquaresBack(sqrt) && v != Zeros()
    ensures Normalized(v, sqrt).Ok?
    ensures LengthSquared(Normalized(v, sqrt).value) == 1.0
  {
    var l := Length(v, sqrt);
    NonZeroLength(v, sqrt);
    LengthSquaredSign(v);
    assert l * l == LengthSquared(v);
    var a, b, c := v.x / l, v.y / l, v.z / l;
    SquareOfQuotient(v.x, l);
    SquareOfQuotient(v.y, l);
    SquareOfQuotient(v.z, l);
    SumOfScaled(a * a, b * b, c * c, l * l);
    SquarePositive(l);
    CancelFactor(a * a + b * b + c * c, 1.0, l * l);
    assert Normalized(v, sqrt).value == Vec3(a, b, c);
  }

  /** p·k + q·k + r·k = (p + q + r)·k. */
  lemma SumOfScaled(p: real, q: real, r: real, k: real)
    ensures p * k + q * k + r * k == (p + q + r) * k
  {
  }

  /** A non-zero factor cancels: x·k = y·k gives x = y. */
  lemma CancelFactor(x: real, y: real, k: real)
    requires k != 0.0 && x * k == y * k
    ensures x == y
  {
    assert (x - y) * k == 0.0;
  }

  /** The in-place normalisation of (1, 1, 0) does not have unit length:
    * x becomes 1/sqrt(2), then y is divided by sqrt(1/2 + 1), leaving a
    * squared length of 1/2 + 2/3 = 7/6. */
  lemma NormalizeStepsNotUnit(sqrt: real -> real)
    requires IsSqrt(sqrt) && SquaresBack(sqrt)
    ensures LengthSquared(NormalizeSteps(Vec3(1.0, 1.0, 0.0), sqrt)) == 7.0 / 6.0
    ensures forall k :: Scale(NormalizeSteps(Vec3(1.0, 1.0, 0.0), sqrt), k) != Vec3(1.0, 1.0, 0.0)
  {
    var v := Vec3(1.0, 1.0, 0.0);
    var l0 := sqrt(2.0);
    assert Length(v, sqrt) == l0;
    assert l0 * l0 == 2.0;
    NonZeroLength(v, sqrt);
    var x1 := 1.0 / l0;
    SquareOfQuotient(1.0, l0);
    DivideBack(x1 * x1, l0 * l0, 1.0);
    assert x1 * x1 == 0.5;
    var v1 := Vec3(x1, 1.0, 0.0);
    assert LengthSquared(v1) == 1.5;
    var l1 := sqrt(1.5);
    assert Length(v1, sqrt) == l1;
    assert l1 * l1 == 1.5;
    NonZeroLength(v1, sqrt);
    var y1 := 1.0 / l1;
    SquareOfQuotient(1.0, l1);
    DivideBack(y1 * y1, l1 * l1, 1.0);
    assert y1 * y1 == 1.0 / 1.5;
    var v2 := Vec3(x1, y1, 0.0);
    QuotientNonZero(1.0, l1);
    NonZeroLength(v2, sqrt);
    assert NormalizeSteps(v, sqrt) == Vec3(x1, y1, 0.0 / Length(v2, sqrt));
    assert x1 != y1;
    forall k
      ensures Scale(NormalizeSteps(v, sqrt), k) != v
    {
      UnequalNotParallel(NormalizeSteps(v, sqrt), k);
    }
  }

  /** A vector whose first two components differ is not a multiple of
    * (1, 1, 0): the in-place result above does not point the way its input
    * points. */
  lemma UnequalNotParallel(r: Vec3, k: real)
    requires r.x != r.y
    ensures Scale(r, k) != Vec3(1.0, 1.0, 0.0)
  {
  }

  /** `clamp(min, max, value)` = `f64::min(max, f64::max(min, value))`. */
  function Clamp(min: real, max: real, value: real): (r: real)
    ensures r <= max
    ensures min <= max ==> min <= r
    ensures min <= value <= max ==> r == value
    ensures value < min <= max ==> r == min
    ensures min <= max < value ==> r == max
  {
    Min(max, Max(min, value))
  }

  /** Clamping a clamped value changes nothing. */
  lemma ClampIdempotent(min: real, max: real, value: real)
    ensures Clamp(min, max, Clamp(min, max, value)) == Clamp(min, max, value)
  {
  }

  /** A `let mut` vector of this snapshot: the receiver of `normalize` and of
    * the compound assignments whose meaning differs from the live engine's. */
  class Vec3Cell {
    var x: real
    var y: real
    var z: real

    function Value(): Vec3
      reads this
    {
      Vec3(x, y, z)
    }

    constructor (v: Vec3)
      ensures Value() == v
    {
      x, y, z := v.x, v.y, v.z;
    }

    /** `self *= rhs` for a vector: componentwise. */
    method MulAssign(rhs: Vec3)
      modifies this
      ensures Value() == Mul(old(Value()), rhs)
    {
      x := x * rhs.x;
      y := y * rhs.y;
      z := z * rhs.z;
    }

    /** `self /= rhs` as written: it performs `*self *= rhs`. */
    method DivAssignAsWritten(rhs: Vec3)
      modifies this
      ensures Value() == Mul(old(Value()), rhs)
    {
      MulAssign(rhs);
    }

    /** `normalize(&mut self)`: each `/=` reads the length of the vector as
      * it stands after the previous component was updated, and the result
      * is the vector itself. The zero vector divides by its zero length,
      * and there the model stops with `DividedByZero`. */
    method Normalize(sqrt: real -> real) returns (r: FloatOutcome<Vec3>)
      requires IsSqrt(sqrt)
      modifies this
      ensures r.DividedByZero? <==> old(Value()) == Zeros()
      ensures r.Finite? ==> Value() == NormalizeSteps(old(Value()), sqrt) && r.value == Value()
    {
      if Value() == Zeros() {
        return DividedByZero;
      }
      NonZeroLength(Value(), sqrt);
      ghost var v := Value();
      x := x / Length(Value(), sqrt);
      DividedStaysNonZero(v, Value(), Length(v, sqrt));
      NonZeroLength(Value(), sqrt);
      ghost var v1 := Value();
      y := y / Length(Value(), sqrt);
      DividedStaysNonZero(v1, Value(), Length(v1, sqrt));
      NonZeroLength(Value(), sqrt);
      z := z / Length(Value(), sqrt);
      r := Finite(Value());
    }
  }

  /** The snapshot's `v /= rhs` stores v · rhs where division stores
    * v / rhs. The two agree exactly where every component of v is 0 or the
    * matching component of rhs is 1 or -1; (2, 2, 2) /= (2, 2, 2) stores
    * (4, 4, 4) instead of (1, 1, 1). */
  lemma DivAssignAsWrittenMultiplies(v: Vec3, rhs: Vec3)
    requires rhs.x != 0.0 && rhs.y != 0.0 && rhs.z != 0.0
    ensures Mul(v, rhs) == Vec3(v.x / rhs.x, v.y / rhs.y, v.z / rhs.z)
            <==> (v.x == 0.0 || rhs.x * rhs.x == 1.0) && (v.y == 0.0 || rhs.y * rhs.y == 1.0)
                 && (v.z == 0.0 || rhs.z * rhs.z == 1.0)
    ensures Mul(Vec3(2.0, 2.0, 2.0), Vec3(2.0, 2.0, 2.0)) == Vec3(4.0, 4.0, 4.0) != Vec3(1.0, 1.0, 1.0)
  {
    ProductIsQuotient(v.x, rhs.x);
    ProductIsQuotient(v.y, rhs.y);
    ProductIsQuotient(v.z, rhs.z);
  }

  /** a · r = a / r exactly when a is 0 or r² is 1. */
  lemma ProductIsQuotient(a: real, r: real)
    requires r != 0.0
    ensures a * r == a / r <==> a == 0.0 || r * r == 1.0
  {
    assert (a / r) * r == a;
    if a * r == a / r {
      assert (a * r) * r == (a / r) * r;
      assert a * (r * r) == (a * r) * r;
      if a != 0.0 {
        CancelFactor(r * r, 1.0, a);
      }
    }
  }
}

=== FILE: legacy_slab_examples.dfy ===
/** The ray that exposes the slab-test defect of LegacyBoxes: from the
  * centre of the unit cube along z, so it does not move along x or y. It is
  * strictly inside the cube at t = 0.25, which is within [0, 10], so the
  * corrected test accepts it (LegacyBoxes.SlabFixedFindsInside), yet the
  * test as written rejects it. */
module LegacySlabExamples {
  import opened Vectors
  import opened Shapes
  import CoreRays
  import opened LegacyBoxes

  /** Where that ray is at t = 0.25, whatever instant it exists at. */
  lemma CentreRayPosition(time: real)
    ensures CoreRays.PositionAt(CoreRays.TimedRay(Vec3(0.5, 0.5, 0.5), Vec3(0.0, 0.0, 1.0), time), 0.25)
            == Vec3(0.5, 0.5, 0.75)
  {
  }

  /** That ray is strictly inside the unit cube at t = 0.25. */
  lemma CentreRayInside(time: real)
    ensures Inside(CoreRays.PositionAt(CoreRays.TimedRay(Vec3(0.5, 0.5, 0.5), Vec3(0.0, 0.0, 1.0), time), 0.25),
                   Aabb(Zeros(), Ones()))
  {
    CentreRayPosition(time);
  }

  /** The slab test as written rejects it over [0, 10]. */
  lemma SlabZeroDirectionCounterexample(time: real)
    ensures !SlabFrom(Aabb(Zeros(), Ones()), CoreRays.TimedRay(Vec3(0.5, 0.5, 0.5), Vec3(0.0, 0.0, 1.0), time), 0, 0.0, 10.0)
  {
    var ray := CoreRays.TimedRay(Vec3(0.5, 0.5, 0.5), Vec3(0.0, 0.0, 1.0), time);
    assert Axis(ray.direction, 0) == 0.0;
    SlabZeroDirectionMisses(Aabb(Zeros(), Ones()), ray, 0, 0, 0.0, 10.0);
  }
}

=== FILE: legacy_spheres.dfy ===
/** The ray–sphere intersections of the `src/` snapshots: the sphere of
  * src/sphere.rs, the moving sphere of src/ray_tracer/moving_sphere.rs and
  * the renderable sphere of src/core/refactor.rs with its `intersection`,
  * and the bounding boxes of src/sphere.rs and src/core/shape/sphere.rs.
  *
  * All three solve a·t² + 2·half_b·t + c = 0 with a = |direction|²,
  * half_b = (origin − centre)·direction and c = |origin − centre|² − r². The
  * square root is a parameter, and so is the spherical texture map, which
  * is made of `acos` and `atan2`. */
module LegacySpheres {
  import opened Wrappers
  import opened Numeric
  import opened Vectors
  import opened Shapes
  import opened LegacyMath
  import Rays
  import CoreRays
  import opened LegacyHits
  import opened LegacyLists

  /** The panic message of all three intersections when a = 0. */
  const ZERO_DIRECTION_MESSAGE: string := "Error: division by zero"

  /** The coefficients a, half_b and c. */
  datatype Quadratic = Quadratic(a: real, halfB: real, c: real)

  function Coefficients(center: Vec3, radius: real, origin: Vec3, direction: Vec3): Quadratic
  {
    var oc := Sub(origin, center);
    Quadratic(LengthSquared(direction), Dot(oc, direction), LengthSquared(oc) - radius * radius)
  }

  function Discriminant(q: Quadratic): real
  {
    q.halfB * q.halfB - q.a * q.c
  }

  /** The two roots in the order the source computes them: the one with
    * `- sqrt(discriminant)` first. */
  function Roots(q: Quadratic, sqrt: real -> real): (real, real)
    requires q.a != 0.0
  {
    var s := sqrt(Discriminant(q));
    ((-q.halfB - s) / q.a, (-q.halfB + s) / q.a)
  }

  lemma QuotientMonotone(x: real, y: real, a: real)
    requires a > 0.0 && x <= y
    ensures x / a <= y / a
  {
  }

  /** For a moving ray and a non-negative square root, the first root is
    * the smaller one. */
  lemma RootsOrdered(center: Vec3, radius: real, origin: Vec3, direction: Vec3, sqrt: real -> real)
    requires IsSqrt(sqrt) && LengthSquared(direction) != 0.0
    requires Discriminant(Coefficients(center, radius, origin, direction)) >= 0.0
    ensures Roots(Coefficients(center, radius, origin, direction), sqrt).0
            <= Roots(Coefficients(center, radius, origin, direction), sqrt).1
  {
    var q := Coefficients(center, radius, origin, direction);
    LengthSquaredSign(direction);
    var s := sqrt(Discriminant(q));
    QuotientMonotone(-q.halfB - s, -q.halfB + s, q.a);
  }

  lemma RootTimes(a: real, h: real, s: real, r: real)
    requires a != 0.0 && r * a == -h - s
    ensures a * r * r + 2.0 * h * r == r * (h - s)
  {
  }

  lemma ProductOfConjugates(h: real, s: real)
    ensures (-h - s) * (h - s) == s * s - h * h
  {
  }

  /** (-h - s) / a solves a·r² + 2h·r + c = 0 when s² is the discriminant
    * h² − a·c. */
  lemma RootSolves(a: real, h: real, c: real, s: real, r: real)
    requires a != 0.0 && s * s == h * h - a * c && r == (-h - s) / a
    ensures a * (r * r) + 2.0 * h * r + c == 0.0
  {
    assert r * a == -h - s;
    RootTimes(a, h, s, r);
    assert r * (h - s) * a == (-h - s) * (h - s);
    ProductOfConjugates(h, s);
    assert r * (h - s) * a == -(a * c);
  }

  lemma SquareOfSum(o: real, d: real, t: real)
    ensures (o + d * t) * (o + d * t) == o * o + 2.0 * (o * d) * t + (d * d) * (t * t)
  {
  }

  /** The squared distance from the centre to the ray's position at t is
    * a·t² + 2·half_b·t + |origin − centre|². */
  lemma DistanceAlongRay(center: Vec3, ray: Rays.Ray, t: real)
    ensures var oc := Sub(ray.origin, center);
            LengthSquared(Sub(Rays.PositionAt(ray, t), center))
            == LengthSquared(ray.direction) * (t * t) + 2.0 * Dot(oc, ray.direction) * t + LengthSquared(oc)
  {
    var oc := Sub(ray.origin, center);
    var d := ray.direction;
    assert Sub(Rays.PositionAt(ray, t), center) == Vec3(oc.x + d.x * t, oc.y + d.y * t, oc.z + d.z * t);
    SquareOfSum(oc.x, d.x, t);
    SquareOfSum(oc.y, d.y, t);
    SquareOfSum(oc.z, d.z, t);
    SumTimes(d.x * d.x, d.y * d.y, d.z * d.z, t * t);
    SumTimes(2.0 * (oc.x * d.x), 2.0 * (oc.y * d.y), 2.0 * (oc.z * d.z), t);
    assert 2.0 * Dot(oc, d) == 2.0 * (oc.x * d.x) + 2.0 * (oc.y * d.y) + 2.0 * (oc.z * d.z);
  }

  lemma SumTimes(p: real, q: real, r: real, m: real)
    ensures (p + q + r) * m == p * m + q * m + r * m
  {
  }

  /** A root with square-root term s puts the ray on the sphere. */
  lemma RootOnSphere(center: Vec3, radius: real, ray: Rays.Ray, s: real, r: real)
    requires var q := Coefficients(center, radius, ray.origin, ray.direction);
             q.a != 0.0 && s * s == Discriminant(q) && r == (-q.halfB - s) / q.a
    ensures LengthSquared(Sub(Rays.PositionAt(ray, r), center)) == radius * radius
  {
    var q := Coefficients(center, radius, ray.origin, ray.direction);
    RootSolves(q.a, q.halfB, q.c, s, r);
    DistanceAlongRay(center, ray, r);
  }

  /** With a square root that squares back, both roots put the ray on the
    * sphere: its position there is at distance `radius` from the centre. */
  lemma RootsOnSphere(center: Vec3, radius: real, ray: Rays.Ray, sqrt: real -> real)
    requires SquaresBack(sqrt) && LengthSquared(ray.direction) != 0.0
    requires Discriminant(Coefficients(center, radius, ray.origin, ray.direction)) >= 0.0
    ensures var (r1, r2) := Roots(Coefficients(center, radius, ray.origin, ray.direction), sqrt);
            && LengthSquared(Sub(Rays.PositionAt(ray, r1), center)) == radius * radius
            && LengthSquared(Sub(Rays.PositionAt(ray, r2), center)) == radius * radius
  {
    var q := Coefficients(center, radius, ray.origin, ray.direction);
    var s := sqrt(Discriminant(q));
    assert s * s == Discriminant(q);
    assert (-s) * (-s) == s * s;
    RootOnSphere(center, radius, ray, s, Roots(q, sqrt).0);
    RootOnSphere(center, radius, ray, -s, Roots(q, sqrt).1);
  }

  /** The root choice of the sphere hits: the first root when it lies in
    * [lo, hi], else the second when it does, else none. */
  function SelectRoot(r1: real, r2: real, lo: real, hi: real): (r: Option<real>)
    ensures r.None? <==> !(lo <= r1 <= hi) && !(lo <= r2 <= hi)
    ensures r.Some? ==> lo <= r.value <= hi && (r.value == r1 || r.value == r2)
    ensures lo <= r1 <= hi ==> r == Some(r1)
  {
    if lo <= r1 <= hi then Some(r1)
    else if lo <= r2 <= hi then Some(r2)
    else None
  }

  /** With ordered roots the choice is the nearest root in the interval. */
  lemma SelectRootIsNearest(r1: real, r2: real, lo: real, hi: real)
    requires r1 <= r2
    ensures SelectRoot(r1, r2, lo, hi).Some? && lo <= r1 <= hi ==> SelectRoot(r1, r2, lo, hi).value <= r1
    ensures SelectRoot(r1, r2, lo, hi).Some? && lo <= r2 <= hi ==> SelectRoot(r1, r2, lo, hi).value <= r2
  {
  }

  /** With ordered roots, lowering the upper bound keeps the chosen root
    * while it stays within and loses it otherwise: the contract
    * LegacyLists.NearestLike asks of a child of a list. */
  lemma SelectRootRestricts(r1: real, r2: real, lo: real, a: real, b: real)
    requires r1 <= r2 && a <= b
    ensures SelectRoot(r1, r2, lo, a)
            == (var s := SelectRoot(r1, r2, lo, b); if s.Some? && s.value <= a then s else None)
  {
  }

  /** The root shared by `Sphere::hit` and `MovingSphere::hit`: a panic for
    * a ray that does not move, none for a negative discriminant, and
    * otherwise the chosen root. */
  function SphereRoot(center: Vec3, radius: real, origin: Vec3, direction: Vec3, tMin: real, tMax: real,
                      sqrt: real -> real): (r: Outcome<Option<real>>)
    ensures r.Panic? <==> LengthSquared(direction) == 0.0
    ensures r.Panic? ==> r.message == ZERO_DIRECTION_MESSAGE
    ensures Discriminant(Coefficients(center, radius, origin, direction)) < 0.0 && r.Ok? ==> r.value.None?
    ensures r.Ok? && r.value.Some? ==> tMin <= r.value.value <= tMax
  {
    var q := Coefficients(center, radius, origin, direction);
    if q.a == 0.0 then Panic(ZERO_DIRECTION_MESSAGE)
    else if Discriminant(q) < 0.0 then Ok(None)
    else
      var (r1, r2) := Roots(q, sqrt);
      Ok(SelectRoot(r1, r2, tMin, tMax))
  }

  /** `Sphere::hit` of src/sphere.rs: the record at the chosen root, with
    * outward normal (point − centre) / radius, which panics for a zero
    * radius; the texture coordinate is the map of that normal. */
  function SphereHit<M>(s: Sphere, material: M, ray: Rays.Ray, tMin: real, tMax: real,
                        sqrt: real -> real, mapUv: Vec3 -> UV): (r: Outcome<Option<HitRecord<M>>>)
    ensures var root := SphereRoot(s.center, s.radius, ray.origin, ray.direction, tMin, tMax, sqrt);
            && (r.Panic? <==> root.Panic? || (root.value.Some? && s.radius == 0.0))
            && (r.Ok? ==> (r.value.Some? <==> root.value.Some?))
            && (r.Ok? && r.value.Some? ==> r.value.value.t == root.value.value)
    ensures r.Ok? && r.value.Some? ==>
              && tMin <= r.value.value.t <= tMax
              && r.value.value.point == Rays.PositionAt(ray, r.value.value.t)
              && r.value.value.material == Some(material)
              && (r.value.value.hitFrontFace ==> Scale(r.value.value.normal, s.radius) == Sub(r.value.value.point, s.center))
              && Dot(ray.direction, r.value.value.normal) <= 0.0
  {
    match SphereRoot(s.center, s.radius, ray.origin, ray.direction, tMin, tMax, sqrt)
    case Panic(m) => Panic(m)
    case Ok(None) => Ok(None)
    case Ok(Some(t)) =>
      var p := Rays.PositionAt(ray, t);
      match Div(Sub(p, s.center), s.radius)
      case Panic(m) => Panic(m)
      case Ok(outward) => Ok(Some(NewRecord(ray, outward, t, Some(material), Some(mapUv(outward)))))
  }

  /** The sphere of src/ray_tracer/moving_sphere.rs: its centre moves from
    * `center0` at `time0` to `center1` at `time1`. */
  datatype MovingSphere<M> = MovingSphere(center0: Vec3, center1: Vec3, time0: real, time1: real, radius: real, material: M)

  /** `center(time)`: linear interpolation between the two centres. */
  function Center<M>(s: MovingSphere<M>, time: real): Vec3
    requires s.time1 != s.time0
  {
    Add(s.center0, ScaleLeft((time - s.time0) / (s.time1 - s.time0), Sub(s.center1, s.center0)))
  }

  /** One coordinate of the interpolation: c0 + ((time − t0) / d) · (c1 − c0). */
  function LerpAt(c0: real, c1: real, t0: real, d: real, time: real): real
    requires d != 0.0
  {
    c0 + ((time - t0) / d) * (c1 - c0)
  }

  lemma LerpAtEnds(c0: real, c1: real, t0: real, d: real)
    requires d != 0.0
    ensures LerpAt(c0, c1, t0, d, t0) == c0
    ensures LerpAt(c0, c1, t0, d, t0 + d) == c1
  {
    assert (t0 + d - t0) / d == 1.0;
  }

  /** The centre, coordinate by coordinate. */
  lemma CenterCoordinates<M>(s: MovingSphere<M>, time: real)
    requires s.time1 != s.time0
    ensures Center(s, time) == Vec3(LerpAt(s.center0.x, s.center1.x, s.time0, s.time1 - s.time0, time),
                                    LerpAt(s.center0.y, s.center1.y, s.time0, s.time1 - s.time0, time),
                                    LerpAt(s.center0.z, s.center1.z, s.time0, s.time1 - s.time0, time))
  {
  }

  /** The centre is `center0` at `time0` and `center1` at `time1`. */
  lemma CenterEnds<M>(s: MovingSphere<M>)
    requires s.time1 != s.time0
    ensures Center(s, s.time0) == s.center0
    ensures Center(s, s.time1) == s.center1
  {
    var d := s.time1 - s.time0;
    CenterCoordinates(s, s.time0);
    CenterCoordinates(s, s.time1);
    assert s.time1 == s.time0 + d;
    LerpAtEnds(s.center0.x, s.center1.x, s.time0, d);
    LerpAtEnds(s.center0.y, s.center1.y, s.time0, d);
    LerpAtEnds(s.center0.z, s.center1.z, s.time0, d);
  }

  /** Advancing the interpolation fraction by q moves the point by q times
    * the span. */
  lemma ShiftedLerp(c0: Vec3, c1: Vec3, p: real, q: real)
    ensures Add(c0, ScaleLeft(p + q, Sub(c1, c0))) == Add(Add(c0, ScaleLeft(p, Sub(c1, c0))), Scale(Sub(c1, c0), q))
  {
  }

  /** The centre moves by the same vector over any span of the same
    * length: (center1 − center0) · u / (time1 − time0) over a span u. */
  lemma CenterShift<M>(s: MovingSphere<M>, t: real, u: real)
    requires s.time1 != s.time0
    ensures Center(s, t + u) == Add(Center(s, t), Scale(Sub(s.center1, s.center0), u / (s.time1 - s.time0)))
  {
    var d := s.time1 - s.time0;
    var p, q := (t - s.time0) / d, u / d;
    assert (t + u - s.time0) / d == p + q;
    ShiftedLerp(s.center0, s.center1, p, q);
  }

  /** What `MovingSphere::hit` computes before building its record (the
    * record type of that snapshot is not part of this model). */
  datatype SurfaceHit = SurfaceHit(t: real, point: Vec3, outward: Vec3)

  /** `MovingSphere::hit`: the sphere hit against the centre at the ray's
    * time. When `time1 == time0` the centre divides by zero: the check of
    * `a == 0` still panics for a ray that does not move, and otherwise the
    * model stops with `DividedByZero` rather than follow the infinite or
    * NaN centre. */
  function MovingSphereHit<M>(s: MovingSphere<M>, ray: CoreRays.TimedRay, tMin: real, tMax: real,
                              sqrt: real -> real): (r: Outcome<FloatOutcome<Option<SurfaceHit>>>)
    ensures s.time1 == s.time0 ==>
              && (r.Panic? <==> LengthSquared(ray.direction) == 0.0)
              && (r.Panic? ==> r.message == ZERO_DIRECTION_MESSAGE)
              && (r.Ok? ==> r.value.DividedByZero?)
    ensures s.time1 != s.time0 ==>
              var root := SphereRoot(Center(s, ray.time), s.radius, ray.origin, ray.direction, tMin, tMax, sqrt);
              && (r.Panic? <==> root.Panic? || (root.value.Some? && s.radius == 0.0))
              && (r.Ok? ==> r.value.Finite? && (r.value.value.Some? <==> root.value.Some?))
              && (r.Ok? && r.value.value.Some? ==> r.value.value.value.t == root.value.value)
    ensures r.Ok? && r.value.Finite? && r.value.value.Some? ==>
              && s.time1 != s.time0
              && tMin <= r.value.value.value.t <= tMax
              && r.value.value.value.point == CoreRays.PositionAt(ray, r.value.value.value.t)
              && Scale(r.value.value.value.outward, s.radius) == Sub(r.value.value.value.point, Center(s, ray.time))
  {
    if s.time1 == s.time0 then
      if LengthSquared(ray.direction) == 0.0 then Panic(ZERO_DIRECTION_MESSAGE) else Ok(DividedByZero)
    else
      var center := Center(s, ray.time);
      match SphereRoot(center, s.radius, ray.origin, ray.direction, tMin, tMax, sqrt)
      case Panic(m) => Panic(m)
      case Ok(None) => Ok(Finite(None))
      case Ok(Some(t)) =>
        var p := CoreRays.PositionAt(ray, t);
        match Div(Sub(p, center), s.radius)
        case Panic(m) => Panic(m)
        case Ok(outward) => Ok(Finite(Some(SurfaceHit(t, p, outward))))
  }

  /** `intersection` of src/core/refactor.rs: a panic for a ray that does
    * not move, none for a negative discriminant, otherwise both roots,
    * smaller first. */
  function Intersection(center: Vec3, radius: real, ray: CoreRays.TimedRay, sqrt: real -> real): (r: Outcome<Option<(real, real)>>)
    ensures r.Panic? <==> LengthSquared(ray.direction) == 0.0
    ensures r.Panic? ==> r.message == ZERO_DIRECTION_MESSAGE
    ensures r.Ok? ==> (r.value.None? <==> Discriminant(Coefficients(center, radius, ray.origin, ray.direction)) < 0.0)
    ensures r.Ok? && r.value.Some? ==>
              && r.value.value.0 <= r.value.value.1
              && var (r1, r2) := Roots(Coefficients(center, radius, ray.origin, ray.direction), sqrt);
                 (r.value.value == (r1, r2) || r.value.value == (r2, r1))
  {
    var q := Coefficients(center, radius, ray.origin, ray.direction);
    if q.a == 0.0 then Panic(ZERO_DIRECTION_MESSAGE)
    else if Discriminant(q) < 0.0 then Ok(None)
    else
      var (r1, r2) := Roots(q, sqrt);
      Ok(Some((Min(r1, r2), Max(r1, r2))))
  }

  /** The renderable sphere of src/core/refactor.rs. */
  datatype RSphere<M> = RSphere(sphere: Sphere, material: M)

  /** `RSphere::hit`: the first root the interval contains, else the second,
    * else none, which for the ordered roots of `intersection` is the nearest
    * root in the interval; the record's normal is the sphere's
    * `surface_normal` at the point, which panics at the centre. The interval's `contains` is taken
    * to be inclusive at both ends. */
  function RSphereHit<M>(rs: RSphere<M>, ray: CoreRays.TimedRay, lo: real, hi: real,
                         sqrt: real -> real, mapUv: Vec3 -> UV): (r: Outcome<Option<HitRecord<M>>>)
    ensures var i := Intersection(rs.sphere.center, rs.sphere.radius, ray, sqrt);
            && (i.Panic? ==> r == Panic(i.message))
            && (i.Ok? && i.value.None? ==> r == Ok(None))
            && (i.Ok? && i.value.Some? ==>
                  var sel := SelectRoot(i.value.value.0, i.value.value.1, lo, hi);
                  && (r.Panic? <==> sel.Some? && SurfaceNormal(rs.sphere, CoreRays.PositionAt(ray, sel.value), sqrt).Panic?)
                  && (r.Ok? ==> (r.value.Some? <==> sel.Some?))
                  && (r.Ok? && r.value.Some? ==> r.value.value.t == sel.value))
    ensures var i := Intersection(rs.sphere.center, rs.sphere.radius, ray, sqrt);
            r.Ok? && r.value.Some? ==>
              && i.Ok? && i.value.Some?
              && (lo <= i.value.value.0 <= hi ==> r.value.value.t <= i.value.value.0)
              && (lo <= i.value.value.1 <= hi ==> r.value.value.t <= i.value.value.1)
    ensures r.Ok? && r.value.Some? ==>
              && lo <= r.value.value.t <= hi
              && r.value.value.point == CoreRays.PositionAt(ray, r.value.value.t)
              && r.value.value.material == Some(rs.material)
              && r.value.value.tCoord.Some?
              && Dot(ray.direction, r.value.value.normal) <= 0.0
  {
    match Intersection(rs.sphere.center, rs.sphere.radius, ray, sqrt)
    case Panic(m) => Panic(m)
    case Ok(None) => Ok(None)
    case Ok(Some((r1, r2))) =>
      match SelectRoot(r1, r2, lo, hi)
      case None => Ok(None)
      case Some(t) =>
        var p := CoreRays.PositionAt(ray, t);
        match SurfaceNormal(rs.sphere, p, sqrt)
        case Panic(m) => Panic(m)
        case Ok(normal) => Ok(Some(NewCoreRecord(ray, normal, t, Some(rs.material), Some(mapUv(normal)))))
  }

  /** A renderable sphere keeps the contract a list asks of its children:
    * lowering the upper bound keeps the hit while it stays within and loses
    * it otherwise. */
  lemma RSphereHitRestricts<M>(rs: RSphere<M>, ray: CoreRays.TimedRay, lo: real, a: real, b: real,
                               sqrt: real -> real, mapUv: Vec3 -> UV)
    requires a <= b
    requires RSphereHit(rs, ray, lo, b, sqrt, mapUv).Ok?
    ensures RSphereHit(rs, ray, lo, a, sqrt, mapUv) == Ok(Restrict(RSphereHit(rs, ray, lo, b, sqrt, mapUv).value, a))
  {
    match Intersection(rs.sphere.center, rs.sphere.radius, ray, sqrt)
    case Panic(_) =>
    case Ok(None) =>
    case Ok(Some((r1, r2))) =>
      SelectRootRestricts(r1, r2, lo, a, b);
  }

  /** The bounding box of a sphere (`bounding_box` in src/sphere.rs and
    * src/core/shape/sphere.rs, and `RSphere::bounding_box` through it):
    * always present, centre ± radius on every axis. */
  function SphereBoundingBox(s: Sphere): (r: Option<Aabb>)
    ensures r.Some?
    ensures Add(r.value.minimum, r.value.maximum) == Scale(s.center, 2.0)
    ensures s.radius >= 0.0 ==> LessEq(r.value.minimum, s.center) && LessEq(s.center, r.value.maximum)
  {
    if s.radius >= 0.0 then BoundHoldsCenter(s); Some(Bound(s)) else Some(Bound(s))
  }
}

=== FILE: legacy_textures.dfy ===
/** Textures of the `src/` snapshots: the solid texture and texture
  * coordinate of src/core/texture/texture.rs, the sine checkerboard of
  * src/ray_tracer/texture/checkered_texture.rs and the tile checkerboard of
  * src/core/texture/checkered_texture.rs.
  *
  * The textures are shared trait objects in the source; here one datatype
  * holds the three kinds, and a checkerboard holds its two sub-textures.
  * Texture values are colours, which these snapshots represent as vectors.
  * `i32` arithmetic follows a debug build, where an overflow panics. */
module LegacyTextures {
  import opened Wrappers
  import opened Numeric
  import opened Vectors
  import opened Shapes

  datatype LegacyTexture =
    | Solid(color: Vec3)
    | SineChecker(odd: LegacyTexture, even: LegacyTexture)
    | TileChecker(odd: LegacyTexture, even: LegacyTexture)

  /** `TextureCoord::default()`: the origin of texture space. */
  function DefaultCoord(): (c: UV)
    ensures c.u == 0.0 && c.v == 0.0
  {
    UV(0.0, 0.0)
  }

  /** The product `sin(10u) · sin(10v)` whose sign picks the sine cell. */
  function SineProduct(uv: UV, sin: real -> real): real
  {
    sin(10.0 * uv.u) * sin(10.0 * uv.v)
  }

  /** `(u · 10) as i32`, the tile row. */
  function Row(uv: UV): int
  {
    SaturateI32(uv.u * 10.0)
  }

  /** `(v · 10) as i32`, the tile column. */
  function Column(uv: UV): int
  {
    SaturateI32(uv.v * 10.0)
  }

  predicate InI32(n: int)
  {
    I32_MIN <= n <= I32_MAX
  }

  /** `row * 10 + col` in `i32`: the multiplication, then the addition,
    * panics when it leaves the `i32` range. */
  function Tile(uv: UV): (r: Outcome<int>)
    ensures r.Ok? <==> InI32(Row(uv) * 10) && InI32(Row(uv) * 10 + Column(uv))
    ensures r.Ok? ==> r.value == Row(uv) * 10 + Column(uv)
  {
    var product := Row(uv) * 10;
    if !InI32(product) then Panic("attempt to multiply with overflow")
    else if !InI32(product + Column(uv)) then Panic("attempt to add with overflow")
    else Ok(product + Column(uv))
  }

  /** The colours a texture can give: the colours of its solid leaves. */
  ghost function Leaves(t: LegacyTexture): set<Vec3>
  {
    match t
    case Solid(c) => {c}
    case SineChecker(odd, even) => Leaves(odd) + Leaves(even)
    case TileChecker(odd, even) => Leaves(odd) + Leaves(even)
  }

  /** `value(t)`: a solid texture gives its colour whatever the coordinate;
    * the sine checkerboard delegates to `odd` where `sin(10u) · sin(10v)` is
    * negative and to `even` elsewhere; the tile checkerboard delegates to
    * `odd` where `tile % 2 == 1` (Rust's remainder) and to `even` elsewhere.
    * Whatever it returns is the colour of one of the texture's leaves. */
  function TextureValue(t: LegacyTexture, uv: UV, sin: real -> real): (c: Outcome<Vec3>)
    ensures t.Solid? ==> c == Ok(t.color)
    ensures c.Ok? ==> c.value in Leaves(t)
    ensures t.SineChecker? ==> c == TextureValue(if SineProduct(uv, sin) < 0.0 then t.odd else t.even, uv, sin)
    decreases t
  {
    match t
    case Solid(color) => Ok(color)
    case SineChecker(odd, even) =>
      if SineProduct(uv, sin) < 0.0 then TextureValue(odd, uv, sin) else TextureValue(even, uv, sin)
    case TileChecker(odd, even) =>
      match Tile(uv)
      case Panic(m) => Panic(m)
      case Ok(tile) => if RustRem(tile, 2) == 1 then TextureValue(odd, uv, sin) else TextureValue(even, uv, sin)
  }

  /** A solid texture gives the same colour at any two coordinates. */
  lemma SolidConstant(color: Vec3, uv1: UV, uv2: UV, sin: real -> real)
    ensures TextureValue(Solid(color), uv1, sin) == TextureValue(Solid(color), uv2, sin) == Ok(color)
  {
  }

  /** On either axis one factor is sin(0) = 0, so the sine checkerboard
    * delegates to `even` there. */
  lemma SineCheckerAxisIsEven(odd: LegacyTexture, even: LegacyTexture, uv: UV, sin: real -> real)
    requires sin(0.0) == 0.0
    requires uv.u == 0.0 || uv.v == 0.0
    ensures TextureValue(SineChecker(odd, even), uv, sin) == TextureValue(even, uv, sin)
  {
    assert SineProduct(uv, sin) == 0.0;
  }

  /** `from_colors(odd, even)` of either checkerboard: two solid textures. */
  function SineFromColors(odd: Vec3, even: Vec3): (t: LegacyTexture)
    ensures forall uv: UV, sin: real -> real {:trigger TextureValue(t, uv, sin)} ::
              TextureValue(t, uv, sin) == Ok(odd) || TextureValue(t, uv, sin) == Ok(even)
  {
    SineChecker(Solid(odd), Solid(even))
  }

  /** The tile checkerboard built from two colours gives one of them, or
    * panics exactly when the tile arithmetic overflows. */
  function TileFromColors(odd: Vec3, even: Vec3): (t: LegacyTexture)
    ensures forall uv: UV, sin: real -> real {:trigger TextureValue(t, uv, sin)} ::
              (TextureValue(t, uv, sin).Panic? <==> Tile(uv).Panic?)
              && (TextureValue(t, uv, sin).Ok? ==> TextureValue(t, uv, sin).value == odd || TextureValue(t, uv, sin).value == even)
  {
    TileChecker(Solid(odd), Solid(even))
  }

  /** Row and column of a coordinate in the unit square lie in [0, 10]. */
  lemma UnitCell(x: real)
    requires 0.0 <= x <= 1.0
    ensures 0 <= SaturateI32(x * 10.0) <= 10
  {
    assert 0.0 <= x * 10.0 <= 10.0;
  }

  /** On the unit square the tile arithmetic never overflows: the tile lies
    * in [0, 110]. */
  lemma TileInUnitSquare(uv: UV)
    requires 0.0 <= uv.u <= 1.0 && 0.0 <= uv.v <= 1.0
    ensures Tile(uv).Ok?
    ensures 0 <= Tile(uv).value <= 110
  {
    UnitCell(uv.u);
    UnitCell(uv.v);
  }

  /** For u, v ≥ 0 (and no overflow) the tile is `row · 10 + col` with both
    * terms non-negative, so its parity is the column's: the tile
    * checkerboard depends on v only. */
  lemma TileParityFollowsColumn(odd: LegacyTexture, even: LegacyTexture, uv: UV, sin: real -> real)
    requires uv.u >= 0.0 && uv.v >= 0.0
    requires Tile(uv).Ok?
    ensures TextureValue(TileChecker(odd, even), uv, sin)
            == if Column(uv) % 2 == 1 then TextureValue(odd, uv, sin) else TextureValue(even, uv, sin)
  {
    var row, col := Row(uv), Column(uv);
    assert row >= 0 && col >= 0;
    EvenShiftParity(row * 5, col);
    assert row * 10 + col == 2 * (row * 5) + col;
  }

  /** Adding an even number keeps the parity of a natural number. */
  lemma EvenShiftParity(m: nat, n: nat)
    ensures (2 * m + n) % 2 == n % 2
  {
  }

  /** A negative tile has remainder 0 or −1, never 1: every negative tile,
    * odd or even, takes the `even` texture. */
  lemma NegativeTileIsEven(odd: LegacyTexture, even: LegacyTexture, uv: UV, sin: real -> real)
    requires Tile(uv).Ok? && Tile(uv).value < 0
    ensures TextureValue(TileChecker(odd, even), uv, sin) == TextureValue(even, uv, sin)
  {
  }

  /** For instance at (u, v) = (0, −0.1) the tile is −1, an odd tile, yet
    * the `even` texture is used. */
  lemma NegativeOddTileExample(odd: LegacyTexture, even: LegacyTexture, sin: real -> real)
    ensures Tile(UV(0.0, -0.1)) == Ok(-1)
    ensures TextureValue(TileChecker(odd, even), UV(0.0, -0.1), sin) == TextureValue(even, UV(0.0, -0.1), sin)
  {
    assert Row(UV(0.0, -0.1)) == 0;
    assert Column(UV(0.0, -0.1)) == -1;
    NegativeTileIsEven(odd, even, UV(0.0, -0.1), sin);
  }
}

=== FILE: legacy_tracer.dfy ===
/** The renderer of the `src/` snapshot (src/ray_tracer/ray_tracer.rs) and
  * the console dump of its frame (src/ray_tracer/frame.rs).
  *
  * The frame of src/ray_tracer/frame.rs has the fields, constructor,
  * `set_color`, `get_color` and `clear` of the live engine's image, so it
  * is an `Images.Image<Vec3>` with the zero vector as blank cell; only its
  * console dump differs and is modelled here.
  *
  * The world and its materials (`HittableList::hit`, `Material::scatter`),
  * the camera's `create_ray` and the sampling draws are parameters; the
  * draws a material takes are part of its `scatter` parameter. Every
  * counter of the source is a `u32`. */
module LegacyTracer {
  import opened Wrappers
  import opened Numeric
  import opened Vectors
  import opened LegacyHits
  import opened LegacyMaterials
  import opened Images
  import LegacyCommon
  import Rays

  /** `RayTracerConfig`. */
  datatype TracerConfig = TracerConfig(samplesPerPixel: nat, maximumBounceDepth: nat, threadCount: nat)

  /** `RayTracerConfig::default()`: 8 samples, 50 bounces, one thread. */
  function DefaultConfig(): (c: TracerConfig)
    ensures c.samplesPerPixel == 8 && c.maximumBounceDepth == 50 && c.threadCount == 1
  {
    TracerConfig(8, 50, 1)
  }

  /** The world a frame is rendered from: the list's `hit` and the
    * materials' `scatter`. */
  datatype Scene<!M> = Scene(
    hit: (Rays.Ray, real, real) -> Option<HitRecord<M>>,
    scatter: (M, Rays.Ray, HitRecord<M>) -> Option<Attenuated>)

  /** The lower bound of the world query, which avoids shadow acne. */
  const SHADOW_ACNE_T_MIN: real := 0.01

  /** The colour of the sky straight up. */
  const SKY_BLUE: Vec3 := Vec3(0.5, 0.7, 1.0)

  const OVERFLOW_MESSAGE: string := "attempt to add with overflow"

  /** The sky seen along a unit direction: white blended into blue by
    * t = (y + 1) / 2; white looking straight down, blue straight up, and a
    * blend of the two in between. */
  function Gradient(direction: Vec3): (c: Vec3)
    ensures direction.y == -1.0 ==> c == Ones()
    ensures direction.y == 1.0 ==> c == SKY_BLUE
    ensures -1.0 <= direction.y <= 1.0 ==> 0.5 <= c.x <= 1.0 && 0.7 <= c.y <= 1.0 && c.z == 1.0
  {
    var t := 0.5 * (direction.y + 1.0);
    Add(Scale(Ones(), 1.0 - t), Scale(SKY_BLUE, t))
  }

  /** `ray_color(ray, world, bounce_depth)`: black once the bounce depth
    * reaches the maximum; otherwise, for a hit, the material's attenuation
    * times the colour of the bounced ray one level deeper, or black when
    * the material absorbs the ray; for a miss, the sky along the normalised
    * direction. A hit without a material panics (`unwrap`), a miss along the
    * zero direction panics (division by zero), and so does the `u32`
    * increment of the depth at its largest value. */
  function RayColor<M>(ray: Rays.Ray, depth: nat, maxDepth: nat, scene: Scene<M>, sqrt: real -> real): (c: Outcome<Vec3>)
    requires depth < U32_LIMIT && maxDepth < U32_LIMIT
    ensures depth == maxDepth ==> c == Ok(Zeros())
    ensures (depth != maxDepth && scene.hit(ray, SHADOW_ACNE_T_MIN, F64_MAX).Some?
             && scene.hit(ray, SHADOW_ACNE_T_MIN, F64_MAX).value.material.None?) ==> c.Panic?
    ensures depth != maxDepth && scene.hit(ray, SHADOW_ACNE_T_MIN, F64_MAX).Some?
            && scene.hit(ray, SHADOW_ACNE_T_MIN, F64_MAX).value.material.Some?
            && scene.scatter(scene.hit(ray, SHADOW_ACNE_T_MIN, F64_MAX).value.material.value, ray,
                             scene.hit(ray, SHADOW_ACNE_T_MIN, F64_MAX).value).None?
            ==> c == Ok(Zeros())
    ensures depth != maxDepth && scene.hit(ray, SHADOW_ACNE_T_MIN, F64_MAX).None?
            ==> ((c.Panic? <==> Normalized(ray.direction, sqrt).Panic?)
                 && (c.Ok? ==> c.value == Gradient(Normalized(ray.direction, sqrt).value)))
    decreases U32_LIMIT - depth
  {
    if depth == maxDepth then Ok(Zeros())
    else
      match scene.hit(ray, SHADOW_ACNE_T_MIN, F64_MAX)
      case Some(h) =>
        if h.material.None? then Panic("called `Option::unwrap()` on a `None` value")
        else
          (match scene.scatter(h.material.value, ray, h)
           case None => Ok(Zeros())
           case Some(bounce) =>
             if depth + 1 == U32_LIMIT then Panic(OVERFLOW_MESSAGE)
             else
               match RayColor(bounce.ray, depth + 1, maxDepth, scene, sqrt)
               case Panic(m) => Panic(m)
               case Ok(deeper) => Ok(Mul(bounce.attenuation, deeper)))
      case None =>
        match Normalized(ray.direction, sqrt)
        case Panic(m) => Panic(m)
        case Ok(direction) => Ok(Gradient(direction))
  }

  /** Started at or below the maximum depth, the recursion stops at the
    * maximum and never reaches the overflowing increment. */
  lemma {:induction false} RayColorStopsAtMaximum<M>(ray: Rays.Ray, depth: nat, maxDepth: nat, scene: Scene<M>, sqrt: real -> real)
    requires depth <= maxDepth < U32_LIMIT
    ensures RayColor(ray, depth, maxDepth, scene, sqrt) != Panic(OVERFLOW_MESSAGE)
    decreases maxDepth - depth
  {
    if depth < maxDepth {
      match scene.hit(ray, SHADOW_ACNE_T_MIN, F64_MAX)
      case Some(h) =>
        if h.material.Some? {
          match scene.scatter(h.material.value, ray, h)
          case None =>
          case Some(bounce) =>
            RayColorStopsAtMaximum(bounce.ray, depth + 1, maxDepth, scene, sqrt);
        }
      case None =>
        match Normalized(ray.direction, sqrt)
        case Panic(m) =>
          assert m == "Division by zero";
        case Ok(_) =>
    }
  }

  /** `frame_to_world(x, y)` for a frame of the given size: x/(width − 1)
    * and y/(height − 1); the `u32` subtraction panics on an empty frame.
    * The left and top edges map to 0, the right and bottom ones to 1. */
  function FrameToWorld(x: real, y: real, width: nat, height: nat): (r: Outcome<(real, real)>)
    requires width != 1 && height != 1
    ensures r.Panic? <==> width == 0 || height == 0
    ensures r.Ok? ==> (r.value.0 == 0.0 <==> x == 0.0) && (r.value.1 == 0.0 <==> y == 0.0)
    ensures r.Ok? && x == (width - 1) as real ==> r.value.0 == 1.0
    ensures r.Ok? && y == (height - 1) as real ==> r.value.1 == 1.0
  {
    if width == 0 || height == 0 then Panic("attempt to subtract with overflow")
    else
      var w, h := (width - 1) as real, (height - 1) as real;
      assert w > 0.0 && h > 0.0;
      QuotientByPositive(x, w);
      QuotientByPositive(y, h);
      Ok((x / w, y / h))
  }

  /** Dividing by a positive number gives 0 exactly for 0 and 1 for the
    * number itself. */
  lemma QuotientByPositive(a: real, d: real)
    requires d > 0.0
    ensures a / d == 0.0 <==> a == 0.0
    ensures a == d ==> a / d == 1.0
  {
  }

  /** The camera, the sample jitter (one pair of draws in [0, 1) per pixel
    * and sample) and `f64::sqrt`. */
  datatype Sampling<!C> = Sampling(
    createRay: (C, real, real) -> Rays.Ray,
    jitter: (nat, nat, nat) -> (real, real),
    sqrt: real -> real)

  /** What the colour of a pixel depends on. */
  datatype Job<!M, !C> = Job(config: TracerConfig, camera: C, width: nat, height: nat,
                           scene: Scene<M>, sampling: Sampling<C>)

  /** The sizes for which a pixel's colour is defined: no frame one pixel
    * wide or high (whose world mapping divides by zero) and a `u32` depth. */
  predicate Renderable<M, C>(job: Job<M, C>)
  {
    job.width != 1 && job.height != 1 && job.config.maximumBounceDepth < U32_LIMIT
  }

  /** Sample s of pixel (x, y): the camera ray through the jittered point,
    * traced from depth 0. */
  function SampleColor<M, C>(job: Job<M, C>, x: nat, y: nat, s: nat): Outcome<Vec3>
    requires Renderable(job)
  {
    var (dx, dy) := job.sampling.jitter(x, y, s);
    match FrameToWorld(x as real + dx, y as real + dy, job.width, job.height)
    case Panic(m) => Panic(m)
    case Ok(uv) => RayColor(job.sampling.createRay(job.camera, uv.0, uv.1), 0, job.config.maximumBounceDepth,
                            job.scene, job.sampling.sqrt)
  }

  /** The fold of the first n samples of pixel (x, y), from the zero colour;
    * it panics exactly when one of those samples does. */
  function PixelSum<M, C>(job: Job<M, C>, x: nat, y: nat, n: nat): (r: Outcome<Vec3>)
    requires Renderable(job)
    ensures n == 0 ==> r == Ok(Zeros())
    ensures r.Panic? <==> exists s :: 0 <= s < n && SampleColor(job, x, y, s).Panic?
  {
    if n == 0 then Ok(Zeros())
    else
      match PixelSum(job, x, y, n - 1)
      case Panic(m) => Panic(m)
      case Ok(sum) =>
        match SampleColor(job, x, y, n - 1)
        case Panic(m) => Panic(m)
        case Ok(c) => Ok(Add(sum, c))
  }

  /** A channel of `normalize_color`: the square root (gamma 2), then
    * `map_normalized_component`, brought back to `f64`. */
  function Channel(v: real, sqrt: real -> real): real
  {
    LegacyCommon.MapNormalizedComponent(sqrt(v)) as real
  }

  /** The mean of the samples' sum. */
  function Average(sum: Vec3, samples: nat): Vec3
    requires samples >= 1
  {
    Scale(sum, 1.0 / samples as real)
  }

  predicate UnitColor(c: Vec3)
  {
    0.0 <= c.x <= 1.0 && 0.0 <= c.y <= 1.0 && 0.0 <= c.z <= 1.0
  }

  /** A whole number within the `i32` range. */
  predicate WholeI32(v: real)
  {
    v == v.Floor as real && I32_MIN <= v.Floor <= I32_MAX
  }

  /** A root of a number in [0, 1] lies in [0, 1]. */
  lemma RootOfUnitRange(v: real, sqrt: real -> real)
    ensures IsSqrt(sqrt) && SquaresBack(sqrt) && 0.0 <= v <= 1.0 ==> 0.0 <= sqrt(v) <= 1.0
  {
    if IsSqrt(sqrt) && SquaresBack(sqrt) && 0.0 <= v <= 1.0 {
      var s := sqrt(v);
      assert s * s == v;
    }
  }

  /** A channel of `normalize_color` when the sample count is 0: a positive
    * sum times the infinite scale is infinite and casts to `i32::MAX`; zero
    * times it, or the root of minus infinity, is NaN and casts to 0. */
  function UnscaledChannel(sum: real): real
  {
    if sum > 0.0 then I32_MAX as real else 0.0
  }

  /** `normalize_color(pixel_color)`: the mean over the samples, its
    * square root per channel, then `(c · 255).floor() as i32` per channel.
    * With no samples the scale `1 / 0` is infinite: a channel whose sum is
    * positive becomes infinite and the cast saturates it to `i32::MAX`,
    * while a zero or negative sum gives NaN, which the cast turns into 0.
    * Each channel is a whole number in the `i32` range, and a mean within
    * [0, 1] gives channels within [0, 255]. */
  function NormalizeColor(sum: Vec3, samples: nat, sqrt: real -> real): (c: Vec3)
    ensures samples == 0 ==> c == Vec3(UnscaledChannel(sum.x), UnscaledChannel(sum.y), UnscaledChannel(sum.z))
    ensures samples == 0 && sum == Zeros() ==> c == Zeros()
    ensures WholeI32(c.x) && WholeI32(c.y) && WholeI32(c.z)
    ensures samples >= 1 && IsSqrt(sqrt) && SquaresBack(sqrt) && UnitColor(Average(sum, samples))
            ==> 0.0 <= c.x <= 255.0 && 0.0 <= c.y <= 255.0 && 0.0 <= c.z <= 255.0
  {
    if samples == 0 then Vec3(UnscaledChannel(sum.x), UnscaledChannel(sum.y), UnscaledChannel(sum.z))
    else
      var mean := Average(sum, samples);
      RootOfUnitRange(mean.x, sqrt);
      RootOfUnitRange(mean.y, sqrt);
      RootOfUnitRange(mean.z, sqrt);
      Vec3(Channel(mean.x, sqrt), Channel(mean.y, sqrt), Channel(mean.z, sqrt))
  }

  /** The colour `color_pixel` writes for pixel (x, y) when no sample
    * panics. */
  function Shade<M, C>(job: Job<M, C>, x: nat, y: nat): Vec3
    requires Renderable(job)
  {
    match PixelSum(job, x, y, job.config.samplesPerPixel)
    case Ok(sum) => NormalizeColor(sum, job.config.samplesPerPixel, job.sampling.sqrt)
    case Panic(_) => Zeros()
  }

  /** The tile of pixel (x, y) as src/ray_tracer/ray_tracer.rs computes it:
    * `j * image_height + image_width`, which uses neither the column nor
    * the width as a row length. */
  function TileIdAsWritten(y: nat, width: nat, height: nat): nat
  {
    y * height + width
  }

  /** `j * image_height + image_width` evaluated in `u32`: a debug build
    * panics when the product, or else the sum, leaves the type. */
  function TileIdU32(y: nat, width: nat, height: nat): (r: Outcome<nat>)
    ensures r.Panic? <==> TileIdAsWritten(y, width, height) >= U32_LIMIT
    ensures r.Ok? ==> r.value == TileIdAsWritten(y, width, height) < U32_LIMIT
  {
    if y * height >= U32_LIMIT then Panic("attempt to multiply with overflow")
    else if y * height + width >= U32_LIMIT then Panic("attempt to add with overflow")
    else Ok(y * height + width)
  }

  /** `tile_render` visits row `height - 1` first, and its tile id is the
    * largest, so the id overflows on some row exactly when it overflows on
    * that first row. */
  predicate TileIdOverflows(width: nat, height: nat)
  {
    width > 0 && height > 0 && TileIdAsWritten(height - 1, width, height) >= U32_LIMIT
  }

  lemma TileIdLargestOnTopRow(y: nat, width: nat, height: nat)
    requires y < height
    ensures TileIdAsWritten(y, width, height) <= TileIdAsWritten(height - 1, width, height)
  {
    MulMonotone(y, height - 1, height);
  }

  lemma MulMonotone(a: nat, b: nat, c: nat)
    requires a <= b
    ensures a * c <= b * c
  {
    assert b * c == a * c + (b - a) * c;
  }

  /** As written, a whole row shares one tile, and on a 2 × 2 frame with
    * two threads every tile id is even: thread 1 colours no pixel and
    * thread 0 colours them all. */
  lemma TileIdAsWrittenStarvesThread()
    ensures forall y: nat :: y < 2 ==> TileIdAsWritten(y, 2, 2) % 2 == 0
    ensures forall x: nat, y: nat :: x < 2 && y < 2 ==> Owner(x, y, 2, 2, 2) == 0
  {
    forall y: nat | y < 2
      ensures TileIdAsWritten(y, 2, 2) % 2 == 0
    {
      assert TileIdAsWritten(y, 2, 2) == 2 * (y + 1);
    }
  }

  /** The tile of pixel (x, y): its row-major index. */
  function TileId(x: nat, y: nat, width: nat): nat
  {
    y * width + x
  }

  /** The thread that colours pixel (x, y): the tile id as written, modulo
    * the thread count, so every pixel of a row has the same owner. */
  function Owner(x: nat, y: nat, width: nat, height: nat, threads: nat): (t: nat)
    requires threads >= 1
    ensures t < threads
  {
    TileIdAsWritten(y, width, height) % threads
  }

  /** Row `j` of `buf` holds the shade of each pixel left of `i` that thread
    * `threadId` owns; every other pixel holds its colour in `before`. */
  ghost predicate RowPainted<M, C>(buf: seq<seq<Vec3>>, before: seq<seq<Vec3>>, job: Job<M, C>, width: nat,
                                   threads: nat, threadId: nat, j: nat, i: nat)
    requires Renderable(job) && threads >= 1
  {
    |buf| == |before|
    && (forall y :: 0 <= y < |before| ==> |buf[y]| == width && |before[y]| == width)
    && forall y, x :: 0 <= y < |before| && 0 <= x < width ==>
         buf[y][x] == if y == j && x < i && Owner(x, y, width, |before|, threads) == threadId then Shade(job, x, y) else before[y][x]
  }

  /** Colouring pixel (i, j) when the thread owns it, or skipping it when
    * not, paints one more pixel of the row. */
  lemma RowPaintStep<M, C>(buf: seq<seq<Vec3>>, before: seq<seq<Vec3>>, job: Job<M, C>, width: nat,
                           threads: nat, threadId: nat, j: nat, i: nat)
    requires Renderable(job) && threads >= 1 && j < |before| && i < width
    requires RowPainted(buf, before, job, width, threads, threadId, j, i)
    ensures Owner(i, j, width, |before|, threads) == threadId
            ==> RowPainted(buf[j := buf[j][i := Shade(job, i, j)]], before, job, width, threads, threadId, j, i + 1)
    ensures Owner(i, j, width, |before|, threads) != threadId
            ==> RowPainted(buf, before, job, width, threads, threadId, j, i + 1)
  {
  }

  /** The intended tile id, the pixel's row-major index: the ids are
    * distinct, lie below width · height, and tile k is pixel
    * (k % width, k / width). With it, thread k % threads would colour pixel
    * k, so with at least as many pixels as threads no thread is idle. */
  lemma TileIdIsPixelIndex(x: nat, y: nat, width: nat, height: nat, k: nat, threads: nat)
    requires x < width && y < height
    requires k < width * height && threads >= 1
    ensures TileId(x, y, width) < width * height
    ensures TileId(x, y, width) == k <==> x == k % width && y == k / width
    ensures k / width < height && TileId(k % width, k / width, width) == k
    ensures TileId(k % width, k / width, width) % threads == k % threads
  {
    GridIndexBound(y, x, width, height);
    GridCellOfIndex(k, width, height);
    if TileId(x, y, width) == k {
      DivModUnique(k, width, y, x);
    }
  }

  /** The lines `write_to_console` prints after its header, one colour per
    * line: the rows from the last to the first, each from left to right. */
  function ConsoleLines(rows: seq<seq<Vec3>>): seq<Vec3>
  {
    if |rows| == 0 then [] else ConsoleLines(rows[1..]) + rows[0]
  }

  /** For rows of one width w, there are w lines per row. */
  lemma {:induction false} ConsoleLinesLength(rows: seq<seq<Vec3>>, w: nat)
    requires forall j :: 0 <= j < |rows| ==> |rows[j]| == w
    ensures |ConsoleLines(rows)| == |rows| * w
  {
    if |rows| > 0 {
      ConsoleLinesLength(rows[1..], w);
      assert |rows| * w == (|rows| - 1) * w + w;
    }
  }

  /** For rows of one width w, line m · w + i is cell i of the m-th row
    * counted from the bottom. */
  lemma {:induction false} ConsoleLinesOrder(rows: seq<seq<Vec3>>, w: nat, m: nat, i: nat)
    requires forall j :: 0 <= j < |rows| ==> |rows[j]| == w
    requires m < |rows| && i < w
    ensures m * w + i < |ConsoleLines(rows)|
    ensures ConsoleLines(rows)[m * w + i] == rows[|rows| - 1 - m][i]
  {
    var n := |rows|;
    var rest := rows[1..];
    var k := m * w + i;
    ConsoleLinesLength(rows, w);
    ConsoleLinesLength(rest, w);
    GridIndexBound(m, i, w, n);
    var front := ConsoleLines(rest);
    assert ConsoleLines(rows) == front + rows[0];
    if m < n - 1 {
      GridIndexBound(m, i, w, n - 1);
      assert k < |front|;
      ConsoleLinesOrder(rest, w, m, i);
      assert front[k] == rest[n - 2 - m][i];
    } else {
      assert m * w == |front|;
      assert k - |front| == i;
    }
  }

  /** `write_to_console`: the header carries width and height, then one
    * line per cell, rows from `height − 1` down to 0, each row left to
    * right. */
  method WriteToConsole(frame: Image<Vec3>) returns (header: (nat, nat), lines: seq<Vec3>)
    requires frame.Valid()
    ensures header == (frame.width, frame.height)
    ensures lines == ConsoleLines(frame.buffer)
  {
    header := (frame.width, frame.height);
    lines := [];
    var j := frame.height;
    while j > 0
      invariant 0 <= j <= frame.height
      invariant lines == ConsoleLines(frame.buffer[j..])
    {
      j := j - 1;
      var i := 0;
      while i < frame.width
        invariant 0 <= i <= frame.width
        invariant lines == ConsoleLines(frame.buffer[j + 1..]) + frame.buffer[j][..i]
      {
        lines := lines + [frame.buffer[j][i]];
        i := i + 1;
      }
      assert frame.buffer[j][..i] == frame.buffer[j];
      assert frame.buffer[j..][1..] == frame.buffer[j + 1..];
    }
    assert frame.buffer[0..] == frame.buffer;
  }

  /** `RayTracer`: its configuration, camera and frame. */
  class RayTracer<C> {
    var config: TracerConfig
    var camera: C
    var frame: Image<Vec3>

    /** `RayTracer::new`. */
    constructor (config: TracerConfig, camera: C, frame: Image<Vec3>)
      ensures this.config == config && this.camera == camera && this.frame == frame
    {
      this.config := config;
      this.camera := camera;
      this.frame := frame;
    }

    /** `set_camera`: replaces the camera only. */
    method SetCamera(camera: C)
      modifies this
      ensures this.camera == camera && config == old(config) && frame == old(frame)
    {
      this.camera := camera;
    }

    /** `set_frame`: replaces the frame only. */
    method SetFrame(frame: Image<Vec3>)
      modifies this
      ensures this.frame == frame && config == old(config) && camera == old(camera)
    {
      this.frame := frame;
    }

    /** `set_config`: replaces the configuration only. */
    method SetConfig(config: TracerConfig)
      modifies this
      ensures this.config == config && camera == old(camera) && frame == old(frame)
    {
      this.config := config;
    }

    /** The job the fields describe, for a scene and a sampling. */
    function JobOf<M>(scene: Scene<M>, sampling: Sampling<C>): Job<M, C>
      reads this, frame
    {
      Job(config, camera, frame.width, frame.height, scene, sampling)
    }

    /** `color_pixel(x, y)`: the samples are folded and normalised, and the
      * result is written to cell (x, y) of the frame and nowhere else; a
      * panicking sample panics before anything is written. */
    method ColorPixel<M>(x: nat, y: nat, scene: Scene<M>, sampling: Sampling<C>) returns (r: Outcome<()>)
      requires frame.Valid() && x < frame.width && y < frame.height
      requires Renderable(JobOf(scene, sampling))
      modifies frame
      ensures frame.width == old(frame.width) && frame.height == old(frame.height) && frame.Valid()
      ensures r.Panic? <==> old(PixelSum(JobOf(scene, sampling), x, y, config.samplesPerPixel)).Panic?
      ensures r.Ok? ==> frame.buffer == old(frame.buffer)[y := old(frame.buffer)[y][x := old(Shade(JobOf(scene, sampling), x, y))]]
      ensures r.Panic? ==> frame.buffer == old(frame.buffer)
    {
      var job := JobOf(scene, sampling);
      var sum := PixelSum(job, x, y, config.samplesPerPixel);
      if sum.Panic? {
        return Panic(sum.message);
      }
      r := frame.SetColor(x, y, NormalizeColor(sum.value, config.samplesPerPixel, sampling.sqrt));
    }

    /** One row of `tile_render(thread_id)`: row `j` left to right, colouring
      * exactly the pixels of the row the thread owns; every other pixel keeps
      * its colour. It stops at the first panicking pixel. */
    method TileRenderRow<M>(threadId: nat, j: nat, scene: Scene<M>, sampling: Sampling<C>) returns (r: Outcome<()>)
      requires frame.Valid() && Renderable(JobOf(scene, sampling))
      requires threadId < config.threadCount && j < frame.height
      modifies frame
      ensures frame.width == old(frame.width) && frame.height == old(frame.height) && frame.Valid()
      ensures r.Ok? ==> forall y, x :: 0 <= y < frame.height && 0 <= x < frame.width ==>
                          frame.buffer[y][x] == if y == j && Owner(x, y, frame.width, frame.height, config.threadCount) == threadId
                                                then Shade(JobOf(scene, sampling), x, y) else old(frame.buffer)[y][x]
      ensures r.Ok? ==> forall x :: 0 <= x < frame.width && Owner(x, j, frame.width, frame.height, config.threadCount) == threadId
                          ==> PixelSum(JobOf(scene, sampling), x, j, config.samplesPerPixel).Ok?
      ensures frame.width > 0 && TileIdAsWritten(j, frame.width, frame.height) >= U32_LIMIT
              ==> r.Panic? && frame.buffer == old(frame.buffer)
      ensures r.Panic? ==> (frame.width > 0 && TileIdAsWritten(j, frame.width, frame.height) >= U32_LIMIT)
                           || exists x :: 0 <= x < frame.width
                                && Owner(x, j, frame.width, frame.height, config.threadCount) == threadId
                                && PixelSum(JobOf(scene, sampling), x, j, config.samplesPerPixel).Panic?
    {
      var job := JobOf(scene, sampling);
      var width, height, threads := frame.width, frame.height, config.threadCount;
      if width > 0 {
        // the tile id is the same for every pixel of the row
        var id := TileIdU32(j, width, height);
        if id.Panic? {
          return Panic(id.message);
        }
      }
      ghost var before := frame.buffer;
      var i := 0;
      while i < width
        invariant 0 <= i <= width
        invariant frame.width == width && frame.height == height == |before| && frame.Valid()
        invariant JobOf(scene, sampling) == job
        invariant RowPainted(frame.buffer, before, job, width, threads, threadId, j, i)
        invariant forall x :: 0 <= x < i && Owner(x, j, width, height, threads) == threadId
                    ==> PixelSum(job, x, j, config.samplesPerPixel).Ok?
      {
        RowPaintStep(frame.buffer, before, job, width, threads, threadId, j, i);
        if Owner(i, j, width, height, threads) == threadId {
          r := ColorPixel(i, j, scene, sampling);
          if r.Panic? {
            return;
          }
        }
        i := i + 1;
      }
      r := Ok(());
    }

    /** `tile_render(thread_id)`: rows from the bottom up, each row left to
      * right, colouring exactly the pixels the thread owns; the others keep
      * their colour. It stops at the first panicking pixel. */
    method TileRender<M>(threadId: nat, scene: Scene<M>, sampling: Sampling<C>) returns (r: Outcome<()>)
      requires frame.Valid() && Renderable(JobOf(scene, sampling))
      requires threadId < config.threadCount
      modifies frame
      ensures frame.width == old(frame.width) && frame.height == old(frame.height) && frame.Valid()
      ensures r.Ok? ==> forall y, x :: 0 <= y < frame.height && 0 <= x < frame.width ==>
                          frame.buffer[y][x] == if Owner(x, y, frame.width, frame.height, config.threadCount) == threadId
                                                then Shade(JobOf(scene, sampling), x, y) else old(frame.buffer)[y][x]
      ensures r.Ok? ==> forall y, x :: 0 <= y < frame.height && 0 <= x < frame.width
                          && Owner(x, y, frame.width, frame.height, config.threadCount) == threadId
                          ==> PixelSum(JobOf(scene, sampling), x, y, config.samplesPerPixel).Ok?
      ensures TileIdOverflows(frame.width, frame.height) ==> r.Panic? && frame.buffer == old(frame.buffer)
      ensures r.Panic? ==> TileIdOverflows(frame.width, frame.height)
                           || exists y, x :: 0 <= y < frame.height && 0 <= x < frame.width
                                && Owner(x, y, frame.width, frame.height, config.threadCount) == threadId
                                && PixelSum(JobOf(scene, sampling), x, y, config.samplesPerPixel).Panic?
    {
      var job := JobOf(scene, sampling);
      var width, height, threads := frame.width, frame.height, config.threadCount;
      if TileIdOverflows(width, height) {
        // the first row visited panics before it writes
        r := TileRenderRow(threadId, height - 1, scene, sampling);
        return;
      }
      ghost var before := frame.buffer;
      var k := 0;
      while k < height
        invariant 0 <= k <= height
        invariant frame.width == width && frame.height == height && frame.Valid()
        invariant JobOf(scene, sampling) == job
        invariant forall y, x :: 0 <= y < height && 0 <= x < width ==>
                    frame.buffer[y][x] == if height - k <= y && Owner(x, y, width, height, threads) == threadId
                                          then Shade(job, x, y) else before[y][x]
        invariant forall y, x :: height - k <= y < height && 0 <= x < width && Owner(x, y, width, height, threads) == threadId
                    ==> PixelSum(job, x, y, config.samplesPerPixel).Ok?
      {
        TileIdLargestOnTopRow(height - 1 - k, width, height);
        r := TileRenderRow(threadId, height - 1 - k, scene, sampling);
        if r.Panic? {
          return;
        }
        k := k + 1;
      }
      r := Ok(());
    }

    /** `render`: the frame is cleared, then every thread's tiles are
      * rendered in turn, and a copy of the frame is returned. With at least
      * one thread every pixel is coloured (each by the one thread that owns
      * it); with none the frame stays black. A panicking pixel panics the
      * render. */
    method Render<M>(scene: Scene<M>, sampling: Sampling<C>) returns (r: Outcome<Image<Vec3>>)
      requires frame.Valid() && Renderable(JobOf(scene, sampling))
      modifies frame
      ensures frame.width == old(frame.width) && frame.height == old(frame.height) && frame.Valid()
      ensures r.Ok? ==> forall y, x :: 0 <= y < frame.height && 0 <= x < frame.width ==>
                          frame.buffer[y][x] == if config.threadCount >= 1 then Shade(JobOf(scene, sampling), x, y) else Zeros()
      ensures r.Ok? ==> forall y, x :: 0 <= y < frame.height && 0 <= x < frame.width && config.threadCount >= 1
                          ==> PixelSum(JobOf(scene, sampling), x, y, config.samplesPerPixel).Ok?
      ensures r.Ok? ==> fresh(r.value) && r.value.Valid() && r.value.buffer == frame.buffer
                        && r.value.width == frame.width && r.value.height == frame.height
      ensures config.threadCount >= 1 && TileIdOverflows(frame.width, frame.height) ==> r.Panic?
      ensures r.Panic? ==> config.threadCount >= 1
                           && (|| TileIdOverflows(frame.width, frame.height)
                               || exists y, x :: 0 <= y < frame.height && 0 <= x < frame.width
                                    && PixelSum(JobOf(scene, sampling), x, y, config.samplesPerPixel).Panic?)
    {
      var job := JobOf(scene, sampling);
      var width, height, threads := frame.width, frame.height, config.threadCount;
      frame.Clear(Zeros());
      var t := 0;
      while t < threads
        invariant 0 <= t <= threads
        invariant frame.width == width && frame.height == height && frame.Valid()
        invariant t > 0 ==> !TileIdOverflows(width, height)
        invariant JobOf(scene, sampling) == job
        invariant forall y, x :: 0 <= y < height && 0 <= x < width ==>
                    frame.buffer[y][x] == if threads >= 1 && Owner(x, y, width, height, threads) < t then Shade(job, x, y) else Zeros()
        invariant forall y, x :: 0 <= y < height && 0 <= x < width && threads >= 1 && Owner(x, y, width, height, threads) < t
                    ==> PixelSum(job, x, y, config.samplesPerPixel).Ok?
      {
        var tile := TileRender(t, scene, sampling);
        if tile.Panic? {
          return Panic(tile.message);
        }
        t := t + 1;
      }
      var copy := new Image<Vec3>(width, height, Zeros());
      copy.buffer := frame.buffer;
      r := Ok(copy);
    }
  }
}

=== FILE: material.dfy ===
/** Materials of the live engine (ray_tracer/src/material.rs).
  *
  * `resolve` turns an incoming ray and its collision into the bounced ray,
  * an attenuation colour and emitted light. The random draws a material
  * takes are parameters (`BounceDraws`), and so are the operations the
  * engine calls but this model does not define: `sqrt`, `sin`,
  * `Ray::reflect`, `Ray::refract` and `Color * f64` (`Primitives`). */
module Materials {
  import opened Numeric
  import opened Vectors
  import opened Rays
  import opened Shapes
  import opened Collisions
  import opened Images
  import opened Textures
  import opened Utils

  datatype CollisionResult = CollisionResult(reflectedRay: Ray, color: Color, emittedLight: Color)

  /** The random draws of one bounce: `random_unit_vector()` (Lambertian),
    * `sample_unit_sphere()` (Metal) and `random_float()` (Dielectric). */
  datatype BounceDraws = BounceDraws(unitVector: Vec3, inSphere: Vec3, uniform: real)

  /** Operations used by the materials whose definitions are not part of
    * this model: `reflectRay(ray, normal, point)` is `ray.reflect(normal,
    * point)`, `refractRay(ray, normal, point, ratio)` is `ray.refract(..)`
    * and `scaleColor(c, t)` is `c * t`. */
  datatype Primitives = Primitives(
    sqrt: real -> real,
    sin: real -> real,
    reflectRay: (Ray, Vec3, Vec3) -> Ray,
    refractRay: (Ray, Vec3, Vec3, real) -> Ray,
    scaleColor: (Color, real) -> Color)

  /** `MaterialType`, each variant carrying the fields of its struct. */
  datatype MaterialType =
    | Lambertian(texture: TextureType)
    | Dielectric(refIndex: real)
    | Metal(texture: TextureType, fuzz: real)
    | DiffuseLight(hue: Color, brightness: real)
  {
    /** The textures are well formed, and a refractive index is neither 0
      * (whose reciprocal f64 makes infinite) nor -1 (where Schlick's
      * fraction divides by zero). */
    predicate Valid()
    {
      && ((Lambertian? || Metal?) ==> texture.Valid())
      && (Dielectric? ==> refIndex != 0.0 && refIndex != -1.0)
    }
  }

  /** `Lambertian::resolve`: scatter along normal + random unit vector, or
    * along the normal when that sum is near zero; attenuate by the texture
    * at the hit; emit nothing. */
  function LambertianResolve(texture: TextureType, collision: CollisionRecord, draws: BounceDraws, prims: Primitives): (r: CollisionResult)
    requires texture.Valid()
    ensures r.reflectedRay.origin == collision.point
    ensures NearZero(Add(Normal(collision), draws.unitVector)) ==> r.reflectedRay.direction == Normal(collision)
    ensures !NearZero(Add(Normal(collision), draws.unitVector)) ==> r.reflectedRay.direction == Add(Normal(collision), draws.unitVector)
    ensures r.color == Value(texture, collision.uv, collision.point, prims.sin)
    ensures r.emittedLight == Black()
  {
    var bounce := Add(Normal(collision), draws.unitVector);
    var direction := if NearZero(bounce) then Normal(collision) else bounce;
    CollisionResult(Ray(collision.point, direction), Value(texture, collision.uv, collision.point, prims.sin), Color(0.0, 0.0, 0.0))
  }

  /** The fallback keeps the bounce direction away from zero: unless the
    * collision normal itself is near zero, the scattered direction is not. */
  lemma LambertianDirectionNotNearZero(texture: TextureType, collision: CollisionRecord, draws: BounceDraws, prims: Primitives)
    requires texture.Valid()
    requires !NearZero(collision.sNormal)
    ensures !NearZero(LambertianResolve(texture, collision, draws, prims).reflectedRay.direction)
  {
    var n := Normal(collision);
    if collision.face == Inner {
      assert n == Neg(collision.sNormal);
    }
    assert !NearZero(n);
  }

  /** The refraction ratio: 1 / index entering the outer face, the index
    * itself leaving through the inner face. */
  function RefRatio(refIndex: real, face: Face): (ratio: real)
    requires refIndex != 0.0
    ensures face == Outer ==> ratio * refIndex == 1.0
    ensures face == Inner ==> ratio == refIndex
    ensures ratio != 0.0
  {
    match face
    case Outer => 1.0 / refIndex
    case Inner => refIndex
  }

  /** `Dielectric::reflectance`: Schlick's approximation
    * x^2 + (1 - x^2)(1 - cos)^5 with x = (1 - ratio) / (1 + ratio). */
  function Reflectance(cos: real, ratio: real): real
    requires ratio != -1.0
  {
    var x := (1.0 - ratio) / (1.0 + ratio);
    x * x + (1.0 - x * x) * Pow(1.0 - cos, 5)
  }

  /** At normal incidence (cos = 1) the reflectance is x^2; at grazing
    * incidence (cos = 0) it is 1. */
  lemma ReflectanceEnds(ratio: real)
    requires ratio != -1.0
    ensures Reflectance(1.0, ratio) == ((1.0 - ratio) / (1.0 + ratio)) * ((1.0 - ratio) / (1.0 + ratio))
    ensures Reflectance(0.0, ratio) == 1.0
  {
    assert Pow(0.0, 5) == 0.0;
    assert Pow(1.0, 5) == 1.0;
  }

  /** The cosine of the incidence angle, capped at 1. */
  function IncidenceCos(ray: Ray, collision: CollisionRecord): (cos: real)
    ensures cos <= 1.0
    ensures cos <= Dot(Neg(ray.direction), Normal(collision))
    ensures cos == 1.0 || cos == Dot(Neg(ray.direction), Normal(collision))
  {
    Min(Dot(Neg(ray.direction), Normal(collision)), 1.0)
  }

  /** Total internal reflection: ratio * sin(theta) > 1. */
  predicate MustReflect(ray: Ray, collision: CollisionRecord, refIndex: real, sqrt: real -> real)
    requires refIndex != 0.0
  {
    var cos := IncidenceCos(ray, collision);
    RefRatio(refIndex, collision.face) * sqrt(1.0 - cos * cos) > 1.0
  }

  /** `Dielectric::resolve`: reflect when total internal reflection forces
    * it or when the reflectance beats the uniform draw, refract otherwise;
    * attenuation white, no emission. */
  function DielectricResolve(refIndex: real, ray: Ray, collision: CollisionRecord, draws: BounceDraws, prims: Primitives): (r: CollisionResult)
    requires refIndex != 0.0 && refIndex != -1.0
    ensures r.color == White() && r.emittedLight == Black()
    ensures MustReflect(ray, collision, refIndex, prims.sqrt)
            ==> r.reflectedRay == prims.reflectRay(ray, Normal(collision), collision.point)
    ensures Reflectance(IncidenceCos(ray, collision), RefRatio(refIndex, collision.face)) > draws.uniform
            ==> r.reflectedRay == prims.reflectRay(ray, Normal(collision), collision.point)
    ensures !MustReflect(ray, collision, refIndex, prims.sqrt)
            && Reflectance(IncidenceCos(ray, collision), RefRatio(refIndex, collision.face)) <= draws.uniform
            ==> r.reflectedRay == prims.refractRay(ray, Normal(collision), collision.point, RefRatio(refIndex, collision.face))
  {
    var ratio := RefRatio(refIndex, collision.face);
    var cos := IncidenceCos(ray, collision);
    var mustReflect := MustReflect(ray, collision, refIndex, prims.sqrt);
    var vetoRefract := Reflectance(cos, ratio) > draws.uniform;
    var bounced := if mustReflect || vetoRefract
      then prims.reflectRay(ray, Normal(collision), collision.point)
      else prims.refractRay(ray, Normal(collision), collision.point, ratio);
    CollisionResult(bounced, Color(1.0, 1.0, 1.0), Color(0.0, 0.0, 0.0))
  }

  /** Under total internal reflection the uniform draw does not matter. */
  lemma MustReflectIgnoresDraw(refIndex: real, ray: Ray, collision: CollisionRecord, d1: BounceDraws, d2: BounceDraws, prims: Primitives)
    requires refIndex != 0.0 && refIndex != -1.0
    requires MustReflect(ray, collision, refIndex, prims.sqrt)
    ensures DielectricResolve(refIndex, ray, collision, d1, prims) == DielectricResolve(refIndex, ray, collision, d2, prims)
  {
  }

  /** `Metal::resolve`: the mirror direction perturbed by `fuzz` times a
    * point in the unit sphere, from the hit point; the texture colour on the
    * outer face, black on the inner face (the ray cannot escape); no
    * emission. */
  function MetalResolve(texture: TextureType, fuzz: real, ray: Ray, collision: CollisionRecord, draws: BounceDraws, prims: Primitives): (r: CollisionResult)
    requires texture.Valid()
    ensures r.reflectedRay.origin == collision.point
    ensures r.reflectedRay.direction == Add(Reflect(ray.direction, Normal(collision)), Scale(draws.inSphere, fuzz))
    ensures collision.face == Outer ==> r.color == Value(texture, collision.uv, collision.point, prims.sin)
    ensures collision.face == Inner ==> r.color == Black()
    ensures r.emittedLight == Black()
  {
    var reflected := Reflect(ray.direction, Normal(collision));
    var bounced := Ray(collision.point, Add(reflected, Scale(draws.inSphere, fuzz)));
    match collision.face
    case Outer => CollisionResult(bounced, Value(texture, collision.uv, collision.point, prims.sin), Color(0.0, 0.0, 0.0))
    case Inner => CollisionResult(bounced, Black(), Color(0.0, 0.0, 0.0))
  }

  /** Without fuzz a metal is a perfect mirror. */
  lemma MetalWithoutFuzzMirrors(texture: TextureType, ray: Ray, collision: CollisionRecord, draws: BounceDraws, prims: Primitives)
    requires texture.Valid()
    ensures MetalResolve(texture, 0.0, ray, collision, draws, prims).reflectedRay.direction
            == Reflect(ray.direction, Normal(collision))
  {
    var d := Reflect(ray.direction, Normal(collision));
    assert Scale(draws.inSphere, 0.0) == Zeros();
    assert Add(d, Zeros()) == d;
  }

  /** `DiffuseLight::resolve`: the ray passes through unchanged, nothing is
    * reflected and the light emitted is `hue * brightness`. */
  function DiffuseLightResolve(hue: Color, brightness: real, ray: Ray, prims: Primitives): (r: CollisionResult)
    ensures r.reflectedRay == ray
    ensures r.color == Black()
    ensures r.emittedLight == prims.scaleColor(hue, brightness)
  {
    CollisionResult(ray, Color(0.0, 0.0, 0.0), prims.scaleColor(hue, brightness))
  }

  /** `MaterialType::resolve`: the wrapped material's `resolve`. */
  function Resolve(m: MaterialType, ray: Ray, collision: CollisionRecord, draws: BounceDraws, prims: Primitives): (r: CollisionResult)
    requires m.Valid()
    ensures m.Lambertian? ==> r == LambertianResolve(m.texture, collision, draws, prims)
    ensures m.Dielectric? ==> r == DielectricResolve(m.refIndex, ray, collision, draws, prims)
    ensures m.Metal? ==> r == MetalResolve(m.texture, m.fuzz, ray, collision, draws, prims)
    ensures m.DiffuseLight? ==> r == DiffuseLightResolve(m.hue, m.brightness, ray, prims)
  {
    match m
    case Dielectric(refIndex) => DielectricResolve(refIndex, ray, collision, draws, prims)
    case Lambertian(texture) => LambertianResolve(texture, collision, draws, prims)
    case Metal(texture, fuzz) => MetalResolve(texture, fuzz, ray, collision, draws, prims)
    case DiffuseLight(hue, brightness) => DiffuseLightResolve(hue, brightness, ray, prims)
  }

  /** Only a diffuse light emits: every other material emits black. */
  lemma OnlyLightsEmit(m: MaterialType, ray: Ray, collision: CollisionRecord, draws: BounceDraws, prims: Primitives)
    requires m.Valid() && !m.DiffuseLight?
    ensures Resolve(m, ray, collision, draws, prims).emittedLight == Black()
  {
  }
}

=== FILE: numeric.dfy ===
/** Scalar helpers shared by every snapshot of the engine.
  *
  * Floating-point scalars (f64, f32) are modelled as `real`. The analytic
  * functions the engine calls (sqrt, sin) have no definition here: callers
  * receive them as function-typed parameters, and the laws a property needs
  * are stated with the predicates below. Rust's float-to-integer casts and
  * integer remainder are written out explicitly. */
module Numeric {

  /** f64::MAX = (2^53 - 1) * 2^971. */
  const F64_MAX: real := 179769313486231570814527423731704356798070567525844996598917476803157260780028538760589558632766878171540458953514382464234321326889464182768467546703537516986049910576551282076245490090389328944075868508455133942304583236903222948165808559332123348274797826204144723168738177180919299881250404026184124858368.0

  const U32_LIMIT: int := 0x1_0000_0000
  const I32_MIN: int := -0x8000_0000
  const I32_MAX: int := 0x7fff_ffff

  /** f64::min and f64::max on non-NaN operands. */
  function Min(a: real, b: real): (r: real)
    ensures r <= a && r <= b && (r == a || r == b)
  {
    if a <= b then a else b
  }

  function Max(a: real, b: real): (r: real)
    ensures r >= a && r >= b && (r == a || r == b)
  {
    if a >= b then a else b
  }

  function Abs(a: real): (r: real)
    ensures r >= 0.0 && (r == a || r == -a)
  {
    if a < 0.0 then -a else a
  }

  /** Rounding toward zero, the integer part a Rust `as` cast keeps. */
  function Trunc(x: real): (n: int)
    ensures x >= 0.0 ==> n as real <= x < n as real + 1.0
    ensures x < 0.0 ==> n as real - 1.0 < x <= n as real
  {
    if x >= 0.0 then x.Floor else -((-x).Floor)
  }

  /** `x as u8`: truncation toward zero, saturated to [0, 255]. */
  function SaturateU8(x: real): (n: int)
    ensures 0 <= n <= 255
    ensures x <= 0.0 ==> n == 0
    ensures x >= 255.0 ==> n == 255
    ensures 0.0 <= x < 255.0 ==> n as real <= x < n as real + 1.0
  {
    var t := Trunc(x);
    if t < 0 then 0 else if t > 255 then 255 else t
  }

  /** `x as u32`: truncation toward zero, saturated to [0, 2^32 - 1]. */
  function SaturateU32(x: real): (n: int)
    ensures 0 <= n < U32_LIMIT
    ensures 0.0 <= x < (U32_LIMIT - 1) as real ==> n as real <= x < n as real + 1.0
  {
    var t := Trunc(x);
    if t < 0 then 0 else if t >= U32_LIMIT then U32_LIMIT - 1 else t
  }

  /** `x as i32`: truncation toward zero, saturated to the i32 range. */
  function SaturateI32(x: real): (n: int)
    ensures I32_MIN <= n <= I32_MAX
    ensures I32_MIN as real <= x <= I32_MAX as real ==> n == Trunc(x)
  {
    var t := Trunc(x);
    if t < I32_MIN then I32_MIN else if t > I32_MAX then I32_MAX else t
  }

  /** Rust's `%` on signed integers: the remainder takes the sign of the
    * dividend (truncated division), unlike Dafny's Euclidean `%`. */
  function RustRem(a: int, b: int): (r: int)
    requires b != 0
    ensures a >= 0 ==> r == a % b
    ensures -Abs(b as real) < r as real < Abs(b as real)
    ensures a >= 0 ==> r >= 0
    ensures a < 0 ==> r <= 0
    ensures a < 0 ==> r == -((-a) % b)
    ensures a < 0 ==> a == b * -((-a) / b) + r
  {
    if a >= 0 then a % b else -((-a) % b)
  }

  /** x^n for a natural exponent (f64::powf with an integral exponent). */
  function Pow(x: real, n: nat): real
  {
    if n == 0 then 1.0 else x * Pow(x, n - 1)
  }

  /** The laws of f64::sqrt that the properties below rely on: the root of
    * a non-negative number is non-negative, and the root is zero exactly at
    * zero (the root of a negative number is NaN, which is not zero). */
  ghost predicate IsSqrt(sqrt: real -> real)
  {
    forall x :: (0.0 <= x ==> 0.0 <= sqrt(x)) && (sqrt(x) == 0.0 <==> x == 0.0)
  }

  /** The root squares back to its argument (needed only for unit lengths). */
  ghost predicate SquaresBack(sqrt: real -> real)
  {
    forall x :: 0.0 <= x ==> sqrt(x) * sqrt(x) == x
  }

  /** sin is bounded by 1 in absolute value. */
  ghost predicate IsSine(sin: real -> real)
  {
    forall x :: -1.0 <= sin(x) <= 1.0
  }

  /** The position of row `row`, column `col` in the row-major order of a
    * grid `w` cells wide. */
  function RowMajor(row: nat, col: nat, w: nat): nat
  {
    row * w + col
  }

  /** Row-major position (row, col) of a width-w grid with h rows lies in
    * [0, h * w). */
  lemma GridIndexBound(row: nat, col: nat, w: nat, h: nat)
    requires row < h && col < w
    ensures 0 <= row * w + col < h * w
  {
    assert (row + 1) * w <= h * w;
  }

  /** A position below h * w in a grid w cells wide lies in row i / w and
    * column i % w, which give it back. */
  lemma GridCellOfIndex(i: nat, w: nat, h: nat)
    requires i < h * w
    ensures w > 0
    ensures i / w < h && i % w < w
    ensures (i / w) * w + i % w == i
  {
    MulGap(h - 1, i / w, w);
  }

  /** Multiplying by w keeps a gap of at least w between distinct naturals. */
  lemma MulGap(a: nat, b: nat, w: nat)
    ensures a < b ==> a * w + w <= b * w
  {
    if a < b {
      var d: nat := b - a - 1;
      assert b * w == a * w + d * w + w;
    }
  }

  /** Quotient and remainder are unique: q * w + r with r < w divides into
    * q and leaves r. */
  lemma DivModUnique(i: nat, w: nat, q: nat, r: nat)
    requires w > 0 && r < w && i == q * w + r
    ensures i / w == q && i % w == r
  {
    var q' := i / w;
    MulGap(q', q, w);
    MulGap(q, q', w);
  }
}

=== FILE: perlin.dfy ===
/** Perlin noise tables of the live engine (ray_tracer/src/perlin.rs).
  *
  * The three hash tables are built in place: an array is filled with the
  * identity and then shuffled by swaps, one random draw per position. The
  * draws are parameters here (`draws[i]` is the draw taken when the shuffle
  * visits position i), and so are the 256 gradient vectors, whose random
  * construction is not part of this model. */
module Perlin {
  import opened Numeric
  import opened Vectors
  import opened Utils

  /** `Perlin::POINT_COUNT`. */
  const POINT_COUNT: nat := 256

  /** The table `generate_perm` starts from: entry i holds i. */
  function Identity(): (t: seq<int>)
    ensures |t| == POINT_COUNT
    ensures forall i :: 0 <= i < POINT_COUNT ==> t[i] == i
  {
    seq(POINT_COUNT, i => i)
  }

  /** A table holding each of 0..255 exactly once. */
  predicate IsPermutation(t: seq<int>)
  {
    multiset(t) == multiset(Identity())
  }

  /** Every entry of a permutation table is a valid table index. */
  lemma PermutationEntries(t: seq<int>, k: int)
    requires IsPermutation(t) && 0 <= k < POINT_COUNT
    ensures |t| == POINT_COUNT
    ensures 0 <= t[k] < POINT_COUNT
  {
    assert |multiset(t)| == |multiset(Identity())|;
    assert t[k] in multiset(t);
    assert t[k] in Identity();
  }

  /** A draw is usable when it lies in [0, 1). */
  predicate Draws(draws: seq<real>, n: nat)
  {
    n <= |draws| && forall k :: 0 <= k < n ==> 0.0 <= draws[k] < 1.0
  }

  /** The partner of position i in the shuffle: `u32_random_range(0, i)`,
    * which never panics because the lower bound is 0 and stays at or below
    * i (strictly below once i >= 1). */
  function SwapTarget(i: nat, r: real): (t: nat)
    requires i < U32_LIMIT && 0.0 <= r < 1.0
    ensures t <= i
    ensures 1 <= i ==> t < i
  {
    U32RandomRangeBound(0, i, r);
    U32RandomRange(0, i, r).value
  }

  /** The table with entries i and j exchanged. */
  function Swap(s: seq<int>, i: nat, j: nat): (r: seq<int>)
    requires i < |s| && j < |s|
    ensures |r| == |s| && r[i] == s[j] && r[j] == s[i]
    ensures forall k :: 0 <= k < |s| && k != i && k != j ==> r[k] == s[k]
  {
    s[i := s[j]][j := s[i]]
  }

  lemma SwapPreservesMultiset(s: seq<int>, i: nat, j: nat)
    requires i < |s| && j < |s|
    ensures multiset(Swap(s, i, j)) == multiset(s)
  {
    var t := s[i := s[j]];
    assert multiset(t) == multiset(s) - multiset{s[i]} + multiset{s[j]};
  }

  /** What `permute` leaves after it has visited positions n - 1 down to 0.
    * Shuffling only swaps, so the multiset of entries is unchanged. */
  function PermuteFrom(s: seq<int>, n: nat, draws: seq<real>): (r: seq<int>)
    requires n <= |s| < U32_LIMIT && Draws(draws, n)
    ensures |r| == |s|
    ensures multiset(r) == multiset(s)
    decreases n
  {
    if n == 0 then s
    else
      var t := SwapTarget(n - 1, draws[n - 1]);
      SwapPreservesMultiset(s, n - 1, t);
      PermuteFrom(Swap(s, n - 1, t), n - 1, draws)
  }

  /** A shuffled identity is a permutation of 0..255. */
  lemma ShuffledIdentityIsPermutation(draws: seq<real>)
    requires Draws(draws, POINT_COUNT)
    ensures IsPermutation(PermuteFrom(Identity(), POINT_COUNT, draws))
  {
  }

  /** `permute(p, n)`: for i from n - 1 down to 0, swap p[i] with
    * p[u32_random_range(0, i)]. */
  method Permute(p: array<int>, n: nat, draws: seq<real>)
    requires p.Length == POINT_COUNT && n <= POINT_COUNT && Draws(draws, n)
    modifies p
    ensures p[..] == PermuteFrom(old(p[..]), n, draws)
    ensures multiset(p[..]) == multiset(old(p[..]))
  {
    var i := n;
    while i > 0
      invariant 0 <= i <= n
      invariant PermuteFrom(p[..], i, draws) == PermuteFrom(old(p[..]), n, draws)
    {
      i := i - 1;
      var target := SwapTarget(i, draws[i]);
      ghost var before := p[..];
      var temp := p[i];
      p[i] := p[target];
      p[target] := temp;
      assert p[..] == Swap(before, i, target);
      PermuteStep(before, i, draws);
    }
  }

  /** Visiting position i swaps it with its partner and leaves positions
    * i - 1 down to 0 to visit. */
  lemma PermuteStep(s: seq<int>, i: nat, draws: seq<real>)
    requires i < |s| < U32_LIMIT && Draws(draws, i + 1)
    ensures PermuteFrom(Swap(s, i, SwapTarget(i, draws[i])), i, draws) == PermuteFrom(s, i + 1, draws)
  {
  }

  /** `generate_perm`: the identity on 0..255, shuffled in place. */
  method GeneratePerm(draws: seq<real>) returns (p: array<int>)
    requires Draws(draws, POINT_COUNT)
    ensures fresh(p) && p.Length == POINT_COUNT
    ensures p[..] == PermuteFrom(Identity(), POINT_COUNT, draws)
    ensures IsPermutation(p[..])
  {
    p := new int[POINT_COUNT];
    for i := 0 to POINT_COUNT
      invariant forall k :: 0 <= k < i ==> p[k] == k
    {
      p[i] := i;
    }
    assert p[..] == Identity();
    Permute(p, POINT_COUNT, draws);
    ShuffledIdentityIsPermutation(draws);
  }

  /** The noise generator: three hash tables and 256 gradient vectors. */
  datatype Noise = Noise(x: seq<int>, y: seq<int>, z: seq<int>, vectors: seq<Vec3>)
  {
    predicate Valid()
    {
      IsPermutation(x) && IsPermutation(y) && IsPermutation(z) && |vectors| == POINT_COUNT
    }
  }

  /** `Perlin::new`: the gradient vectors, then the x, y and z tables, each
    * from its own draws. */
  method NewNoise(vectors: seq<Vec3>, drawsX: seq<real>, drawsY: seq<real>, drawsZ: seq<real>)
    returns (noise: Noise)
    requires |vectors| == POINT_COUNT
    requires Draws(drawsX, POINT_COUNT) && Draws(drawsY, POINT_COUNT) && Draws(drawsZ, POINT_COUNT)
    ensures noise.Valid()
    ensures noise.vectors == vectors
    ensures noise.x == PermuteFrom(Identity(), POINT_COUNT, drawsX)
    ensures noise.y == PermuteFrom(Identity(), POINT_COUNT, drawsY)
    ensures noise.z == PermuteFrom(Identity(), POINT_COUNT, drawsZ)
  {
    var x := GeneratePerm(drawsX);
    var y := GeneratePerm(drawsY);
    var z := GeneratePerm(drawsZ);
    noise := Noise(x[..], y[..], z[..], vectors);
  }

  /** `i & 255` on a two's-complement i32: the low eight bits, which is the
    * Euclidean remainder modulo 256, also for negative i. */
  function LowByte(i: int): (b: nat)
    ensures b < POINT_COUNT
    ensures (i - b) % POINT_COUNT == 0
  {
    i % POINT_COUNT
  }

  /** `xor_hash(i, j, k)`: the XOR of one entry from each table. */
  function XorHash(noise: Noise, i: int, j: int, k: int): (h: nat)
    requires noise.Valid()
    ensures h < |noise.vectors|
  {
    PermutationEntries(noise.x, LowByte(i));
    PermutationEntries(noise.y, LowByte(j));
    PermutationEntries(noise.z, LowByte(k));
    var a, b, c := noise.x[LowByte(i)], noise.y[LowByte(j)], noise.z[LowByte(k)];
    XorBelow(a, b, 8);
    XorBelow(Xor(a, b), c, 8);
    Xor(Xor(a, b), c)
  }

  /** 2^k. */
  function Pow2(k: nat): (r: nat)
    ensures r >= 1
  {
    if k == 0 then 1 else 2 * Pow2(k - 1)
  }

  /** Bitwise exclusive or of two naturals, lowest bit first. */
  function Xor(a: nat, b: nat): nat
    decreases a + b
  {
    if a == 0 then b
    else if b == 0 then a
    else 2 * Xor(a / 2, b / 2) + (a + b) % 2
  }

  /** The exclusive or of two k-bit numbers has at most k bits. */
  lemma {:induction false} XorBelow(a: nat, b: nat, k: nat)
    requires a < Pow2(k) && b < Pow2(k)
    ensures Xor(a, b) < Pow2(k)
    decreases k
  {
    if a != 0 && b != 0 {
      assert k >= 1;
      XorBelow(a / 2, b / 2, k - 1);
    }
  }

  /** `x.floor() as i32`. */
  function Lattice(x: real): int
  {
    SaturateI32(x.Floor as real)
  }

  /** The gradient vectors at the eight lattice corners around cell (i, j, k). */
  function NoiseCube(noise: Noise, i: int, j: int, k: int): (c: seq<seq<seq<Vec3>>>)
    requires noise.Valid()
    ensures IsCube(c)
  {
    var v := noise.vectors;
    [[[v[XorHash(noise, i, j, k)], v[XorHash(noise, i, j, k + 1)]],
      [v[XorHash(noise, i, j + 1, k)], v[XorHash(noise, i, j + 1, k + 1)]]],
     [[v[XorHash(noise, i + 1, j, k)], v[XorHash(noise, i + 1, j, k + 1)]],
      [v[XorHash(noise, i + 1, j + 1, k)], v[XorHash(noise, i + 1, j + 1, k + 1)]]]]
  }

  /** The value `smooth_noise(p)` computes. */
  function SmoothNoiseValue(noise: Noise, p: Vec3): real
    requires noise.Valid()
  {
    var c := NoiseCube(noise, Lattice(p.x), Lattice(p.y), Lattice(p.z));
    PerlinSum(c, p.x - p.x.Floor as real, p.y - p.y.Floor as real, p.z - p.z.Floor as real, 8)
  }

  /** `smooth_noise(p)`: looks up the corner gradients through `xor_hash`
    * (always in bounds) and interpolates them with `perlin_t_lerp`. */
  method SmoothNoise(noise: Noise, p: Vec3) returns (r: real)
    requires noise.Valid()
    ensures r == SmoothNoiseValue(noise, p) == Sampler(noise)(p)
  {
    var cube := NoiseCube(noise, Lattice(p.x), Lattice(p.y), Lattice(p.z));
    r := PerlinTLerp(cube, p.x - p.x.Floor as real, p.y - p.y.Floor as real, p.z - p.z.Floor as real);
    SamplerAt(noise, p, r);
  }

  /** `smooth_noise` as a function of the sample point. */
  function Sampler(noise: Noise): Vec3 -> real
    requires noise.Valid()
  {
    q => SmoothNoiseValue(noise, q)
  }

  lemma SamplerAt(noise: Noise, q: Vec3, value: real)
    requires noise.Valid() && value == SmoothNoiseValue(noise, q)
    ensures Sampler(noise)(q) == value
  {
  }

  /** The sum `turbulence` accumulates over its first n layers for the noise
    * field `sample`: layer m has weight 0.5^m and samples the point scaled
    * by 2^m. */
  function TurbulenceSum(sample: Vec3 -> real, p: Vec3, n: nat): real
  {
    if n == 0 then 0.0
    else TurbulenceSum(sample, p, n - 1) + Pow(0.5, n - 1) * sample(Scale(p, Pow(2.0, n - 1)))
  }

  /** One round of the loop: the next layer is added, the weight halves
    * and the probe doubles. */
  lemma TurbulenceRound(sample: Vec3 -> real, p: Vec3, n: nat, acc: real, weight: real, probe: Vec3, value: real)
    requires acc == TurbulenceSum(sample, p, n)
    requires weight == Pow(0.5, n) && probe == Scale(p, Pow(2.0, n)) && value == sample(probe)
    ensures acc + weight * value == TurbulenceSum(sample, p, n + 1)
    ensures weight * 0.5 == Pow(0.5, n + 1)
    ensures Scale(probe, 2.0) == Scale(p, Pow(2.0, n + 1))
  {
    ScaleTwice(p, n);
  }

  /** Scaling by 2^n and then by 2 is scaling by 2^(n+1). */
  lemma ScaleTwice(p: Vec3, n: nat)
    ensures Scale(Scale(p, Pow(2.0, n)), 2.0) == Scale(p, Pow(2.0, n + 1))
  {
    var f := Pow(2.0, n);
    assert Pow(2.0, n + 1) == 2.0 * f;
    assert p.x * f * 2.0 == p.x * (2.0 * f);
    assert p.y * f * 2.0 == p.y * (2.0 * f);
    assert p.z * f * 2.0 == p.z * (2.0 * f);
  }

  /** `turbulence(p, depth)`: `depth` layers of noise of halving weight at
    * doubling frequency, then the absolute value. The generator's
    * `smooth_noise` is passed as the function `smooth` (for a generator
    * `noise`, `Sampler(noise)`). After n rounds the weight is 0.5^n and the
    * probe is p * 2^n. */
  method Turbulence(smooth: Vec3 -> real, p: Vec3, depth: nat) returns (r: real)
    ensures r == Abs(TurbulenceSum(smooth, p, depth))
    ensures r >= 0.0
    ensures depth == 0 ==> r == 0.0
  {
    var acc := 0.0;
    var weight := 1.0;
    var probe := p;
    for n := 0 to depth
      invariant acc == TurbulenceSum(smooth, p, n)
      invariant weight == Pow(0.5, n)
      invariant probe == Scale(p, Pow(2.0, n))
    {
      var layer := smooth(probe);
      TurbulenceRound(smooth, p, n, acc, weight, probe, layer);
      acc := acc + weight * layer;
      weight := weight * 0.5;
      probe := Scale(probe, 2.0);
    }
    r := Abs(acc);
  }
}

=== FILE: rays.dfy ===
/** The live engine's ray (ray_tracer/src/ray.rs): an origin and a direction,
  * stored as given. The ray of src/ray/ray.rs has the same fields,
  * constructor, accessors and `position_at`, so it is modelled by the same
  * datatype. */
module Rays {
  import opened Vectors

  /** The direction is documented as a unit vector, but `Ray::new` does not
    * normalise it: whatever the caller passes is kept. */
  datatype Ray = Ray(origin: Vec3, direction: Vec3)

  /** The point reached after travelling `t` along the direction. */
  function PositionAt(r: Ray, t: real): (p: Vec3)
    ensures Sub(p, r.origin) == Scale(r.direction, t)
  {
    Add(r.origin, Scale(r.direction, t))
  }

  lemma PositionAtZero(r: Ray)
    ensures PositionAt(r, 0.0) == r.origin
  {
  }

  /** Travelling s and then t is travelling s + t. */
  lemma PositionAtAffine(r: Ray, s: real, t: real)
    ensures PositionAt(r, s + t) == Add(PositionAt(r, s), Scale(r.direction, t))
  {
  }
}

=== FILE: renderer.dfy ===
/** The live engine's renderer (ray_tracer/src/renderer.rs).
  *
  * A ray's colour is found by recursion over bounces: the nearest element
  * the ray hits resolves its material, and the bounced ray is traced one
  * level deeper until the bounce budget is spent. `render_scene` averages
  * several jittered samples per pixel and writes them into an image.
  *
  * Operations the renderer uses but this model does not define are
  * parameters: a shape's collision routine, `Color + Color`, the camera's
  * `create_ray`, `Color::gamma_corrected` and the conversion to 8-bit
  * colour. The random draws of a sample are parameters too. */
module Renderer {
  import opened Wrappers
  import opened Numeric
  import opened Rays
  import opened Collisions
  import opened Images
  import opened Materials
  import opened Scenes

  /** Hits at or before this distance are ignored (self-intersection). */
  const MIN_INTERSECTION_T: real := 0.001

  datatype RayTracerConfig = RayTracerConfig(maxBounceDepth: nat, samples: nat, backgroundColor: Color)

  /** The default configuration: 3 bounces, 5 samples, a white background. */
  function DefaultConfig(): (c: RayTracerConfig)
    ensures c.maxBounceDepth == 3 && c.samples == 5 && c.backgroundColor == White()
  {
    RayTracerConfig(3, 5, Color(1.0, 1.0, 1.0))
  }

  datatype RayTracer = RayTracer(maxBounceDepth: nat, samples: nat, backgroundColor: Color)

  /** `RayTracer::new(config)` copies the three settings. */
  function NewRayTracer(config: RayTracerConfig): (t: RayTracer)
    ensures t.maxBounceDepth == config.maxBounceDepth
    ensures t.samples == config.samples
    ensures t.backgroundColor == config.backgroundColor
  {
    RayTracer(config.maxBounceDepth, config.samples, config.backgroundColor)
  }

  /** The operations a trace needs: the shapes' collision routine, the
    * materials' primitives and `Color + Color`. */
  datatype Engine<!S> = Engine(
    collide: (S, Ray) -> Option<CollisionRecord>,
    prims: Primitives,
    addColor: (Color, Color) -> Color)

  /** `Color + Color` adds channel by channel (the law the averaging
    * properties need). */
  ghost predicate IsChannelAdd(add: (Color, Color) -> Color)
  {
    forall a, b :: add(a, b) == Color(a.red + b.red, a.green + b.green, a.blue + b.blue)
  }

  predicate MaterialsValid<S>(objects: seq<Element<S>>)
  {
    forall k :: 0 <= k < |objects| ==> objects[k].material.Valid()
  }

  /** A hit counts when it lies strictly between the threshold and `bound`. */
  predicate Qualifies(h: Option<CollisionRecord>, bound: real)
  {
    h.Some? && MIN_INTERSECTION_T < h.value.t < bound
  }

  /** The position of the chosen element and its collision record. */
  datatype Nearest = Nearest(index: nat, record: CollisionRecord)

  /** The state of `compute_collision`'s scan after the first `n` elements:
    * the element with the smallest qualifying t, the earliest one on ties
    * (the update needs a strictly smaller t), none when nothing qualifies. */
  function ScanNearest<S>(objects: seq<Element<S>>, ray: Ray, collide: (S, Ray) -> Option<CollisionRecord>, n: nat): (best: Option<Nearest>)
    requires n <= |objects|
    ensures best.None? <==> forall j :: 0 <= j < n ==> !Qualifies(Collide(objects[j], ray, collide), F64_MAX)
    ensures best.Some? ==> best.value.index < n
                           && Collide(objects[best.value.index], ray, collide) == Some(best.value.record)
                           && MIN_INTERSECTION_T < best.value.record.t < F64_MAX
    ensures best.Some? ==> forall j :: 0 <= j < n && Qualifies(Collide(objects[j], ray, collide), F64_MAX)
                                       ==> best.value.record.t <= Collide(objects[j], ray, collide).value.t
    ensures best.Some? ==> forall j :: 0 <= j < best.value.index && Qualifies(Collide(objects[j], ray, collide), F64_MAX)
                                       ==> best.value.record.t < Collide(objects[j], ray, collide).value.t
  {
    if n == 0 then None
    else
      var previous := ScanNearest(objects, ray, collide, n - 1);
      var bound := if previous.Some? then previous.value.record.t else F64_MAX;
      var hit := Collide(objects[n - 1], ray, collide);
      if Qualifies(hit, bound) then Some(Nearest(n - 1, hit.value)) else previous
  }

  /** The result of `compute_collision`: the chosen element and record. */
  function NearestHit<S>(objects: seq<Element<S>>, ray: Ray, collide: (S, Ray) -> Option<CollisionRecord>): (r: Option<(Element<S>, CollisionRecord)>)
    ensures r.Some? ==> exists k :: 0 <= k < |objects| && objects[k] == r.value.0
    ensures r.Some? && MaterialsValid(objects) ==> r.value.0.material.Valid()
  {
    match ScanNearest(objects, ray, collide, |objects|)
    case None => None
    case Some(best) => Some((objects[best.index], best.record))
  }

  /** Hits at or below the threshold never win, whatever their distance. */
  lemma NearestIgnoresCloseHits<S>(objects: seq<Element<S>>, ray: Ray, collide: (S, Ray) -> Option<CollisionRecord>)
    requires forall j :: 0 <= j < |objects| ==> Collide(objects[j], ray, collide).None? || Collide(objects[j], ray, collide).value.t <= MIN_INTERSECTION_T
    ensures NearestHit(objects, ray, collide).None?
  {
  }

  /** `compute_collision`: scans the elements, keeping the record with the
    * smallest t above the threshold. */
  method ComputeCollision<S>(scene: Scene<S>, ray: Ray, collide: (S, Ray) -> Option<CollisionRecord>) returns (r: Option<(Element<S>, CollisionRecord)>)
    ensures r == NearestHit(scene.objects, ray, collide)
  {
    var cRecord: Option<CollisionRecord> := None;
    var cT := F64_MAX;
    var cElement: Option<Element<S>> := None;
    for i := 0 to |scene.objects|
      invariant ScanNearest(scene.objects, ray, collide, i).None?
                ==> cRecord.None? && cElement.None? && cT == F64_MAX
      invariant ScanNearest(scene.objects, ray, collide, i).Some?
                ==> var best := ScanNearest(scene.objects, ray, collide, i).value;
                    cRecord == Some(best.record) && cElement == Some(scene.objects[best.index]) && cT == best.record.t
    {
      var element := scene.objects[i];
      var hit := Collide(element, ray, collide);
      if hit.Some? {
        if MIN_INTERSECTION_T < hit.value.t && hit.value.t < cT {
          cT := hit.value.t;
          cRecord := hit;
          cElement := Some(element);
        }
      }
    }
    if cElement.None? {
      return None;
    }
    r := Some((cElement.value, cRecord.value));
  }

  /** `compute_collision_element`: the element of `compute_collision`. */
  method ComputeCollisionElement<S>(scene: Scene<S>, ray: Ray, collide: (S, Ray) -> Option<CollisionRecord>) returns (r: Option<Element<S>>)
    ensures r.None? <==> NearestHit(scene.objects, ray, collide).None?
    ensures r.Some? ==> r.value == NearestHit(scene.objects, ray, collide).value.0
  {
    var c := ComputeCollision(scene, ray, collide);
    match c
    case Some((element, _)) => r := Some(element);
    case None => r := None;
  }

  /** `compute_ray_color`: black once the bounce budget is spent, the
    * background on a miss, otherwise the emitted light plus the attenuation
    * times the colour of the bounced ray. `bounces(d)` are the random draws
    * of the bounce at depth d. */
  function ComputeRayColor<S>(tracer: RayTracer, objects: seq<Element<S>>, engine: Engine<S>, ray: Ray, depth: nat, bounces: nat -> BounceDraws): Color
    requires depth <= tracer.maxBounceDepth
    requires MaterialsValid(objects)
    decreases tracer.maxBounceDepth - depth
  {
    if depth == tracer.maxBounceDepth then Color(0.0, 0.0, 0.0)
    else
      match NearestHit(objects, ray, engine.collide)
      case None => tracer.backgroundColor
      case Some((element, record)) =>
        var result := Resolve(element.material, ray, record, bounces(depth), engine.prims);
        engine.addColor(result.emittedLight,
                        MulColor(result.color, ComputeRayColor(tracer, objects, engine, result.reflectedRay, depth + 1, bounces)))
  }

  /** The draw of bounce `depth + k`. */
  function DrawAt(bounces: nat -> BounceDraws, depth: nat, k: nat): BounceDraws
  {
    bounces(depth + k)
  }

  /** Two draw sequences agree from `depth` and `otherDepth` on. */
  ghost predicate SameDrawsFrom(bounces: nat -> BounceDraws, depth: nat, otherBounces: nat -> BounceDraws, otherDepth: nat)
  {
    forall k: nat :: DrawAt(otherBounces, otherDepth, k) == DrawAt(bounces, depth, k)
  }

  /** One bounce of `ComputeRayColor` after a hit. */
  lemma ColorAfterHit<S>(tracer: RayTracer, objects: seq<Element<S>>, engine: Engine<S>, ray: Ray, depth: nat,
                         bounces: nat -> BounceDraws, element: Element<S>, record: CollisionRecord)
    requires depth < tracer.maxBounceDepth && MaterialsValid(objects)
    requires NearestHit(objects, ray, engine.collide) == Some((element, record))
    ensures element.material.Valid()
    ensures var result := Resolve(element.material, ray, record, bounces(depth), engine.prims);
            ComputeRayColor(tracer, objects, engine, ray, depth, bounces)
            == engine.addColor(result.emittedLight,
                               MulColor(result.color, ComputeRayColor(tracer, objects, engine, result.reflectedRay, depth + 1, bounces)))
  {
  }

  /** The colour depends only on the bounces left: two traces of the same
    * ray with the same remaining budget and the same draws for the
    * remaining bounces give the same colour. */
  lemma {:induction false} SameBudgetSameColor<S>(tracer: RayTracer, objects: seq<Element<S>>, engine: Engine<S>, ray: Ray,
                                                  depth: nat, bounces: nat -> BounceDraws,
                                                  other: RayTracer, otherDepth: nat, otherBounces: nat -> BounceDraws)
    requires depth <= tracer.maxBounceDepth && otherDepth <= other.maxBounceDepth
    requires other == tracer.(maxBounceDepth := other.maxBounceDepth)
    requires tracer.maxBounceDepth - depth == other.maxBounceDepth - otherDepth
    requires SameDrawsFrom(bounces, depth, otherBounces, otherDepth)
    requires MaterialsValid(objects)
    ensures ComputeRayColor(tracer, objects, engine, ray, depth, bounces)
            == ComputeRayColor(other, objects, engine, ray, otherDepth, otherBounces)
    decreases tracer.maxBounceDepth - depth
  {
    if depth < tracer.maxBounceDepth {
      var draw := bounces(depth);
      assert otherBounces(otherDepth) == draw by {
        assert DrawAt(otherBounces, otherDepth, 0) == DrawAt(bounces, depth, 0);
      }
      match NearestHit(objects, ray, engine.collide)
      case None =>
      case Some((element, record)) =>
        ColorAfterHit(tracer, objects, engine, ray, depth, bounces, element, record);
        ColorAfterHit(other, objects, engine, ray, otherDepth, otherBounces, element, record);
        var result := Resolve(element.material, ray, record, draw, engine.prims);
        var next, otherNext := depth + 1, otherDepth + 1;
        forall k: nat
          ensures DrawAt(otherBounces, otherNext, k) == DrawAt(bounces, next, k)
        {
          assert DrawAt(otherBounces, otherDepth, k + 1) == DrawAt(bounces, depth, k + 1);
        }
        SameBudgetSameColor(tracer, objects, engine, result.reflectedRay, next, bounces, other, otherNext, otherBounces);
    }
  }

  /** Tracing from depth d with budget m is tracing from depth 0 with budget
    * m - d and the draws shifted by d. */
  lemma RemainingBudget<S>(tracer: RayTracer, objects: seq<Element<S>>, engine: Engine<S>, ray: Ray, depth: nat, bounces: nat -> BounceDraws)
    requires depth <= tracer.maxBounceDepth
    requires MaterialsValid(objects)
    ensures ComputeRayColor(tracer, objects, engine, ray, depth, bounces)
            == ComputeRayColor(tracer.(maxBounceDepth := tracer.maxBounceDepth - depth), objects, engine, ray, 0, (d: nat) => bounces(d + depth))
  {
    var later := (d: nat) => bounces(d + depth);
    forall k: nat
      ensures DrawAt(later, 0, k) == DrawAt(bounces, depth, k)
    {
    }
    SameBudgetSameColor(tracer, objects, engine, ray, depth, bounces,
                        tracer.(maxBounceDepth := tracer.maxBounceDepth - depth), 0, later);
  }

  /** A budget of 0 makes every top-level trace black. */
  lemma NoBudgetIsBlack<S>(tracer: RayTracer, objects: seq<Element<S>>, engine: Engine<S>, ray: Ray, bounces: nat -> BounceDraws)
    requires tracer.maxBounceDepth == 0
    requires MaterialsValid(objects)
    ensures ComputeRayColor(tracer, objects, engine, ray, 0, bounces) == Black()
  {
  }

  /** With one bounce the trace sees only light sources: the emitted light
    * of the nearest element, or the background on a miss. */
  lemma OneBounceSeesEmission<S>(tracer: RayTracer, objects: seq<Element<S>>, engine: Engine<S>, ray: Ray, bounces: nat -> BounceDraws)
    requires tracer.maxBounceDepth == 1
    requires MaterialsValid(objects)
    requires IsChannelAdd(engine.addColor)
    ensures NearestHit(objects, ray, engine.collide).None?
            ==> ComputeRayColor(tracer, objects, engine, ray, 0, bounces) == tracer.backgroundColor
    ensures NearestHit(objects, ray, engine.collide).Some?
            ==> var (element, record) := NearestHit(objects, ray, engine.collide).value;
                ComputeRayColor(tracer, objects, engine, ray, 0, bounces)
                == Resolve(element.material, ray, record, bounces(0), engine.prims).emittedLight
  {
    match NearestHit(objects, ray, engine.collide)
    case None =>
    case Some((element, record)) =>
      var result := Resolve(element.material, ray, record, bounces(0), engine.prims);
      MulColorUnits(result.color);
  }

  /** Without light sources and against a black background every trace is
    * black, however many bounces it takes. */
  lemma {:induction false} DarkSceneIsBlack<S>(tracer: RayTracer, objects: seq<Element<S>>, engine: Engine<S>, ray: Ray, depth: nat, bounces: nat -> BounceDraws)
    requires depth <= tracer.maxBounceDepth
    requires MaterialsValid(objects)
    requires forall k :: 0 <= k < |objects| ==> !objects[k].material.DiffuseLight?
    requires tracer.backgroundColor == Black()
    requires IsChannelAdd(engine.addColor)
    ensures ComputeRayColor(tracer, objects, engine, ray, depth, bounces) == Black()
    decreases tracer.maxBounceDepth - depth
  {
    if depth < tracer.maxBounceDepth {
      match NearestHit(objects, ray, engine.collide)
      case None =>
      case Some((element, record)) =>
        var result := Resolve(element.material, ray, record, bounces(depth), engine.prims);
        OnlyLightsEmit(element.material, ray, record, bounces(depth), engine.prims);
        DarkSceneIsBlack(tracer, objects, engine, result.reflectedRay, depth + 1, bounces);
        MulColorUnits(result.color);
    }
  }

  /** The random draws of one sample: the jitter within the pixel and the
    * draws of each bounce. */
  datatype SampleDraws = SampleDraws(rowJitter: real, colJitter: real, bounces: nat -> BounceDraws)

  /** Everything `render_scene` reads: the tracer, the scene's elements, the
    * trace operations, the camera's `create_ray`, `gamma_corrected`, the
    * frame size and `draws(i, s)`, the draws of sample s of pixel i. */
  datatype RenderJob<!S> = RenderJob(
    tracer: RayTracer,
    objects: seq<Element<S>>,
    engine: Engine<S>,
    createRay: (real, real) -> Ray,
    gammaCorrected: Color -> Color,
    width: nat,
    height: nat,
    draws: (nat, nat) -> SampleDraws)
  {
    /** Materials are valid, and the frame's width and height are `u32`
      * values. */
    predicate Valid()
    {
      && MaterialsValid(objects)
      && width < U32_LIMIT && height < U32_LIMIT
    }

    /** The per-pixel closure divides by zero: by `width − 1` or
      * `height − 1` in a sample's world coordinates, or by the sample count
      * in the average. */
    predicate DividesByZero()
    {
      width == 1 || height == 1 || tracer.samples == 0
    }
  }

  /** Pixel i lies in row i / width and column i % width, inside the grid. */
  lemma PixelOfIndex(i: nat, width: nat, height: nat)
    requires i < width * height
    ensures width > 0
    ensures i / width < height && i % width < width
    ensures (i / width) * width + i % width == i
  {
    GridCellOfIndex(i, width, height);
  }

  /** The row of pixel i, `i / width`. */
  function RowOf(i: nat, width: nat, height: nat): (row: nat)
    requires i < width * height
    ensures row < height
  {
    PixelOfIndex(i, width, height);
    i / width
  }

  /** The column of pixel i, `i % width`. */
  function ColOf(i: nat, width: nat, height: nat): (col: nat)
    requires i < width * height
    ensures col < width
  {
    PixelOfIndex(i, width, height);
    i % width
  }

  /** Row r, column c is pixel r * width + c: the index map is onto the grid
    * and one-to-one. */
  lemma IndexOfPixel(row: nat, col: nat, width: nat, height: nat)
    requires row < height && col < width
    ensures row * width + col < width * height
    ensures (row * width + col) / width == row && (row * width + col) % width == col
  {
    GridIndexBound(row, col, width, height);
    DivModUnique(row * width + col, width, row, col);
  }

  /** The index of the pixel at row r, column c: r · width + c. */
  function PixelAt(row: nat, col: nat, width: nat, height: nat): (i: nat)
    requires row < height && col < width
    ensures i < width * height
    ensures RowOf(i, width, height) == row && ColOf(i, width, height) == col
  {
    IndexOfPixel(row, col, width, height);
    row * width + col
  }

  /** The colour of sample s of pixel i: jitter the pixel, map it to world
    * coordinates in [0, 1] and trace the camera ray from depth 0. */
  function SampleColor<S>(job: RenderJob<S>, i: nat, s: nat): Color
    requires job.Valid() && !job.DividesByZero() && i < job.width * job.height
  {
    ComputeRayColor(job.tracer, job.objects, job.engine, SampleRay(job, i, s), 0, job.draws(i, s).bounces)
  }

  /** The camera ray of sample s of pixel i, through the jittered world
    * coordinates of the pixel. */
  function SampleRay<S>(job: RenderJob<S>, i: nat, s: nat): Ray
    requires job.Valid() && !job.DividesByZero() && i < job.width * job.height
  {
    PixelOfIndex(i, job.width, job.height);
    var d := job.draws(i, s);
    var worldX := (((i % job.width) as real) + d.colJitter) / ((job.width - 1) as real);
    var worldY := (((i / job.width) as real) + d.rowJitter) / ((job.height - 1) as real);
    job.createRay(worldX, worldY)
  }

  /** The colours of the samples of pixel i, by sample number. */
  function PixelSamples<S>(job: RenderJob<S>, i: nat): (samples: nat -> Color)
    requires job.Valid() && !job.DividesByZero() && i < job.width * job.height
    ensures forall s :: samples(s) == SampleColor(job, i, s)
  {
    (s: nat) => SampleColor(job, i, s)
  }

  /** The accumulated colour `acc += sample` after the first n samples. */
  function SumColors(add: (Color, Color) -> Color, samples: nat -> Color, n: nat): Color
  {
    if n == 0 then Color(0.0, 0.0, 0.0) else add(SumColors(add, samples, n - 1), samples(n - 1))
  }

  /** Each channel of the accumulated colour divided by the sample count. */
  function Average(acc: Color, n: nat): Color
    requires n >= 1
  {
    Color(acc.red / n as real, acc.green / n as real, acc.blue / n as real)
  }

  /** The final colour of pixel i: the average of its samples, gamma
    * corrected. */
  function PixelColor<S>(job: RenderJob<S>, i: nat): Color
    requires job.Valid() && !job.DividesByZero() && i < job.width * job.height
  {
    var acc := SumColors(job.engine.addColor, PixelSamples(job, i), job.tracer.samples);
    job.gammaCorrected(Average(acc, job.tracer.samples))
  }

  /** x added to itself n times. */
  function Repeat(n: nat, x: real): real
  {
    if n == 0 then 0.0 else Repeat(n - 1, x) + x
  }

  /** Adding x to itself n times and dividing by n gives x back. */
  lemma RepeatAverage(n: nat, x: real)
    requires n >= 1
    ensures Repeat(n, x) / (n as real) == x
  {
    RepeatIsProduct(n, x);
  }

  lemma {:induction false} RepeatIsProduct(n: nat, x: real)
    ensures Repeat(n, x) == (n as real) * x
  {
    if n > 0 {
      RepeatIsProduct(n - 1, x);
      assert ((n - 1) as real) * x + x == (n as real) * x;
    }
  }

  /** Under channel-wise addition the sum of n samples of one colour c is c
    * added to itself n times in every channel. */
  lemma {:induction false} SumColorsUniform(add: (Color, Color) -> Color, samples: nat -> Color, n: nat, c: Color)
    requires IsChannelAdd(add)
    requires forall s :: 0 <= s < n ==> samples(s) == c
    ensures SumColors(add, samples, n) == Color(Repeat(n, c.red), Repeat(n, c.green), Repeat(n, c.blue))
  {
    if n > 0 {
      SumColorsUniform(add, samples, n - 1, c);
    }
  }

  /** Averaging is exact: when every sample of a pixel has colour c, the
    * pixel is c, gamma corrected. */
  lemma AverageOfUniformSamples<S>(job: RenderJob<S>, i: nat, c: Color)
    requires job.Valid() && !job.DividesByZero() && i < job.width * job.height
    requires IsChannelAdd(job.engine.addColor)
    requires forall s :: 0 <= s < job.tracer.samples ==> SampleColor(job, i, s) == c
    ensures PixelColor(job, i) == job.gammaCorrected(c)
  {
    var n := job.tracer.samples;
    SumColorsUniform(job.engine.addColor, PixelSamples(job, i), n, c);
    RepeatAverage(n, c.red);
    RepeatAverage(n, c.green);
    RepeatAverage(n, c.blue);
  }

  /** The camera ray through the jittered world coordinates of sample s is
    * that sample's ray. */
  lemma SampleRayFrom<S>(job: RenderJob<S>, i: nat, s: nat, worldX: real, worldY: real)
    requires job.Valid() && !job.DividesByZero() && i < job.width * job.height
    requires worldX == (((i % job.width) as real) + job.draws(i, s).colJitter) / ((job.width - 1) as real)
    requires worldY == (((i / job.width) as real) + job.draws(i, s).rowJitter) / ((job.height - 1) as real)
    ensures SampleRay(job, i, s) == job.createRay(worldX, worldY)
  {
  }

  /** Adding sample s to the sum of the samples before it gives the sum of
    * the first s + 1 samples. */
  lemma SumColorsStep<S>(job: RenderJob<S>, i: nat, s: nat)
    requires job.Valid() && !job.DividesByZero() && i < job.width * job.height
    ensures job.engine.addColor(SumColors(job.engine.addColor, PixelSamples(job, i), s), SampleColor(job, i, s))
            == SumColors(job.engine.addColor, PixelSamples(job, i), s + 1)
  {
  }

  /** One turn of the sample loop of `render_scene`: jitter pixel i, map it
    * to world coordinates and trace the camera ray. */
  method TraceSample<S>(job: RenderJob<S>, i: nat, s: nat) returns (color: Color)
    requires job.Valid() && !job.DividesByZero() && i < job.width * job.height
    ensures color == PixelSamples(job, i)(s)
  {
    PixelOfIndex(i, job.width, job.height);
    var row := i / job.width;
    var col := i % job.width;
    var d := job.draws(i, s);
    var worldX := ((col as real) + d.colJitter) / ((job.width - 1) as real);
    var worldY := ((row as real) + d.rowJitter) / ((job.height - 1) as real);
    var ray := job.createRay(worldX, worldY);
    color := ComputeRayColor(job.tracer, job.objects, job.engine, ray, 0, d.bounces);
    SampleRayFrom(job, i, s, worldX, worldY);
  }

  /** The per-pixel closure of `render_scene`: trace every sample of pixel
    * i, accumulate, average and gamma correct. With a width or height of 1
    * every sample's world coordinate divides by zero, and with no samples
    * the average does. */
  method ShadePixel<S>(job: RenderJob<S>, i: nat) returns (normalized: FloatOutcome<Color>)
    requires job.Valid() && i < job.width * job.height
    ensures normalized.DividedByZero? <==> job.DividesByZero()
    ensures normalized.Finite? ==> normalized.value == PixelColor(job, i)
  {
    if job.DividesByZero() {
      // the world coordinates divide by `width - 1` or `height - 1`, the
      // average by the sample count
      return DividedByZero;
    }
    var acc := Color(0.0, 0.0, 0.0);
    for s := 0 to job.tracer.samples
      invariant acc == SumColors(job.engine.addColor, PixelSamples(job, i), s)
    {
      var color := TraceSample(job, i, s);
      SumColorsStep(job, i, s);
      acc := job.engine.addColor(acc, color);
    }
    var n := job.tracer.samples as real;
    normalized := Finite(job.gammaCorrected(Color(acc.red / n, acc.green / n, acc.blue / n)));
  }

  /** Distinct pixel indices lie in distinct cells. */
  lemma DistinctPixels(k: nat, i: nat, width: nat, height: nat)
    requires k < i < width * height
    ensures ColOf(k, width, height) != ColOf(i, width, height) || RowOf(k, width, height) != RowOf(i, width, height)
  {
    PixelOfIndex(k, width, height);
    PixelOfIndex(i, width, height);
  }

  /** The write-back loop of `render_scene`: pixel i goes to
    * `set_color(i / width, i % width, ..)`, that is to
    * `buffer[i % width][i / width]`, in an image whose buffer has `width`
    * rows of `height` cells. Distinct indices land in distinct cells, so
    * every pixel is written exactly once and none overwrites another. */
  method WritePixels<P>(image: Image<P>, colors: seq<Color>, toU8: Color -> P, width: nat, height: nat)
    requires image.Valid() && image.width == height && image.height == width
    requires |colors| == width * height
    modifies image
    ensures image.Valid() && image.width == height && image.height == width
    ensures forall k :: 0 <= k < |colors| ==> image.buffer[ColOf(k, width, height)][RowOf(k, width, height)] == toU8(colors[k])
  {
    var i := 0;
    while i < |colors|
      invariant 0 <= i <= |colors|
      invariant image.Valid() && image.width == height && image.height == width
      invariant forall k :: 0 <= k < i ==> image.buffer[ColOf(k, width, height)][RowOf(k, width, height)] == toU8(colors[k])
    {
      var row := RowOf(i, width, height);
      var col := ColOf(i, width, height);
      ghost var before := image.buffer;
      var _ := image.SetColor(row, col, toU8(colors[i]));
      assert image.buffer == before[col := before[col][row := toU8(colors[i])]];
      forall k | 0 <= k < i
        ensures image.buffer[ColOf(k, width, height)][RowOf(k, width, height)] == toU8(colors[k])
      {
        DistinctPixels(k, i, width, height);
      }
      i := i + 1;
    }
  }

  /** The `map(..).collect_into_vec(&mut colors)` step of `render_scene`:
    * entry i of the result is the colour of pixel i. When the closure
    * divides by zero it does so for every pixel, and the model stops at the
    * first. */
  method ShadeAll<S>(job: RenderJob<S>) returns (colors: FloatOutcome<seq<Color>>)
    requires job.Valid()
    ensures colors.DividedByZero? <==> job.width * job.height > 0 && job.DividesByZero()
    ensures colors.Finite? ==> |colors.value| == job.width * job.height
    ensures colors.Finite? ==> forall k :: 0 <= k < |colors.value| ==> colors.value[k] == PixelColor(job, k)
  {
    var pixels := job.width * job.height;
    var shaded := [];
    var i := 0;
    while i < pixels
      invariant 0 <= i <= pixels && |shaded| == i
      invariant i > 0 ==> !job.DividesByZero()
      invariant forall k :: 0 <= k < i ==> shaded[k] == PixelColor(job, k)
    {
      var normalized := ShadePixel(job, i);
      if normalized.DividedByZero? {
        return DividedByZero;
      }
      shaded := shaded + [normalized.value];
      i := i + 1;
    }
    colors := Finite(shaded);
  }

  /** `render_scene`: makes the image with `Image::new(height, width)`,
    * computes `width * height` in `u32`, which panics on overflow, computes
    * the colour of every pixel index, then writes pixel i = (row, col) with
    * `set_color(row, col, ..)`. With the arguments in that order the
    * image's `width` field holds the frame height and its buffer has one
    * row per frame column, so pixel (row, col) lands in `buffer[col][row]`:
    * every write is in bounds and the picture is stored transposed. */
  method RenderScene<S, P>(job: RenderJob<S>, toU8: Color -> P, blank: P) returns (r: Outcome<FloatOutcome<Image<P>>>)
    requires job.Valid()
    ensures r.Panic? <==> job.width * job.height >= U32_LIMIT
    ensures r.Ok? ==> (r.value.DividedByZero? <==> job.width * job.height > 0 && job.DividesByZero())
    ensures r.Ok? && r.value.Finite? ==> fresh(r.value.value) && r.value.value.Valid()
    ensures r.Ok? && r.value.Finite? ==> r.value.value.width == job.height && r.value.value.height == job.width
    ensures r.Ok? && r.value.Finite? ==>
              forall row, col :: 0 <= row < job.height && 0 <= col < job.width
                ==> r.value.value.buffer[col][row] == toU8(PixelColor(job, PixelAt(row, col, job.width, job.height)))
  {
    var image := new Image(job.height, job.width, blank);
    if job.width * job.height >= U32_LIMIT {
      return Panic("attempt to multiply with overflow");
    }
    var colors := ShadeAll(job);
    if colors.DividedByZero? {
      return Ok(DividedByZero);
    }
    WritePixels(image, colors.value, toU8, job.width, job.height);
    forall row, col | 0 <= row < job.height && 0 <= col < job.width
      ensures image.buffer[col][row] == toU8(PixelColor(job, PixelAt(row, col, job.width, job.height)))
    {
      var k := PixelAt(row, col, job.width, job.height);
      assert image.buffer[ColOf(k, job.width, job.height)][RowOf(k, job.width, job.height)] == toU8(colors.value[k]);
    }
    r := Ok(Finite(image));
  }
}

=== FILE: scene.dfy ===
/** Scene elements and the element list (ray_tracer/src/scene.rs).
  *
  * The shape type of an element is not part of this model (the shape union
  * the scene stores is not among the files modelled here), so `Element` is
  * generic in its shape and `collide` receives the shape's collision
  * routine as a parameter. Element ids are `u64` values, modelled as `nat`. */
module Scenes {
  import opened Wrappers
  import opened Rays
  import opened Collisions
  import opened Materials

  datatype Element<S> = Element(id: nat, material: MaterialType, shape: S)

  /** `Element::set_material`: the material is replaced; the id and the
    * shape are kept. */
  function SetMaterial<S>(e: Element<S>, material: MaterialType): (r: Element<S>)
    ensures r.material == material
    ensures r.id == e.id && r.shape == e.shape
  {
    e.(material := material)
  }

  /** `Element::collide`: the element collides exactly as its shape does. */
  function Collide<S>(e: Element<S>, ray: Ray, collideShape: (S, Ray) -> Option<CollisionRecord>): Option<CollisionRecord>
  {
    collideShape(e.shape, ray)
  }

  /** An element collides as its shape does, whatever its material: changing
    * the material does not change what a ray hits. */
  lemma CollideIsShapeCollide<S>(e: Element<S>, material: MaterialType, ray: Ray, collideShape: (S, Ray) -> Option<CollisionRecord>)
    ensures Collide(e, ray, collideShape) == collideShape(e.shape, ray)
    ensures Collide(SetMaterial(e, material), ray, collideShape) == Collide(e, ray, collideShape)
  {
  }

  /** `objects.retain(|e| e.id != id)`: the elements whose id differs, in
    * their original order. */
  function Retain<S>(objects: seq<Element<S>>, id: nat): (r: seq<Element<S>>)
    ensures |r| <= |objects|
  {
    if |objects| == 0 then []
    else Retain(objects[..|objects| - 1], id) + (if objects[|objects| - 1].id != id then [objects[|objects| - 1]] else [])
  }

  /** The retained elements all come from the list and none has the
    * removed id. */
  lemma {:induction false} RetainSubset<S>(objects: seq<Element<S>>, id: nat)
    ensures forall e :: e in Retain(objects, id) ==> e in objects && e.id != id
  {
    if |objects| > 0 {
      var init := objects[..|objects| - 1];
      RetainSubset(init, id);
      forall e | e in init
        ensures e in objects
      {
        var k :| 0 <= k < |init| && init[k] == e;
        assert objects[k] == e;
      }
    }
  }

  /** Retaining distributes over concatenation, so the kept elements keep
    * their relative order. */
  lemma {:induction false} RetainAppend<S>(a: seq<Element<S>>, b: seq<Element<S>>, id: nat)
    ensures Retain(a + b, id) == Retain(a, id) + Retain(b, id)
    decreases |b|
  {
    if |b| == 0 {
      assert a + b == a;
    } else {
      var last := |b| - 1;
      var ab, init := a + b, b[..last];
      var tail := if b[last].id != id then [b[last]] else [];
      assert ab[..|ab| - 1] == a + init;
      assert ab[|ab| - 1] == b[last];
      RetainAppend(a, init, id);
      assert Retain(ab, id) == (Retain(a, id) + Retain(init, id)) + tail;
      assert Retain(b, id) == Retain(init, id) + tail;
      assert (Retain(a, id) + Retain(init, id)) + tail == Retain(a, id) + (Retain(init, id) + tail);
    }
  }

  /** Every element with a different id survives. */
  lemma {:induction false} RetainKeepsOthers<S>(objects: seq<Element<S>>, id: nat, e: Element<S>)
    requires e in objects && e.id != id
    ensures e in Retain(objects, id)
  {
    var last := |objects| - 1;
    if objects[last] != e {
      assert e in objects[..last] by {
        var k :| 0 <= k < |objects| && objects[k] == e;
        assert k < last && objects[..last][k] == e;
      }
      RetainKeepsOthers(objects[..last], id, e);
    }
  }

  /** Removing an id that no element has changes nothing. */
  lemma {:induction false} RetainAbsent<S>(objects: seq<Element<S>>, id: nat)
    requires forall k :: 0 <= k < |objects| ==> objects[k].id != id
    ensures Retain(objects, id) == objects
  {
    if |objects| > 0 {
      RetainAbsent(objects[..|objects| - 1], id);
      assert objects[..|objects| - 1] + [objects[|objects| - 1]] == objects;
    }
  }

  /** Removing twice is removing once. */
  lemma RetainIdempotent<S>(objects: seq<Element<S>>, id: nat)
    ensures Retain(Retain(objects, id), id) == Retain(objects, id)
  {
    var r := Retain(objects, id);
    RetainSubset(objects, id);
    forall k | 0 <= k < |r|
      ensures r[k].id != id
    {
      assert r[k] in r;
    }
    RetainAbsent(r, id);
  }

  /** The position of the first element with the given id, if any. */
  function FindFirst<S>(objects: seq<Element<S>>, id: nat): (r: Option<nat>)
    ensures r.None? <==> forall k :: 0 <= k < |objects| ==> objects[k].id != id
    ensures r.Some? ==> r.value < |objects| && objects[r.value].id == id
    ensures r.Some? ==> forall k :: 0 <= k < r.value ==> objects[k].id != id
  {
    if |objects| == 0 then None
    else if objects[0].id == id then Some(0)
    else
      var rest := FindFirst(objects[1..], id);
      assert forall k :: 1 <= k < |objects| ==> objects[k] == objects[1..][k - 1];
      if rest.None? then None else Some(rest.value + 1)
  }

  class Scene<S> {
    var objects: seq<Element<S>>

    constructor (objects: seq<Element<S>>)
      ensures this.objects == objects
    {
      this.objects := objects;
    }

    /** `remove(id)`: drops every element with that id and keeps the rest in
      * order. */
    method Remove(id: nat)
      modifies this
      ensures objects == Retain(old(objects), id)
      ensures forall k :: 0 <= k < |objects| ==> objects[k].id != id
    {
      var kept: seq<Element<S>> := [];
      var i := 0;
      while i < |objects|
        invariant 0 <= i <= |objects|
        invariant kept == Retain(objects[..i], id)
      {
        assert objects[..i + 1][..i] == objects[..i];
        if objects[i].id != id {
          kept := kept + [objects[i]];
        }
        i := i + 1;
      }
      assert objects[..i] == objects;
      RetainSubset(objects, id);
      objects := kept;
      forall k | 0 <= k < |objects|
        ensures objects[k].id != id
      {
        assert objects[k] in kept;
      }
    }

    /** `get_element(id)`: the first element with that id; panics with
      * "ElementId not found" when there is none. */
    function GetElement(id: nat): (r: Outcome<Element<S>>)
      reads this
      ensures r.Panic? <==> forall k :: 0 <= k < |objects| ==> objects[k].id != id
      ensures r.Panic? ==> r.message == "ElementId not found"
      ensures r.Ok? ==> exists k :: 0 <= k < |objects| && objects[k] == r.value
                                      && forall j :: 0 <= j < k ==> objects[j].id != id
      ensures r.Ok? ==> r.value.id == id
    {
      match FindFirst(objects, id)
      case None => Panic("ElementId not found")
      case Some(k) => Ok(objects[k])
    }

    /** `get_element_mut(id)` followed by an update of the element it hands
      * out (such as `set_material`): only the first element with that id
      * changes; without one the call panics and nothing changes. */
    method UpdateElement(id: nat, update: Element<S> -> Element<S>) returns (r: Outcome<()>)
      modifies this
      ensures r.Panic? <==> forall k :: 0 <= k < |old(objects)| ==> old(objects)[k].id != id
      ensures r.Panic? ==> r.message == "ElementId not found" && objects == old(objects)
      ensures r.Ok? ==> FindFirst(old(objects), id).Some?
                        && objects == old(objects)[FindFirst(old(objects), id).value := update(old(objects)[FindFirst(old(objects), id).value])]
    {
      var found := FindFirst(objects, id);
      if found.None? {
        return Panic("ElementId not found");
      }
      objects := objects[found.value := update(objects[found.value])];
      r := Ok(());
    }

    /** `get_element_mut(id).set_material(material)`. */
    method SetMaterialOf(id: nat, material: MaterialType) returns (r: Outcome<()>)
      modifies this
      ensures r.Panic? <==> forall k :: 0 <= k < |old(objects)| ==> old(objects)[k].id != id
      ensures r.Panic? ==> objects == old(objects)
      ensures r.Ok? ==> exists k :: 0 <= k < |objects| && |objects| == |old(objects)|
                                    && objects == old(objects)[k := SetMaterial(old(objects)[k], material)]
                                    && old(objects)[k].id == id
                                    && forall j :: 0 <= j < k ==> old(objects)[j].id != id
    {
      r := UpdateElement(id, e => SetMaterial(e, material));
    }
  }
}

=== FILE: shapes.dfy ===
/** Spheres and axis-aligned boxes of the live engine
  * (ray_tracer/src/shape.rs, ray_tracer/src/aabb.rs). */
module Shapes {
  import opened Wrappers
  import opened Numeric
  import opened Vectors

  /** A texture coordinate pair. */
  datatype UV = UV(u: real, v: real)

  datatype Aabb = Aabb(minimum: Vec3, maximum: Vec3)

  datatype Sphere = Sphere(center: Vec3, radius: real)

  /** `Boundable::bound`: the centre offset by the radius on every axis. */
  function Bound(s: Sphere): (b: Aabb)
    ensures Add(b.minimum, b.maximum) == Scale(s.center, 2.0)
    ensures Sub(b.maximum, b.minimum) == Scale(Ones(), 2.0 * s.radius)
  {
    Aabb(Sub(s.center, Scale(Ones(), s.radius)), Add(s.center, Scale(Ones(), s.radius)))
  }

  /** Componentwise `a <= b`. */
  predicate LessEq(a: Vec3, b: Vec3)
  {
    a.x <= b.x && a.y <= b.y && a.z <= b.z
  }

  /** For a non-negative radius the box is well formed and holds the centre. */
  lemma BoundHoldsCenter(s: Sphere)
    requires s.radius >= 0.0
    ensures LessEq(Bound(s).minimum, s.center) && LessEq(s.center, Bound(s).maximum)
    ensures LessEq(Bound(s).minimum, Bound(s).maximum)
  {
  }

  /** `surface_normal(p)` = `(p - center).normalize()`. */
  function SurfaceNormal(s: Sphere, p: Vec3, sqrt: real -> real): (r: Outcome<Vec3>)
    ensures r.Ok? ==> Scale(r.value, Length(Sub(p, s.center), sqrt)) == Sub(p, s.center)
  {
    Normalized(Sub(p, s.center), sqrt)
  }

  /** With a square root that is zero at zero, the normal at the centre
    * itself panics (division by a zero length). */
  lemma SurfaceNormalAtCenter(s: Sphere, sqrt: real -> real)
    requires IsSqrt(sqrt)
    ensures SurfaceNormal(s, s.center, sqrt).Panic?
  {
    NormalizedPanics(Sub(s.center, s.center), sqrt);
  }
}

=== FILE: textures.dfy ===
/** Textures of the live engine (ray_tracer/src/texture.rs).
  *
  * A texture gives the colour of a surface at a texture coordinate and a
  * point. `sin` is a parameter: the model assumes of it only what a property
  * states (`IsSine`: values in [-1, 1]). The Perlin texture's scale and
  * channel arithmetic are `f32` in the source and `real` here. */
module Textures {
  import opened Numeric
  import opened Vectors
  import opened Shapes
  import opened Images
  import opened Perlin

  /** Alternates between `odd` and `even` in 3-D space. */
  datatype CheckeredTexture = CheckeredTexture(odd: Color, even: Color)

  datatype SolidTexture = SolidTexture(color: Color)

  /** A Perlin texture owns its noise generator. */
  datatype PerlinTexture = PerlinTexture(scale: real, noise: Noise)

  /** `TextureType`: the serialisable union of the three textures. */
  datatype TextureType =
    | Checkered(checkered: CheckeredTexture)
    | SolidColor(solid: SolidTexture)
    | PerlinNoise(perlin: PerlinTexture)
  {
    /** A Perlin texture's generator holds permutation tables. */
    predicate Valid()
    {
      PerlinNoise? ==> perlin.noise.Valid()
    }
  }

  /** The product of the three sines that decides the checker cell. */
  function Sines(p: Vec3, sin: real -> real): real
  {
    sin(10.0 * p.x) * sin(10.0 * p.y) * sin(10.0 * p.z)
  }

  /** `CheckeredTexture::value`: `odd` where the sine product is negative,
    * `even` elsewhere; the texture coordinate is not used. */
  function CheckeredValue(tx: CheckeredTexture, uv: UV, p: Vec3, sin: real -> real): (c: Color)
    ensures c == tx.odd || c == tx.even
    ensures Sines(p, sin) < 0.0 ==> c == tx.odd
    ensures Sines(p, sin) >= 0.0 ==> c == tx.even
  {
    if Sines(p, sin) < 0.0 then tx.odd else tx.even
  }

  /** The checkerboard depends on the point only: two texture coordinates
    * give the same colour. */
  lemma CheckeredIgnoresUV(tx: CheckeredTexture, uv1: UV, uv2: UV, p: Vec3, sin: real -> real)
    ensures CheckeredValue(tx, uv1, p, sin) == CheckeredValue(tx, uv2, p, sin)
  {
  }

  /** `SolidTexture::value`: the stored colour at every coordinate and point. */
  function SolidValue(tx: SolidTexture, uv: UV, p: Vec3): (c: Color)
  {
    tx.color
  }

  /** A solid texture gives the same colour at any two coordinates and
    * points. */
  lemma SolidConstant(tx: SolidTexture, uv1: UV, p1: Vec3, uv2: UV, p2: Vec3)
    ensures SolidValue(tx, uv1, p1) == SolidValue(tx, uv2, p2) == tx.color
  {
  }

  /** The channel remap of the Perlin texture, `0.5 * (1 + sin(scale * z +
    * 10 * noise))`: in [0, 1] for a sine bounded by 1. */
  function Remap(scale: real, p: Vec3, noiseValue: real, sin: real -> real): (ch: real)
    ensures IsSine(sin) ==> 0.0 <= ch <= 1.0
  {
    assert IsSine(sin) ==> -1.0 <= sin(scale * p.z + 10.0 * noiseValue) <= 1.0;
    0.5 * (1.0 + sin(scale * p.z + 10.0 * noiseValue))
  }

  /** The turbulence depth the Perlin texture uses. */
  const PERLIN_DEPTH: nat := 7

  /** `PerlinTexture::value`: the same remapped turbulence in all three
    * channels, so the colour is a grey in [0, 1]. */
  function PerlinValue(tx: PerlinTexture, uv: UV, p: Vec3, sin: real -> real): (c: Color)
    requires tx.noise.Valid()
    ensures c.red == c.green == c.blue
    ensures IsSine(sin) ==> 0.0 <= c.red <= 1.0
  {
    var turbulence := Abs(TurbulenceSum(Sampler(tx.noise), p, PERLIN_DEPTH));
    Color(Remap(tx.scale, p, turbulence, sin), Remap(tx.scale, p, turbulence, sin), Remap(tx.scale, p, turbulence, sin))
  }

  /** `TextureType::value`: the wrapped texture's value. */
  function Value(t: TextureType, uv: UV, p: Vec3, sin: real -> real): (c: Color)
    requires t.Valid()
    ensures t.Checkered? ==> c == CheckeredValue(t.checkered, uv, p, sin)
    ensures t.SolidColor? ==> c == t.solid.color
    ensures t.PerlinNoise? ==> c == PerlinValue(t.perlin, uv, p, sin)
  {
    match t
    case Checkered(tx) => CheckeredValue(tx, uv, p, sin)
    case SolidColor(tx) => SolidValue(tx, uv, p)
    case PerlinNoise(tx) => PerlinValue(tx, uv, p, sin)
  }

  /** `TextureType::from(color)`: a solid texture, whose value is that colour
    * everywhere. */
  function FromColor(color: Color): (t: TextureType)
    ensures t.Valid()
    ensures forall uv: UV, p: Vec3, sin: real -> real {:trigger Value(t, uv, p, sin)} :: Value(t, uv, p, sin) == color
  {
    SolidColor(SolidTexture(color))
  }

  /** `PerlinTexture::new_scaled(scale)`, given the freshly built generator. */
  function NewScaled(scale: real, noise: Noise): (tx: PerlinTexture)
    ensures tx.scale == scale && tx.noise == noise
  {
    PerlinTexture(scale, noise)
  }

  /** `PerlinTexture::new()`: scale 1. */
  function NewPerlin(noise: Noise): (tx: PerlinTexture)
    ensures tx.scale == 1.0 && tx.noise == noise
  {
    NewScaled(1.0, noise)
  }

  /** Deserialisation keeps only the stored scale and rebuilds the texture
    * through `new_scaled` with a new generator. */
  function FromDeserialized(storedScale: real, noise: Noise): (tx: PerlinTexture)
    ensures tx.scale == storedScale && tx.noise == noise
  {
    NewScaled(storedScale, noise)
  }
}

=== FILE: utils.dfy ===
/** Sampling and interpolation helpers of the live engine
  * (ray_tracer/src/utils.rs). Every random draw is a parameter `r` that
  * stands for one call of `random_float`, a number in [0, 1). */
module Utils {
  import opened Wrappers
  import opened Numeric
  import opened Vectors

  /** `random_range(min, max)` for the draw r: r * (max - min) + min. */
  function RandomRange(min: real, max: real, r: real): (x: real)
    ensures 0.0 <= r < 1.0 && min < max ==> min <= x < max
  {
    var width := max - min;
    if 0.0 <= r < 1.0 && 0.0 < width then
      RangeBound(r, width);
      r * width + min
    else
      r * width + min
  }

  lemma RangeBound(r: real, width: real)
    requires 0.0 <= r < 1.0 && 0.0 < width
    ensures 0.0 <= r * width < width
  {
  }

  /** `u32_random_range(min, max)` for the draw r: the u32 subtraction
    * `max - min` panics when min > max; otherwise `min` is added straight
    * back, so the value is `(r * max) as u32`. */
  function U32RandomRange(min: nat, max: nat, r: real): (x: Outcome<nat>)
    requires min < U32_LIMIT && max < U32_LIMIT
    ensures x.Panic? <==> max < min
  {
    if max < min then Panic("attempt to subtract with overflow")
    else Ok(SaturateU32(Scaled(r, (max - min) + min)))
  }

  /** The draw scaled by a natural number (`random_float() * n as f32`). */
  function Scaled(r: real, n: nat): real
  {
    r * n as real
  }

  lemma ScaledBelow(r: real, n: nat)
    requires 0.0 <= r < 1.0 && 1 <= n
    ensures 0.0 <= Scaled(r, n) < n as real
  {
  }

  /** For a draw in [0, 1) the value stays below max (or is 0 when max is 0). */
  lemma U32RandomRangeBound(min: nat, max: nat, r: real)
    requires min <= max < U32_LIMIT && 0.0 <= r < 1.0
    ensures U32RandomRange(min, max, r).value <= max
    ensures 1 <= max ==> U32RandomRange(min, max, r).value < max
  {
    if max == 0 {
      assert Scaled(r, max) == 0.0;
    } else {
      ScaledBelow(r, max);
      SaturateU32Below(Scaled(r, max), max);
    }
  }

  lemma SaturateU32Below(x: real, bound: nat)
    requires 0.0 <= x < bound as real && bound < U32_LIMIT
    ensures SaturateU32(x) < bound
  {
  }

  /** The lower bound has no effect: any two admissible lower bounds give the
    * same value for the same draw. */
  lemma U32RandomRangeIgnoresMin(min1: nat, min2: nat, max: nat, r: real)
    requires min1 <= max && min2 <= max && max < U32_LIMIT
    ensures U32RandomRange(min1, max, r) == U32RandomRange(min2, max, r)
  {
  }

  /** The candidate built from three draws of `random_range(-1.0, 1.0)`. */
  function Candidate(d: (real, real, real)): Vec3
  {
    Vec3(RandomRange(-1.0, 1.0, d.0), RandomRange(-1.0, 1.0, d.1), RandomRange(-1.0, 1.0, d.2))
  }

  /** The index of the first candidate strictly inside the unit sphere, if
    * any: the one the rejection loop returns. */
  function FirstInside(draws: seq<(real, real, real)>): (k: Option<nat>)
    ensures k.Some? ==> k.value < |draws| && LengthSquared(Candidate(draws[k.value])) < 1.0
    ensures k.Some? ==> forall j :: 0 <= j < k.value ==> LengthSquared(Candidate(draws[j])) >= 1.0
    ensures k.None? ==> forall j :: 0 <= j < |draws| ==> LengthSquared(Candidate(draws[j])) >= 1.0
  {
    if |draws| == 0 then None
    else if LengthSquared(Candidate(draws[0])) < 1.0 then Some(0)
    else match FirstInside(draws[1..])
      case None => None
      case Some(k) => Some(k + 1)
  }

  /** `sample_unit_sphere` over a finite supply of draws: the rejection loop
    * tries the candidates in order and returns the first one with squared
    * length below 1. `None` means the supply ran out before a candidate was
    * accepted (the source would keep drawing). */
  method SampleUnitSphere(draws: seq<(real, real, real)>) returns (sample: Option<Vec3>)
    ensures sample.Some? ==> LengthSquared(sample.value) < 1.0
    ensures FirstInside(draws).Some? ==> sample == Some(Candidate(draws[FirstInside(draws).value]))
    ensures FirstInside(draws).None? ==> sample.None?
  {
    var i := 0;
    while i < |draws|
      invariant 0 <= i <= |draws|
      invariant forall j :: 0 <= j < i ==> LengthSquared(Candidate(draws[j])) >= 1.0
    {
      var candidate := Candidate(draws[i]);
      if LengthSquared(candidate) < 1.0 {
        FirstInsideIsFirst(draws, i);
        return Some(candidate);
      }
      i := i + 1;
    }
    return None;
  }

  /** The first accepted index is unique: any index that is inside and has
    * only rejected candidates before it is the one `FirstInside` names. */
  lemma {:induction false} FirstInsideIsFirst(draws: seq<(real, real, real)>, i: nat)
    requires i < |draws| && LengthSquared(Candidate(draws[i])) < 1.0
    requires forall j :: 0 <= j < i ==> LengthSquared(Candidate(draws[j])) >= 1.0
    ensures FirstInside(draws) == Some(i)
  {
    if i > 0 {
      FirstInsideIsFirst(draws[1..], i - 1);
    }
  }

  /** `reflect(v, n)` = v - n * (2 (v . n)). */
  function Reflect(incident: Vec3, normal: Vec3): Vec3
  {
    Sub(incident, Scale(normal, Dot(incident, normal) * 2.0))
  }

  /** For a unit normal the reflection flips the component along the normal. */
  lemma ReflectFlipsNormalComponent(incident: Vec3, normal: Vec3)
    requires LengthSquared(normal) == 1.0
    ensures Dot(Reflect(incident, normal), normal) == -Dot(incident, normal)
  {
    var d := Dot(incident, normal);
    assert Dot(Reflect(incident, normal), normal) == d - 2.0 * d * LengthSquared(normal);
  }

  /** `lerp(t0, t1, w)` = t0 + (t1 - t0) w. */
  function Lerp(t0: real, t1: real, w: real): (r: real)
    ensures w == 0.0 ==> r == t0
    ensures w == 1.0 ==> r == t1
    ensures t0 <= t1 && 0.0 <= w <= 1.0 ==> t0 <= r <= t1
  {
    var width := t1 - t0;
    assert 0.0 <= w <= 1.0 && 0.0 <= width ==> 0.0 <= width * w <= width;
    t0 + width * w
  }

  /** A `[[[T; 2]; 2]; 2]` corner table. */
  predicate IsCube<T>(c: seq<seq<seq<T>>>)
  {
    |c| == 2 && (forall i :: 0 <= i < 2 ==> |c[i]| == 2 && forall j :: 0 <= j < 2 ==> |c[i][j]| == 2)
  }

  /** `t_lerp`: trilinear interpolation, along x, then y, then z. */
  function TLerp(c: seq<seq<seq<real>>>, u: real, v: real, w: real): (r: real)
    requires IsCube(c)
    ensures u == 0.0 && v == 0.0 && w == 0.0 ==> r == c[0][0][0]
    ensures u == 1.0 && v == 1.0 && w == 1.0 ==> r == c[1][1][1]
  {
    var c00 := Lerp(c[0][0][0], c[1][0][0], u);
    var c01 := Lerp(c[0][0][1], c[1][0][1], u);
    var c10 := Lerp(c[0][1][0], c[1][1][0], u);
    var c11 := Lerp(c[0][1][1], c[1][1][1], u);
    var c0 := Lerp(c00, c10, v);
    var c1 := Lerp(c01, c11, v);
    Lerp(c0, c1, w)
  }

  /** Hermite smoothing u^2 (3 - 2u). */
  function Hermite(u: real): (h: real)
    ensures u == 0.0 ==> h == 0.0
    ensures u == 1.0 ==> h == 1.0
  {
    u * u * (3.0 - 2.0 * u)
  }

  /** The weight of corner index `i` (0 or 1) for the smoothed fraction s. */
  function CornerWeight(i: nat, s: real): real
  {
    i as real * s + (1.0 - i as real) * (1.0 - s)
  }

  /** The loop body's increment for corner (i, j, k), given the smoothed
    * fractions uu, vv, ww: the trilinear weight times the gradient dotted
    * with the offset from that corner. */
  function Contribution(c: seq<seq<seq<Vec3>>>, uu: real, vv: real, ww: real,
                        u: real, v: real, w: real, i: nat, j: nat, k: nat): real
    requires IsCube(c) && i < 2 && j < 2 && k < 2
  {
    CornerWeight(i, uu) * CornerWeight(j, vv) * CornerWeight(k, ww)
      * Dot(c[i][j][k], Vec3(u - i as real, v - j as real, w - k as real))
  }

  /** The contribution of corner (i, j, k) in `perlin_t_lerp`. */
  function PerlinTerm(c: seq<seq<seq<Vec3>>>, u: real, v: real, w: real, i: nat, j: nat, k: nat): real
    requires IsCube(c) && i < 2 && j < 2 && k < 2
  {
    Contribution(c, Hermite(u), Hermite(v), Hermite(w), u, v, w, i, j, k)
  }

  /** The corners in the order the loops visit them: i outermost, then j,
    * then k, each from 0 to 1. */
  const Corners: seq<(nat, nat, nat)> :=
    [(0, 0, 0), (0, 0, 1), (0, 1, 0), (0, 1, 1), (1, 0, 0), (1, 0, 1), (1, 1, 0), (1, 1, 1)]

  /** The n-th corner the loops visit. */
  function Corner(n: nat): (r: (nat, nat, nat))
    requires n < 8
    ensures r.0 < 2 && r.1 < 2 && r.2 < 2
    ensures 4 * r.0 + 2 * r.1 + r.2 == n
  {
    Corners[n]
  }

  /** Corner (i, j, k) is visited at step 4i + 2j + k. */
  lemma CornerAt(i: nat, j: nat, k: nat)
    requires i < 2 && j < 2 && k < 2
    ensures Corner(4 * i + 2 * j + k) == (i, j, k)
  {
  }

  /** The sum of the first n contributions, in the loop order i, j, k. */
  function PerlinSum(c: seq<seq<seq<Vec3>>>, u: real, v: real, w: real, n: nat): real
    requires IsCube(c) && n <= 8
  {
    if n == 0 then 0.0
    else
      var corner := Corner(n - 1);
      PerlinSum(c, u, v, w, n - 1) + PerlinTerm(c, u, v, w, corner.0, corner.1, corner.2)
  }

  /** `perlin_t_lerp`: accumulates the eight corner contributions over the
    * nested loops i, j, k in 0..=1. */
  method PerlinTLerp(c: seq<seq<seq<Vec3>>>, u: real, v: real, w: real) returns (acc: real)
    requires IsCube(c)
    ensures acc == PerlinSum(c, u, v, w, 8)
  {
    acc := 0.0;
    var uu := Hermite(u);
    var vv := Hermite(v);
    var ww := Hermite(w);
    ghost var n := 0;
    for i := 0 to 2
      invariant n == 4 * i && acc == PerlinSum(c, u, v, w, n)
    {
      for j := 0 to 2
        invariant n == 4 * i + 2 * j && acc == PerlinSum(c, u, v, w, n)
      {
        for k := 0 to 2
          invariant n == 4 * i + 2 * j + k && acc == PerlinSum(c, u, v, w, n)
        {
          AccumulateCorner(c, u, v, w, i, j, k, n, acc, uu, vv, ww);
          acc := acc + Contribution(c, uu, vv, ww, u, v, w, i, j, k);
          n := n + 1;
        }
      }
    }
  }

  /** One more step of the loop adds the contribution of corner (i, j, k). */
  lemma PerlinSumStep(c: seq<seq<seq<Vec3>>>, u: real, v: real, w: real, i: nat, j: nat, k: nat)
    requires IsCube(c) && i < 2 && j < 2 && k < 2
    ensures PerlinSum(c, u, v, w, 4 * i + 2 * j + k + 1)
            == PerlinSum(c, u, v, w, 4 * i + 2 * j + k) + PerlinTerm(c, u, v, w, i, j, k)
  {
    CornerAt(i, j, k);
  }

  /** Adding the increment of corner (i, j, k) to the sum so far gives the
    * sum after that corner. */
  lemma AccumulateCorner(c: seq<seq<seq<Vec3>>>, u: real, v: real, w: real, i: nat, j: nat, k: nat,
                         n: nat, acc: real, uu: real, vv: real, ww: real)
    requires IsCube(c) && i < 2 && j < 2 && k < 2 && n == 4 * i + 2 * j + k
    requires uu == Hermite(u) && vv == Hermite(v) && ww == Hermite(w)
    requires acc == PerlinSum(c, u, v, w, n)
    ensures acc + Contribution(c, uu, vv, ww, u, v, w, i, j, k) == PerlinSum(c, u, v, w, n + 1)
  {
    PerlinSumStep(c, u, v, w, i, j, k);
  }

  /** At u = v = w = 0 every corner contributes 0. */
  lemma PerlinTermAtCorner(c: seq<seq<seq<Vec3>>>, i: nat, j: nat, k: nat)
    requires IsCube(c) && i < 2 && j < 2 && k < 2
    ensures PerlinTerm(c, 0.0, 0.0, 0.0, i, j, k) == 0.0
  {
    var h := Hermite(0.0);
    if i == 1 || j == 1 || k == 1 {
      var f := CornerWeight(i, h) * CornerWeight(j, h) * CornerWeight(k, h);
      assert f == 0.0;
    }
  }

  /** At the lattice corner u = v = w = 0 the smoothed noise is 0: every
    * corner but the first has weight 0, and the first is dotted with the
    * zero offset. */
  lemma PerlinAtCorner(c: seq<seq<seq<Vec3>>>)
    requires IsCube(c)
    ensures PerlinSum(c, 0.0, 0.0, 0.0, 8) == 0.0
  {
    var n := 0;
    while n < 8
      invariant 0 <= n <= 8
      invariant PerlinSum(c, 0.0, 0.0, 0.0, n) == 0.0
    {
      PerlinTermAtCorner(c, Corner(n).0, Corner(n).1, Corner(n).2);
      n := n + 1;
    }
  }
}

=== FILE: vectors.dfy ===
/** The three-component vector of the live engine (ray_tracer/src/vec3.rs).
  *
  * The value operations (dot, cross, negation, scaling, division) are
  * functions on the `Vec3` datatype; the compound assignments and `IndexMut`,
  * which update a `let mut` vector in place, are methods of `VecCell`. */
module Vectors {
  import opened Wrappers
  import opened Numeric

  datatype Vec3 = Vec3(x: real, y: real, z: real)

  /** Tolerance of `near_zero`. */
  const NEAR_ZERO_TOLERANCE: real := 0.00000001

  function Zeros(): Vec3 { Vec3(0.0, 0.0, 0.0) }

  function Ones(): Vec3 { Vec3(1.0, 1.0, 1.0) }

  /** The panic message of `v[i]` and `v[i] = ..` for an index past 2:
    * `Invalid vec3 index ({})` with the index in decimal. */
  function IndexMessage(i: nat): string
  {
    "Invalid vec3 index (" + Decimal(i) + ")"
  }

  /** The decimal digits of n, most significant first, as `{}` formats an
    * unsigned integer. */
  function Decimal(n: nat): (s: string)
    ensures |s| >= 1 && forall k :: 0 <= k < |s| ==> '0' <= s[k] <= '9'
    ensures |s| > 1 ==> s[0] != '0'
  {
    if n < 10 then [Digit(n)] else Decimal(n / 10) + [Digit(n % 10)]
  }

  /** The number a string of decimal digits denotes, read most significant
    * digit first. */
  function DecimalValue(s: string): int
  {
    if s == [] then 0 else DecimalValue(s[..|s| - 1]) * 10 + (s[|s| - 1] as int - '0' as int)
  }

  /** Reading back the digits of n gives n: the message names the index. */
  lemma {:induction false} DecimalRoundTrip(n: nat)
    ensures DecimalValue(Decimal(n)) == n
  {
    var s := Decimal(n);
    if n < 10 {
      assert s[..|s| - 1] == [];
    } else {
      assert s[..|s| - 1] == Decimal(n / 10);
      DecimalRoundTrip(n / 10);
    }
  }

  function Digit(d: nat): (c: char)
    requires d < 10
    ensures '0' <= c <= '9'
  {
    ('0' as int + d) as char
  }

  /** `v[i]`: components 0, 1, 2 are x, y, z; any other index panics. */
  function Index(v: Vec3, i: nat): (r: Outcome<real>)
    ensures r.Ok? <==> i <= 2
    ensures i == 0 ==> r == Ok(v.x)
    ensures i == 1 ==> r == Ok(v.y)
    ensures i == 2 ==> r == Ok(v.z)
    ensures i > 2 ==> r == Panic(IndexMessage(i))
  {
    match i
    case 0 => Ok(v.x)
    case 1 => Ok(v.y)
    case 2 => Ok(v.z)
    case _ => Panic(IndexMessage(i))
  }

  /** The vector `v` with component `i` replaced: what `v[i] = value` leaves. */
  function WithComponent(v: Vec3, i: nat, value: real): (r: Vec3)
    requires i <= 2
    ensures Index(r, i) == Ok(value)
    ensures forall j: nat :: j != i ==> Index(r, j) == Index(v, j)
  {
    if i == 0 then v.(x := value) else if i == 1 then v.(y := value) else v.(z := value)
  }

  function Add(a: Vec3, b: Vec3): Vec3 { Vec3(a.x + b.x, a.y + b.y, a.z + b.z) }

  function Sub(a: Vec3, b: Vec3): Vec3 { Vec3(a.x - b.x, a.y - b.y, a.z - b.z) }

  /** `a * b` for two vectors: the componentwise product. */
  function Mul(a: Vec3, b: Vec3): Vec3 { Vec3(a.x * b.x, a.y * b.y, a.z * b.z) }

  /** `v * t`. */
  function Scale(v: Vec3, t: real): Vec3 { Vec3(v.x * t, v.y * t, v.z * t) }

  /** `t * v`, which the source defines as `v * t`. */
  function ScaleLeft(t: real, v: Vec3): (r: Vec3)
    ensures r == Vec3(t * v.x, t * v.y, t * v.z)
  {
    Scale(v, t)
  }

  function Neg(v: Vec3): (r: Vec3)
    ensures Add(v, r) == Zeros()
  {
    Vec3(-v.x, -v.y, -v.z)
  }

  /** `v / t`: panics with "Division by zero" when t is 0. */
  function Div(v: Vec3, t: real): (r: Outcome<Vec3>)
    ensures r.Panic? <==> t == 0.0
    ensures r.Panic? ==> r.message == "Division by zero"
    ensures r.Ok? ==> Scale(r.value, t) == v
  {
    if t == 0.0 then Panic("Division by zero") else Ok(Vec3(v.x / t, v.y / t, v.z / t))
  }

  function Dot(a: Vec3, b: Vec3): real { a.x * b.x + a.y * b.y + a.z * b.z }

  function Cross(a: Vec3, b: Vec3): Vec3
  {
    Vec3(a.y * b.z - a.z * b.y, a.z * b.x - a.x * b.z, a.x * b.y - a.y * b.x)
  }

  function LengthSquared(v: Vec3): real { v.x * v.x + v.y * v.y + v.z * v.z }

  function Length(v: Vec3, sqrt: real -> real): real { sqrt(LengthSquared(v)) }

  /** `Vec3::normalized(v)` = `v / v.length()`; `v.normalize()` is the same call. */
  function Normalized(v: Vec3, sqrt: real -> real): (r: Outcome<Vec3>)
    ensures r.Panic? <==> Length(v, sqrt) == 0.0
    ensures r.Ok? ==> Scale(r.value, Length(v, sqrt)) == v
  {
    Div(v, Length(v, sqrt))
  }

  /** `near_zero`: every component is within 1e-8 of zero. */
  function NearZero(v: Vec3): (r: bool)
    ensures r <==> (-NEAR_ZERO_TOLERANCE < v.x < NEAR_ZERO_TOLERANCE
                    && -NEAR_ZERO_TOLERANCE < v.y < NEAR_ZERO_TOLERANCE
                    && -NEAR_ZERO_TOLERANCE < v.z < NEAR_ZERO_TOLERANCE)
  {
    Abs(v.x) < NEAR_ZERO_TOLERANCE && Abs(v.y) < NEAR_ZERO_TOLERANCE && Abs(v.z) < NEAR_ZERO_TOLERANCE
  }

  /** Writing a component and reading an index gives the written value at
    * that index and the old component everywhere else. */
  lemma IndexAfterWrite(v: Vec3, i: nat, value: real, j: nat)
    requires i <= 2
    ensures Index(WithComponent(v, i, value), j) == if j == i then Ok(value) else Index(v, j)
  {
  }

  lemma DotSymmetric(a: Vec3, b: Vec3)
    ensures Dot(a, b) == Dot(b, a)
  {
  }

  /** The cross product is orthogonal to both factors and anti-commutative. */
  lemma CrossProperties(a: Vec3, b: Vec3)
    ensures Dot(Cross(a, b), a) == 0.0
    ensures Dot(Cross(a, b), b) == 0.0
    ensures Cross(a, b) == Neg(Cross(b, a))
  {
  }

  lemma NegInvolutive(v: Vec3)
    ensures Neg(Neg(v)) == v
  {
  }

  lemma ScaleCommutes(t: real, v: Vec3)
    ensures ScaleLeft(t, v) == Scale(v, t)
  {
  }

  /** Normalisation panics exactly when the length is zero; given a square
    * root that is zero only at zero, that is exactly when the squared length
    * is zero, which the zero vector has. */
  lemma NormalizedPanics(v: Vec3, sqrt: real -> real)
    requires IsSqrt(sqrt)
    ensures Normalized(v, sqrt).Panic? <==> LengthSquared(v) == 0.0
    ensures Normalized(Zeros(), sqrt).Panic?
  {
    var l := LengthSquared(v);
    assert sqrt(l) == 0.0 <==> l == 0.0;
    assert LengthSquared(Zeros()) == 0.0;
  }

  /** A `let mut` vector: the place that `IndexMut` and the compound
    * assignment operators update. */
  class VecCell {
    var x: real
    var y: real
    var z: real

    function Value(): Vec3
      reads this
    {
      Vec3(x, y, z)
    }

    constructor (v: Vec3)
      ensures Value() == v
    {
      x, y, z := v.x, v.y, v.z;
    }

    /** `self[i] = value` through `IndexMut`: panics past index 2, otherwise
      * writes only the selected component. */
    method SetIndex(i: nat, value: real) returns (r: Outcome<()>)
      modifies this
      ensures r.Ok? <==> i <= 2
      ensures i > 2 ==> r == Panic(IndexMessage(i))
      ensures i <= 2 ==> Value() == WithComponent(old(Value()), i, value)
      ensures i > 2 ==> Value() == old(Value())
    {
      if i == 0 {
        x := value;
      } else if i == 1 {
        y := value;
      } else if i == 2 {
        z := value;
      } else {
        return Panic(IndexMessage(i));
      }
      r := Ok(());
    }

    /** `self += rhs`. */
    method AddAssign(rhs: Vec3)
      modifies this
      ensures Value() == Add(old(Value()), rhs)
    {
      x := x + rhs.x;
      y := y + rhs.y;
      z := z + rhs.z;
    }

    /** `self -= rhs`. */
    method SubAssign(rhs: Vec3)
      modifies this
      ensures Value() == Sub(old(Value()), rhs)
    {
      x := x - rhs.x;
      y := y - rhs.y;
      z := z - rhs.z;
    }

    /** `self *= rhs` for a vector: componentwise. */
    method MulAssign(rhs: Vec3)
      modifies this
      ensures Value() == Mul(old(Value()), rhs)
    {
      x := x * rhs.x;
      y := y * rhs.y;
      z := z * rhs.z;
    }

    /** `self *= t`. */
    method ScaleAssign(t: real)
      modifies this
      ensures Value() == Scale(old(Value()), t)
    {
      x := x * t;
      y := y * t;
      z := z * t;
    }

    /** `self /= rhs`: each component divided by the matching one of rhs,
      * written through `self[0]`, `self[1]`, `self[2]`. */
    method DivAssign(rhs: Vec3)
      requires rhs.x != 0.0 && rhs.y != 0.0 && rhs.z != 0.0
      modifies this
      ensures Mul(Value(), rhs) == old(Value())
    {
      var v := Value();
      var ok := SetIndex(0, v.x / rhs.x);
      v := Value();
      ok := SetIndex(1, v.y / rhs.y);
      v := Value();
      ok := SetIndex(2, v.z / rhs.z);
    }
  }
}

=== FILE: wrappers.dfy ===
/** Option, Outcome and FloatOutcome: the ways the engine reports "no
  * value". Option stands for Rust's Option; Outcome stands for a
  * computation that either returns a value or panics (Rust's panic!,
  * expect, unwrap on None, an out-of-range index). */
module Wrappers {

  datatype Option<T> = None | Some(value: T)

  datatype Outcome<T> = Ok(value: T) | Panic(message: string)

  /** A floating-point computation that either gives a value or divides
    * by zero. In `f64` a division by zero does not panic: it gives an
    * infinity or NaN and the computation goes on with it. Reals hold
    * neither, so the model stops at that division and reports
    * `DividedByZero` instead of following the non-finite value. */
  datatype FloatOutcome<T> = Finite(value: T) | DividedByZero
}
